=== FILE: README.md ===
# ghostroot corpus state machine, in Dafny

ghostroot simulates the decipherment of an extinct language. A speaker
agent asks a language model for a made-up inscription and stores it as two
artifacts (a single-word inscription and a sentence). A researcher agent
then reads the whole corpus, builds per-language token statistics, asks the
model for gloss proposals and research questions, and its results are
written back. Everything lives in three JSON list stores: the artifacts,
the research log and the research questions.

This project models the deterministic core of that loop once the model
calls, the clock and the random choices are taken out:

- `Store` (store.dfy): the JSON list store of `tools.py`. A file is abstract:
  `Absent`, or `Present` with what `json.loads` makes of its text (`None`
  when it is not JSON). Records are `map<string, Json>`. The module covers
  load, write, the three appends, keyword search, answer updates by id,
  gloss updates by artifact id, and `make_id`.
- `Researcher` (researcher.dfy): `researcher.py` without its HTTP call.
  It covers per-language tokenisation, the `Counter.most_common(10)`
  statistics, the gloss-candidate window and batch, the question review
  filter, and matching the model's answers back to stored questions. It
  also covers "parse or return empty" of the replies and the research note.
- `ContextResearcher` (context.dfy): `context_researcher.py`. It builds the
  word to gloss lookup from inscriptions and the word to sentence
  cross-reference. It also covers the `context_analysis` note and its
  counts.
- `Speaker` (speaker.dfy): what `generate_artifact` does with the model's
  reply. This is word picking, quote stripping and truncation into exactly
  two artifacts.
- `Cycle` (cycle.dfy): `run.py`. It covers the `--speaker` guard, the
  speaker-only loop and the eight steps of one full cycle over the three
  stores.
- Supporting modules:
  - `Results`: results and faults;
  - `JsonValue`: JSON values;
  - `PyText`: the Python string operations the code relies on (`strip`,
    `split`, `lower`, `re.findall` over a character class, string order,
    `str(int)`);
  - `PySeq`: Python slices with negative bounds;
  - `Sorting`: a stable sort.

Modelling conventions:

- Where the Python code raises, the Dafny function returns `Fail(fault)`.
  This covers `KeyError`, `TypeError`, `AttributeError`, an unhashable
  dict key, an invalid or non-list store, and a comparison `sorted` cannot
  make. A cycle that meets a fault stops where it stands. Every store
  write made before the fault is kept, as in the program.
- Everything the program reads from outside is a parameter:
  - `time.time()` readings;
  - the model replies, either as text or as the `Option<Json>` that
    `json.loads` gives;
  - the indices `random.choice` picks.
  
  `Cycle.Inputs` collects these for one cycle. Each new question of step 7
  reads its own clock value (`questionMs(k)`). Storing glosses and answers
  reads the clock once for every record it updates, so those readings are
  functions from the record's position in its store to a second
  (`glossClock(i)`, `updateClock(i)`).
- Integers are unbounded, as in Python.

Where the system's documentation and its code differ, the model follows
the code:

- New questions are stored with the confidence the model gave them. Step
  7 sets only `research_note_id`, `id` and `created_at`; it does not force
  `"low"` (`Cycle.StampedKeepsFields`).
- The model's replies are not all handled without raising. A reply object
  whose `answers` are not objects raises (`Researcher.MatchAnswers`,
  `Researcher.AnswerItems`). A gloss proposal that is not an object with
  an `artifact_id` makes `update_artifact_glosses` raise, and so does one
  that matches a stored artifact but lacks `gloss` or `confidence`. A
  proposal for an unknown id is dropped, whatever else it lacks
  (`Store.UpdateArtifactGlosses`).
- Gloss updates store `gloss` and `confidence`. The proposal's `meaning`
  is never stored.
- A failing step can leave part of its writes behind. Step 7 appends the
  new questions one by one, so the questions before a non-object one stay
  saved (`Cycle.SaveQuestions`).
- The two tokenisers differ in their apostrophe. The corpus statistics
  accept U+2019 (`’`). The context cross-reference accepts the ASCII
  U+0027 (`'`).
- The "needs review" count that `main` displays uses a rule that differs
  from the researcher's review filter. An answer of only whitespace counts
  as an answer for the display but not for the researcher. The displayed
  count is never larger than the number reviewed, and can be smaller
  (`Cycle.ReviewCountAtMostReviewed`, `Cycle.BlankAnswerNotFlagged`).
- In `generate_artifact`, the fallback to the first word of the stripped
  reply is never taken. A reply with no words is blank, so the word is
  `"unk"` (`Speaker.ChosenWord`).

## Model

| member | source | states |
|---|---|---|
| Store.EnsureListFile | src/ghostroot/tools.py:10-27 | a missing file becomes `[]`; text that is not JSON, or JSON that is not a list, is rejected; a list file is left as it is |
| Store.LoadJsonList | src/ghostroot/tools.py:30-40 | the load succeeds exactly when the file is missing or holds a list; the records have the list's length and order, objects unchanged and every other item at index i replaced by `{"_invalid_index": i, "value": item}` |
| Store.Placeholder | src/ghostroot/tools.py:39 | a non-object item is stored under its index as `{"_invalid_index": i, "value": item}`, keeping the item itself |
| Store.WriteJsonList | src/ghostroot/tools.py:43-45 | the write succeeds exactly when the file is missing or holds a list, and loading what was written gives back exactly the records written |
| Store.Append | src/ghostroot/tools.py:52-61 | after an append the store loads as the old records followed by the new one (so one longer, ending in it); a store that does not load is rejected and nothing is written |
| Store.LoadMissingIsIdempotent | src/ghostroot/tools.py:16-18 | loading a missing store creates it holding `[]`, and loading it again still gives no records |
| Store.CorruptStoreRejected | src/ghostroot/tools.py:21-27 | a store that is not JSON, or not a list, makes load, append and write fail with the matching fault |
| Store.Haystack | src/ghostroot/tools.py:82-89 | the text of every selected field that is not `None`, lowercased, occurs in the haystack |
| Store.FieldHitMatches | src/ghostroot/tools.py:80-91 | a record matches whenever one selected field that is not `None` holds the key in its lowercased text |
| Store.MatchingRecords | src/ghostroot/tools.py:80-92 | reference for a search: a record is in the result exactly when it is a stored record whose selected fields contain the key |
| Store.Search | src/ghostroot/tools.py:64-92 | a keyword that lowercases and strips to nothing finds nothing; otherwise the loop returns the order-preserving selection of matching records over the given fields or `id, language, type, text` |
| Store.QuestionUpdatesById | src/ghostroot/tools.py:123 | updates without `id` are ignored, every id that occurs is a key, the last update per id wins, and an unhashable id raises |
| Store.AnswerUpdate | src/ghostroot/tools.py:129-135 | `proposed_answer` and `confidence` are taken from the update only when it has them, `updated_at` is stamped, and no other field changes |
| Store.ApplyAnswerUpdates | src/ghostroot/tools.py:126-136 | same length and order; the matched question at position i takes its update with the clock reading for position i, unmatched ones are unchanged; the count is the number of matched questions |
| Store.UpdateResearchQuestions | src/ghostroot/tools.py:106-139 | the stored questions reload with the same length and order; each matched one gets its update, stamped with its own clock reading, and the rest are unchanged; the result counts the matches; it fails exactly on a corrupt store or an unhashable id |
| Store.UnmatchedUpdateChangesNothing | src/ghostroot/tools.py:126-136 | an update whose id matches no stored question leaves the records as they were and counts 0 |
| Store.GlossUpdatesById | src/ghostroot/tools.py:159 | every update must be an object with a hashable `artifact_id`; each id maps to the last update for it |
| Store.GlossApplied | src/ghostroot/tools.py:165-170 | metadata `gloss`, `confidence` and `gloss_updated_at` are set, created when missing; nothing else in the artifact or its metadata changes; fails without `gloss` or `confidence` |
| Store.ApplyGlossUpdates | src/ghostroot/tools.py:161-172 | same length and order; the matched artifact at position i is glossed with the clock reading for position i, unmatched ones are unchanged; the count is the number of matched artifacts |
| Store.UpdateArtifactGlosses | src/ghostroot/tools.py:142-174 | the artifacts reload with the same length and order, matched ones glossed, each with its own clock reading, and the rest unchanged; updates for unknown ids are dropped; it fails exactly on a corrupt store, an update that is not an object with a hashable `artifact_id`, a stored artifact with an unhashable id, or a matched artifact whose update lacks `gloss` or `confidence` or whose metadata is not an object |
| Store.MakeId | src/ghostroot/tools.py:177-182 | an id is its prefix followed by something more |
| Store.MakeIdReadsBack | src/ghostroot/tools.py:182 | after the prefix an id holds only decimal digits, and they read back as the millisecond clock value |
| Store.MakeIdInjective | src/ghostroot/tools.py:182 | two ids with one prefix are equal exactly when they were made in the same millisecond |
| PyText.Strip | src/ghostroot/tools.py:73 | `strip()` gives nothing exactly for an all-whitespace text, and otherwise starts and ends on non-whitespace |
| PyText.StripIsBothSides | src/ghostroot/tools.py:73 | `strip()` is `lstrip()` followed by `rstrip()` |
| PyText.Lower | src/ghostroot/tools.py:89 | `lower()` keeps the length and maps each character on its own |
| PyText.Runs | src/ghostroot/agents/researcher.py:93 | `re.findall` over a character class gives non-empty runs of that class only |
| PyText.RunsCoverFilter | src/ghostroot/agents/researcher.py:93 | the runs, concatenated, are exactly the class characters of the text, in order |
| PyText.SplitJoin | src/ghostroot/agents/speaker.py:127-129 | joining words with single spaces and splitting again gives the words back |
| PyText.SplitEmptyIffBlank | src/ghostroot/agents/speaker.py:112-121 | `split()` is empty exactly when `strip()` is |
| PyText.DecimalRoundTrip | src/ghostroot/tools.py:182 | a number written in decimal reads back as itself |
| PyText.LexLeTotal | src/ghostroot/agents/researcher.py:346 | any two strings are ordered one way or the other |
| PyText.LexLeTransitive | src/ghostroot/agents/researcher.py:346 | string order is transitive |
| PySeq.From | src/ghostroot/agents/researcher.py:128 | `xs[start:]` is a suffix of `xs` whose length follows Python's rules for negative and out-of-range starts |
| PySeq.Upto | src/ghostroot/agents/speaker.py:129 | `xs[:stop]` is a prefix of `xs` whose length follows Python's rules for negative and out-of-range stops |
| Sorting.SortBy | src/ghostroot/agents/researcher.py:346 | the result is sorted by a total preorder and is a permutation of the input |
| Results.FilterOk | src/ghostroot/agents/researcher.py:189-194 | a filtering loop succeeds exactly when its test raises on no element, and otherwise reports the fault of an element it raised on |
| Results.FilterOkMembers | src/ghostroot/agents/researcher.py:189-194 | exactly the elements the test accepts survive the filter |
| Results.FilterOkAppend | src/ghostroot/agents/researcher.py:117-122 | filtering a concatenation filters the parts in turn: the first part's fault wins, and otherwise the kept elements of both parts follow each other |
| Results.FilterOkOrder | src/ghostroot/agents/researcher.py:117-122 | the filter keeps the input's order and every occurrence of an accepted element, and nothing else |
| Researcher.Tokenize | src/ghostroot/agents/researcher.py:93 | every token is non-empty |
| Researcher.TokensSpellText | src/ghostroot/agents/researcher.py:93 | the tokens, put together, are exactly the text's token characters, lowercased, in order |
| Researcher.TokensAreWords | src/ghostroot/agents/researcher.py:93 | every token is a non-empty run of `[a-zA-Zʔʼ’-]` with no upper-case letter |
| Researcher.AddTokens | src/ghostroot/agents/researcher.py:94 | extending a language's list adds the tokens to that language only, and adds the language when it was new |
| Researcher.ExtractTokens | src/ghostroot/agents/researcher.py:83-95 | the languages are exactly those of the non-sentence artifacts with string text; each holds exactly their tokens in corpus order; an unhashable language raises |
| Researcher.SentencesGiveNoTokens | src/ghostroot/agents/researcher.py:86-88 | a corpus of sentences alone gives no language and no token |
| Researcher.Distinct | src/ghostroot/agents/researcher.py:290 | the counter's keys: each token once, and only tokens that occur |
| Researcher.MostCommon | src/ghostroot/agents/researcher.py:293 | at most n distinct tokens of the list, by non-increasing count, none left out more frequent than one kept, and all of them when there are at most n |
| Researcher.Summarize | src/ghostroot/agents/researcher.py:290-294 | a summary keeps its language, counts all its tokens, and lists at most ten of them, most frequent first |
| Researcher.Summaries | src/ghostroot/agents/researcher.py:288-294 | one summary per language of the token map, in the map's order |
| Researcher.SummariesFaithful | src/ghostroot/agents/researcher.py:288-294 | for each language seen, `token_count` is the number of its tokens and `top_tokens` holds at most ten of its tokens, most frequent first |
| Researcher.NeedsGloss | src/ghostroot/agents/researcher.py:118-121 | an artifact is a candidate exactly when it is not already glossed with a confidence other than `"low"`; non-object metadata or a non-string truthy gloss raises |
| Researcher.GlossCandidates | src/ghostroot/agents/researcher.py:113-122 | the candidates are the non-sentence artifacts among the last 20 whose gloss is not settled, in window order (a subsequence of the window) and each as often as the window holds it; the pass raises exactly when the candidate test raises on a window artifact |
| Researcher.ParseGlossReply | src/ghostroot/agents/researcher.py:161-167 | a reply that decodes to a list is taken as it is; anything else gives no proposals |
| Researcher.GenerateArtifactGlosses | src/ghostroot/agents/researcher.py:112-167 | with no candidates the model is not asked and nothing is proposed; otherwise the batch is the last `max_to_gloss` candidates and the proposals are the parsed reply; a batch artifact without `id` raises |
| Researcher.GlossBatchSize | src/ghostroot/agents/researcher.py:128 | a positive cap keeps the last `min(cap, n)` candidates, and a cap of 0 keeps them all |
| Researcher.NeedsReview | src/ghostroot/agents/researcher.py:190-193 | a question is reviewed exactly when it is not confidently answered (a confidence other than empty, low or medium in any case, with a non-blank answer); a non-string confidence, or a truthy non-string answer, raises |
| Researcher.ReviewFilter | src/ghostroot/agents/researcher.py:186-194 | the reviewed questions are exactly the stored ones not confidently answered |
| Researcher.FirstWithId | src/ghostroot/agents/researcher.py:264-269 | an answer hits the first stored question with an equal id, or none when no id is equal |
| Researcher.Answered | src/ghostroot/agents/researcher.py:266-267 | an answer sets `proposed_answer` (default `""`) and `confidence` (default `"low"`) and nothing else |
| Researcher.AnsweredForgets | src/ghostroot/agents/researcher.py:266-267 | a later answer overwrites everything an earlier one set |
| Researcher.MatchAnswers | src/ghostroot/agents/researcher.py:262-269 | every stored question keeps all fields but the answer fields; the hits are the reference hits in answer order; a non-object answer raises |
| Researcher.MatchUntouched | src/ghostroot/agents/researcher.py:262-269 | a question no answer hits is left as stored |
| Researcher.MatchLastWins | src/ghostroot/agents/researcher.py:262-269 | a question takes the values of the last answer that hits it |
| Researcher.AnswerItems | src/ghostroot/agents/researcher.py:258-262 | a list of answers is iterated as it is; an empty dict or string gives no answers; a non-empty dict or string (whose keys or characters have no `.get`), a number, a boolean or null raises |
| Researcher.ParseQuestionReply | src/ghostroot/agents/researcher.py:253-275 | a reply that is not a JSON object gives no new and no updated questions; new questions are returned exactly as given (none when not a list); the updated list holds the hit questions in answer order, each as it stands after all answers |
| Researcher.GenerateResearchQuestions | src/ghostroot/agents/researcher.py:184-275 | a fault in the review filter stops the step; otherwise the result is the reply parsed over all stored questions |
| Researcher.SortedLanguages | src/ghostroot/agents/researcher.py:346 | `sorted` succeeds exactly for at most one key, all strings or all numbers; the result is a permutation, all strings in code-point order or all numbers in numeric order |
| Researcher.LanguagesSeen | src/ghostroot/agents/researcher.py:346 | `languages_seen` lists every language of the token map exactly once, in Python's sorted order |
| Researcher.NoteRecordsCorpus | src/ghostroot/agents/researcher.py:340-348 | the note is a `research_note` with the entry id, the narrative, `artifact_count = len(artifacts)` and the languages seen, each contributing language exactly once, sorted |
| Researcher.AnalyzeCorpus | src/ghostroot/agents/researcher.py:278-350 | the analysis succeeds exactly when statistics, question step, gloss step and language sort do; its note records the corpus with each contributing language once, sorted, and its questions and glosses are those steps' results |
| ContextResearcher.ContextTokens | src/ghostroot/agents/context_researcher.py:111 | every token of a sentence is non-empty |
| ContextResearcher.ContextTokensSpellText | src/ghostroot/agents/context_researcher.py:111 | a sentence's tokens, put together, are exactly its token characters (with the ASCII apostrophe), lowercased, in order |
| ContextResearcher.HeadWord | src/ghostroot/agents/context_researcher.py:94 | the lookup key has no surrounding whitespace and is empty exactly when the lowercased text is blank |
| ContextResearcher.LookupAdd | src/ghostroot/agents/context_researcher.py:92-102 | an inscription with a non-empty head word (its whole text lowercased and stripped) and a truthy meaning sets that word's entry, and any other artifact leaves the lookup alone; it raises exactly on an inscription whose text is not a string, or whose head word comes without object metadata |
| ContextResearcher.GlossLookup | src/ghostroot/agents/context_researcher.py:91-102 | the lookup pass raises exactly on an artifact it cannot read |
| ContextResearcher.LookupDomain | src/ghostroot/agents/context_researcher.py:91-102 | the lookup holds exactly the words some inscription defines |
| ContextResearcher.LookupLastWins | src/ghostroot/agents/context_researcher.py:97-102 | a word keeps the gloss of the last inscription that defines it |
| ContextResearcher.AddSighting | src/ghostroot/agents/context_researcher.py:114-119 | appending a sighting extends that word's list by one and changes no other list |
| ContextResearcher.AddTokens | src/ghostroot/agents/context_researcher.py:112-119 | a sentence adds exactly its glossed tokens as words, and one sighting per glossed token |
| ContextResearcher.AddTokensSightings | src/ghostroot/agents/context_researcher.py:112-119 | a sentence appends one sighting of a word per occurrence of it, carrying its gloss, and touches no other list |
| ContextResearcher.OccurrencesCount | src/ghostroot/agents/context_researcher.py:112-119 | repeats of a word within a sentence give repeated sightings |
| ContextResearcher.CollectSightings | src/ghostroot/agents/context_researcher.py:105-119 | the words are exactly the glossed words seen in a sentence, and the total sightings are the glossed tokens of all sentences |
| ContextResearcher.CollectedSightings | src/ghostroot/agents/context_researcher.py:105-119 | each word's list is its sentence occurrences in corpus order |
| ContextResearcher.SightedMeansSeen | src/ghostroot/agents/context_researcher.py:105-119 | a word is sighted exactly when it is glossed and some sentence holds it as a token |
| ContextResearcher.ExtractWordContexts | src/ghostroot/agents/context_researcher.py:83-121 | the cross-reference is the second pass over the first pass's lookup, and raises when either pass does |
| ContextResearcher.SightingsShareGloss | src/ghostroot/agents/context_researcher.py:113-119 | every sighting of a word carries that word's one lookup entry, so all its contexts share one gloss |
| ContextResearcher.ContextsFault | src/ghostroot/agents/context_researcher.py:162 | building one word's context list raises exactly when a context is not a string |
| ContextResearcher.PromptFault | src/ghostroot/agents/context_researcher.py:153-164 | the prompt raises exactly when a prompt word has a non-string context |
| ContextResearcher.NoDataNote | src/ghostroot/agents/context_researcher.py:139-149 | the no-data note is a `context_analysis` entry under the entry id with no word analysed, carrying `contradictions_found` and no `sentence_count` |
| ContextResearcher.AnalysisNote | src/ghostroot/agents/context_researcher.py:191-199 | the analysis note is a `context_analysis` entry under the entry id with the narrative, the number of words analysed and their total sentence occurrences |
| ContextResearcher.AnalyzeContextualFit | src/ghostroot/agents/context_researcher.py:124-201 | with no glossed word in a sentence, a fixed note and no model call; otherwise the narrative with `words_analyzed` (all words) and `sentence_count` (all sightings); only the first ten words reach the prompt |
| ContextResearcher.WordsAnalyzed | src/ghostroot/agents/context_researcher.py:196 | `words_analyzed` counts each sighted word once and is not capped at ten |
| Speaker.PickContext | src/ghostroot/agents/speaker.py:99 | the context comes from the fixed list |
| Speaker.StripQuotes | src/ghostroot/agents/speaker.py:123 | at most a leading and a trailing quote are removed, and every other character is kept; a leading quote is always removed, and the rest is a contiguous piece of the text in order, followed by the final newline when the quote before it was removed |
| Speaker.LeadingQuoteOnly | src/ghostroot/agents/speaker.py:126 | a text that only starts with a quote loses exactly that quote |
| Speaker.TrailingQuoteOnly | src/ghostroot/agents/speaker.py:126 | a text that only ends with a quote loses exactly that quote |
| Speaker.QuotedUnwrapped | src/ghostroot/agents/speaker.py:126 | a text between two quotes loses exactly those quotes |
| Speaker.UnquotedUnchanged | src/ghostroot/agents/speaker.py:126 | a text with no quote at either end is left as it is |
| Speaker.QuoteBeforeFinalNewline | src/ghostroot/agents/speaker.py:126 | as `$` matches before a final newline, a quote there is removed and the newline kept |
| Speaker.StripQuotesKeeps | src/ghostroot/agents/speaker.py:123 | quote stripping introduces no character |
| Speaker.LongWords | src/ghostroot/agents/speaker.py:112 | the words longer than one character, and only those |
| Speaker.WordPool | src/ghostroot/agents/speaker.py:112-115 | the pool holds words of the reply, only long ones when there are any, and is empty exactly for a blank reply |
| Speaker.ChosenWord | src/ghostroot/agents/speaker.py:117-121 | a blank reply gives `"unk"`; otherwise the choice is a word of the reply, a long one when there is one |
| Speaker.InscriptionWord | src/ghostroot/agents/speaker.py:117-123 | the inscription text holds no whitespace and is `"unk"` for a blank reply |
| Speaker.InscriptionFromReply | src/ghostroot/agents/speaker.py:112-123 | the inscription is a word of the reply with its quotes removed, and a long word whenever the reply has one |
| Speaker.Sentence | src/ghostroot/agents/speaker.py:126-129 | the sentence's words are the first `max_words` words of the unquoted, stripped reply; a longer text becomes those words joined by single spaces, and one that is not longer is left as it is |
| Speaker.SentenceWordLimit | src/ghostroot/agents/speaker.py:126-129 | with a non-negative limit the sentence has at most that many words, and they are the reply's first words |
| Speaker.SpeakerMetadata | src/ghostroot/agents/speaker.py:138-144 | fresh metadata is the context with empty gloss, meaning and confidence and no gloss timestamp |
| Speaker.ArtifactRecord | src/ghostroot/agents/speaker.py:133-145 | an artifact has exactly the fields `id`, `language`, `type`, `text` and `metadata` |
| Speaker.GenerateArtifact | src/ghostroot/agents/speaker.py:99-159 | exactly two artifacts: the inscription `artifact_id` and the sentence `artifact_id + "_S"`, in the branch language, sharing one context from the list |
| Speaker.FreshArtifactsForResearch | src/ghostroot/agents/speaker.py:132-159 | a fresh inscription feeds the statistics under its branch and is a gloss candidate; a fresh sentence is neither |
| Cycle.ModeOf | src/ghostroot/run.py:86-91 | no count or a zero count runs the full cycle, a negative count is refused, and a positive count runs the speaker alone that many times |
| Cycle.Main | src/ghostroot/run.py:72-91 | a negative count is refused, a positive count runs the speaker that many times over the artifact store, and no count or a zero count runs one full cycle |
| Cycle.ExitStatus | src/ghostroot/run.py:72-279 | the status is 0 or 1, and 1 exactly for a refused count or a run that stops on one of the modelled faults, since `main` catches no exception |
| Cycle.MainExitStatus | src/ghostroot/run.py:72-279 | a refused count exits 1; speaker-only runs exit 1 exactly when the artifact store does not load; a full cycle exits 1 exactly when it stops on a fault; an artifact store that does not load makes every mode exit 1 |
| Cycle.AppendAll | src/ghostroot/run.py:134-135 | appending records one at a time leaves the store as its old records followed by all of them |
| Cycle.RunSpeakerOnly | src/ghostroot/run.py:26-69 | after n runs the store loads as its old records followed by every run's pair in run order; with at least one run it fails exactly when the store does not load |
| Cycle.DrawnAll | src/ghostroot/run.py:38-61 | n runs generate 2n artifacts |
| Cycle.DrawnAllRuns | src/ghostroot/run.py:38-61 | run i adds the inscription `make_id("A")` and its sentence at positions 2i and 2i+1, both in `ghostlang` |
| Cycle.ReviewCount | src/ghostroot/run.py:151-158 | the displayed count fails exactly on a truthy non-string confidence, never exceeds the number of questions, and is 0 or all exactly when no or every question is flagged |
| Cycle.ReviewCountAppend | src/ghostroot/run.py:152-156 | the count of a concatenation is the sum of the counts, and one question counts 1 exactly when flagged, so the count is the number of flagged questions |
| Cycle.ConfidenceDisplayable | src/ghostroot/run.py:155 | the display can lower a question's confidence exactly when it is falsy or a string, which holds for every question the researcher's filter can read |
| Cycle.Flagged | src/ghostroot/run.py:155-156 | the display's rule; a question it flags is one the researcher reviews |
| Cycle.ReviewCountAtMostReviewed | src/ghostroot/run.py:153-157 | the displayed count is at most the number of questions the researcher reviews |
| Cycle.BlankAnswerNotFlagged | src/ghostroot/run.py:153-157 | a confident question with a whitespace answer is not counted by the display but is reviewed by the researcher |
| Cycle.Stamped | src/ghostroot/run.py:198-200 | a new question gets the note id, a `Q` id from its clock reading and the creation second |
| Cycle.StampedKeepsFields | src/ghostroot/run.py:198-200 | stamping changes no other field, so the model's confidence and answer are kept |
| Cycle.StampAll | src/ghostroot/run.py:197-201 | one stamped record per new question, in order; what each one holds is stated by `Cycle.StampAllAt` |
| Cycle.StampAllAt | src/ghostroot/run.py:197-200 | the i-th saved question is the i-th new one stamped with the i-th clock reading |
| Cycle.SaveQuestions | src/ghostroot/run.py:195-201 | step 7 appends the stamped leading objects in order; a non-object question raises after the ones before it are saved |
| Cycle.SpeakStage | src/ghostroot/run.py:104-143 | a corpus that does not load stops the cycle with nothing written; otherwise only the artifact store changes, and it reloads as the old corpus followed by the new pair |
| Cycle.GlossStep | src/ghostroot/run.py:177-186 | gloss updates are applied only when there are proposals |
| Cycle.RecordStage | src/ghostroot/run.py:176-210 | the artifacts change only by the gloss step, the log gains the note and nothing else; a completed cycle saved every new question and then applied the answers to the saved store |
| Cycle.ResearchStage | src/ghostroot/run.py:146-210 | a cycle that completes or writes the log has appended exactly the analysis' note; the analysis sees the questions as stored; artifacts change only by its glosses |
| Cycle.RunCycle | src/ghostroot/run.py:104-106 | a corpus that does not load aborts the cycle with every store unchanged |
| Cycle.CycleLogsOneNote | src/ghostroot/run.py:188-191 | a full cycle that completes logs exactly one note after the old entries, recording the corpus with the new pair |
| Cycle.CycleKeepsArtifacts | src/ghostroot/run.py:132-186 | after a cycle the artifact store is the old corpus followed by the new pair, changed only in metadata |
| Cycle.GlossStepKeeps | src/ghostroot/run.py:177-183 | applying gloss proposals keeps every artifact and every field but its metadata |
| Cycle.SavedQuestionsRecords | src/ghostroot/run.py:195-201 | step 7 without a fault saved every new question, all of them objects, after the stored ones |
| Cycle.StampedAfter | src/ghostroot/run.py:197-201 | the saved new questions carry their stamps at their positions after the stored ones |
| Cycle.AnswersKeepQuestions | src/ghostroot/run.py:206-209 | storing answers keeps every question and every field outside the answer fields |
| Cycle.AnswersKeepStamps | src/ghostroot/run.py:197-209 | storing answers never removes a stamp of step 7 |
| Cycle.QuestionsSavedOnly | src/ghostroot/run.py:194-203 | step 7 alone records the stored questions followed by the stamped new ones |
| Cycle.AnsweringKeepsRecorded | src/ghostroot/run.py:205-209 | step 8 after step 7 keeps what step 7 recorded |
| Cycle.RecordStageQuestions | src/ghostroot/run.py:194-209 | in a completed cycle the question store is the old questions, changed only in answer fields, followed by the stamped new questions |
| Cycle.CycleRecordsQuestions | src/ghostroot/run.py:194-209 | a completed full cycle saved every new question of its analysis, stamped, after the stored ones, and changed no stored question outside its answer fields |
| Cycle.FreshPairAnalyzed | src/ghostroot/agents/researcher.py:278-350 | the researcher accepts a corpus of one fresh pair, and with no usable reply proposes no gloss and no question |
| Cycle.NoQuestionsNoReply | src/ghostroot/agents/researcher.py:253-275 | with no stored question and no usable reply, nothing is reviewed, proposed or answered |
| Cycle.RecordQuiet | src/ghostroot/run.py:188-214 | an analysis with no glosses and no questions completes and only appends its note |
| Cycle.ResearchQuiet | src/ghostroot/run.py:149-214 | with no stored questions and a quiet analysis, the cycle completes, creates the question store empty and logs the note |
| Cycle.FirstSpeak | src/ghostroot/run.py:104-143 | steps 0 to 3 on missing stores leave the new pair as the whole corpus and write nothing else |
| Cycle.FirstCycleCompletes | src/ghostroot/run.py:104-214 | the first cycle on missing stores with no usable reply completes: the corpus is the new pair, the log holds one note, and the question store is `[]` |

## Left out

- HTTP calls to the model (`ask_ollama`, `_ollama_generate_http`) and their
  timeouts and status codes are left out; each reply is an input, as text or
  as its decoded JSON. The speaker turns a transport error into reply text,
  which is just another reply here.
- The wording of the prompts, the `repr` of dicts and lists inside them,
  the narrative prompt's `max_hypotheses` and its window of the last 12
  artifacts, and the question prompt's window of the last 8 artifacts are
  left out. They only shape text sent to the model.
- JSON text parsing and serialisation, indentation, encodings and the
  filesystem (`mkdir`, paths) are left out; a file is `Absent` or `Present`
  with its decoded content.
- `rich` panels, status lines and timings, and `argparse` itself are left
  out. The model assumes that printing never raises. It can: `rich` parses
  markup in what it prints, and a closing tag such as `[/x]` that matches
  no open tag raises `MarkupError`. The printed text includes model text:
  the artifact text (run.py:60, 129), the narrative, and the question and
  gloss texts in the final panels (run.py:217-275). The lines below name
  each member this affects.
- `config.py` is not part of this model; settings such as `max_speaker_words`
  are parameters. `seed_context` and `ollama_bin` are unused by the code.
- JSON numbers are integers only; floats are not modelled, and neither is
  Python's `True == 1` coalescing of dict keys and equality.
- PyText.Lower: lowercases ASCII letters only, because Unicode case mapping
  is not modelled; the token classes hold no other cased letters except
  what the corpus tokenizer's class lets through (`ʔ`, `ʼ`, `’`, which have
  no case).
- Store.FieldText: `str()` of a list or dict is the parameter `render`,
  because Python's `repr` of containers is not modelled.
- Store.MakeId: ids are not unique; several questions stamped within one
  millisecond share an id, and the model does not assume otherwise.
- Store.UpdateResearchQuestions: on a missing store, a call that fails
  does not return the file holding `[]` that the load has already written
  (tools.py:16-18, 120). In the cycle the question store always exists by
  step 8, so the difference is not observable there.
- Store.UpdateArtifactGlosses: on a missing store, a call that fails does
  not return the file holding `[]` that the load has already written
  (tools.py:16-18, 156). In the cycle the artifact store always exists by
  step 5, so the difference is not observable there.
- Cycle.RecordStage: the reload of the artifacts after step 5 only feeds the
  final display and is left out.
- Cycle.Stamped: each new question reads the clock once for both its id and
  `created_at` (`questionMs(k)`), where the code reads it twice; the two
  readings can differ by a millisecond boundary.
- Cycle.SpeakStage: a markup error while printing the new pair (run.py:129)
  would stop the cycle before step 2 saves it. The model saves the pair,
  because printing never raises here.
- Cycle.RunSpeakerOnly: a markup error while printing a saved record
  (run.py:60) would stop the runs after that record, possibly with only a
  run's inscription saved. The model appends every pair.
- Cycle.MainExitStatus: a full cycle that completes exits 0 here. A markup
  error in the final panels (run.py:217-275), or in the prints above, would
  make it exit 1 after every write.
- Cycle.ExitStatus: status 1 covers the faults the model raises. A markup
  error from `rich` while printing model text would also exit 1 and is not
  modelled (see the `rich` line above). An
  exception from the model call itself, or an interrupt, would also end
  `main` with status 1; those calls are inputs here, so that case is not
  modelled.
- `analyze_contextual_fit` is not called by `run.py`; it is modelled on its
  own (`ContextResearcher.AnalyzeContextualFit`) and not part of the cycle.
- Researcher.MostCommon: ties between equal counts keep first-occurrence
  order, as `Counter.most_common` does, but the contract only states the
  count order and the bound.
- Concurrency: the stores are assumed to have a single writer, as the code
  assumes.

=== FILE: context.dfy ===
/** The contextual-fit researcher: which glossed words turn up in which
    sentences, and the `context_analysis` note built from that. Unlike the
    corpus researcher, its token class takes the ASCII apostrophe. */
module ContextResearcher {
  import opened Results
  import opened JsonValue
  import opened PyText
  import opened PySeq
  import R = Researcher

  predicate ContextTokenChar(c: char) {
    ('a' <= c <= 'z') || ('A' <= c <= 'Z') || c == '\U{294}' || c == '\U{2BC}' || c == '\'' || c == '-'
  }

  /** The lowercased tokens of a sentence: every token is non-empty. */
  function ContextTokens(text: string): (r: seq<string>)
    ensures forall i :: 0 <= i < |r| ==> r[i] != []
  {
    R.LowerAll(Runs(text, ContextTokenChar))
  }

  /** Together the context tokens are exactly the text's context-token
      characters, lowercased, in order. */
  lemma ContextTokensSpellText(text: string)
    ensures Concat(ContextTokens(text)) == Lower(Filter(text, ContextTokenChar))
  {
    RunsCoverFilter(text, ContextTokenChar);
    R.ConcatLowerAll(Runs(text, ContextTokenChar));
  }

  predicate IsInscription(a: Record) {
    Get(a, "type", JNull) == JStr("inscription")
  }

  /** `a.get('text', '')` when it is a string, otherwise nothing. */
  function TextOf(a: Record): string {
    var t := Get(a, "text", JStr(""));
    if t.JStr? then t.s else []
  }

  // ---------------------------------------------------------------------
  // The gloss lookup

  /** What the lookup keeps about a glossed inscription. */
  datatype GlossInfo = GlossInfo(meaning: Json, gloss: Json, confidence: Json, artifactId: Json)

  function InfoOf(a: Record): GlossInfo
    requires MetadataOf(a).JObj?
  {
    var md := MetadataOf(a).fields;
    GlossInfo(Get(md, "meaning", JStr("")), Get(md, "gloss", JStr("")),
              Get(md, "confidence", JStr("none")), Get(a, "id", JStr("?")))
  }

  /** The lookup key of an inscription: its text lowercased and stripped,
      so empty exactly for a blank text. */
  function HeadWord(a: Record): (w: string)
    ensures w == [] <==> AllIn(Lower(TextOf(a)), IsSpace)
    ensures w != [] ==> !IsSpace(w[0]) && !IsSpace(w[|w| - 1])
  {
    Strip(Lower(TextOf(a)))
  }

  /** An inscription that glosses `w`: its head word is `w`, not empty, and
      its metadata holds a truthy meaning. */
  predicate Defines(a: Record, w: string) {
    && IsInscription(a) && Get(a, "text", JStr("")).JStr?
    && w != [] && HeadWord(a) == w
    && MetadataOf(a).JObj? && Truthy(Get(MetadataOf(a).fields, "meaning", JNull))
  }

  /** The lookup pass does not raise on `a`: an inscription's text is a
      string, and a non-empty head word comes with object metadata. */
  predicate LookupReadable(a: Record) {
    IsInscription(a) ==> Get(a, "text", JStr("")).JStr? && (HeadWord(a) != [] ==> MetadataOf(a).JObj?)
  }

  /** One iteration of the lookup pass. */
  function LookupAdd(g: map<string, GlossInfo>, a: Record): (r: Result<map<string, GlossInfo>>)
    ensures r.Ok? <==> LookupReadable(a)
    ensures r.Ok? && Defines(a, HeadWord(a)) ==> r.value == g[HeadWord(a) := InfoOf(a)]
    ensures r.Ok? && !Defines(a, HeadWord(a)) ==> r.value == g
  {
    if !IsInscription(a) then Ok(g)
    else if !Get(a, "text", JStr("")).JStr? then Fail(WrongType("text"))
    else if HeadWord(a) == [] then Ok(g)
    else if !MetadataOf(a).JObj? then Fail(WrongType("metadata"))
    else if !Truthy(Get(MetadataOf(a).fields, "meaning", JNull)) then Ok(g)
    else Ok(g[HeadWord(a) := InfoOf(a)])
  }

  /** The first pass of `_extract_word_contexts`. */
  function GlossLookup(arts: seq<Record>): (r: Result<map<string, GlossInfo>>)
    ensures r.Ok? <==> forall i :: 0 <= i < |arts| ==> LookupReadable(arts[i])
    decreases |arts|
  {
    if arts == [] then Ok(map[])
    else
      var init, a := arts[..|arts| - 1], arts[|arts| - 1];
      ReadableSplit(arts, init);
      match GlossLookup(init)
      case Fail(e) => Fail(e)
      case Ok(g) => LookupAdd(g, a)
  }

  /** Every artifact is readable exactly when every one but the last is
      and the last is too. */
  lemma ReadableSplit(arts: seq<Record>, init: seq<Record>)
    requires arts != [] && init == arts[..|arts| - 1]
    ensures (forall i :: 0 <= i < |arts| ==> LookupReadable(arts[i])) <==>
      (forall i :: 0 <= i < |init| ==> LookupReadable(init[i])) && LookupReadable(arts[|arts| - 1])
  {
    assert forall i :: 0 <= i < |init| ==> init[i] == arts[i];
  }

  /** Some inscription of the corpus glosses `w`. */
  ghost predicate DefinedIn(arts: seq<Record>, w: string)
    decreases |arts|
  {
    arts != [] && (DefinedIn(arts[..|arts| - 1], w) || Defines(arts[|arts| - 1], w))
  }

  /** Any inscription that defines `w` makes it defined in the corpus. */
  lemma {:induction false} DefinedByWitness(arts: seq<Record>, i: nat, w: string)
    requires i < |arts| && Defines(arts[i], w)
    ensures DefinedIn(arts, w)
    decreases |arts|
  {
    if i < |arts| - 1 {
      assert arts[..|arts| - 1][i] == arts[i];
      DefinedByWitness(arts[..|arts| - 1], i, w);
    }
  }

  /** A word defined in the corpus has an inscription that defines it. */
  lemma {:induction false} DefinedHasWitness(arts: seq<Record>, w: string) returns (i: nat)
    requires DefinedIn(arts, w)
    ensures i < |arts| && Defines(arts[i], w)
    decreases |arts|
  {
    if Defines(arts[|arts| - 1], w) {
      i := |arts| - 1;
    } else {
      i := DefinedHasWitness(arts[..|arts| - 1], w);
      assert arts[..|arts| - 1][i] == arts[i];
    }
  }

  /** The lookup holds exactly the words some inscription defines. */
  lemma {:induction false} LookupDomain(arts: seq<Record>)
    requires GlossLookup(arts).Ok?
    ensures forall w :: w in GlossLookup(arts).value <==> DefinedIn(arts, w)
    decreases |arts|
  {
    if arts != [] {
      var init, a := arts[..|arts| - 1], arts[|arts| - 1];
      LookupDomain(init);
      assert forall w :: w in GlossLookup(arts).value <==> DefinedIn(arts, w);
    }
  }

  /** A word keeps the gloss of the last inscription that defines it. */
  lemma {:induction false} LookupLastWins(arts: seq<Record>, i: nat, w: string)
    requires GlossLookup(arts).Ok?
    requires i < |arts| && Defines(arts[i], w)
    requires forall j :: i < j < |arts| ==> !Defines(arts[j], w)
    ensures w in GlossLookup(arts).value && GlossLookup(arts).value[w] == InfoOf(arts[i])
    decreases |arts|, 1
  {
    if i < |arts| - 1 {
      LookupKeptFromEarlier(arts, i, w);
    } else {
      LookupSetByLast(arts, w);
    }
  }

  /** The last inscription sets the entry of the word it defines. */
  lemma LookupSetByLast(arts: seq<Record>, w: string)
    requires GlossLookup(arts).Ok?
    requires arts != [] && Defines(arts[|arts| - 1], w)
    ensures w in GlossLookup(arts).value && GlossLookup(arts).value[w] == InfoOf(arts[|arts| - 1])
  {
    var init := arts[..|arts| - 1];
    LookupStep(arts, init);
    LookupAddDefines(GlossLookup(init).value, arts[|arts| - 1], w);
  }

  /** An entry set before the last inscription survives it when the last
      inscription defines another word. */
  lemma {:induction false} LookupKeptFromEarlier(arts: seq<Record>, i: nat, w: string)
    requires GlossLookup(arts).Ok?
    requires i < |arts| - 1 && Defines(arts[i], w)
    requires forall j :: i < j < |arts| ==> !Defines(arts[j], w)
    ensures w in GlossLookup(arts).value && GlossLookup(arts).value[w] == InfoOf(arts[i])
    decreases |arts|, 0
  {
    var init, a := arts[..|arts| - 1], arts[|arts| - 1];
    LookupStep(arts, init);
    DefinesInPrefix(arts, init, i, w);
    LookupLastWins(init, i, w);
    LookupAddKeeps(GlossLookup(init).value, a, w);
  }

  /** The lookup of a corpus is the lookup of all but its last artifact,
      extended by the last one. */
  lemma LookupStep(arts: seq<Record>, init: seq<Record>)
    requires arts != [] && init == arts[..|arts| - 1] && GlossLookup(arts).Ok?
    ensures GlossLookup(init).Ok?
    ensures GlossLookup(arts) == LookupAdd(GlossLookup(init).value, arts[|arts| - 1])
  {
  }

  /** Which inscriptions define `w` does not change by dropping the last
      artifact, and the last one does not define it. */
  lemma DefinesInPrefix(arts: seq<Record>, init: seq<Record>, i: nat, w: string)
    requires arts != [] && init == arts[..|arts| - 1]
    requires i < |init| && Defines(arts[i], w)
    requires forall j :: i < j < |arts| ==> !Defines(arts[j], w)
    ensures Defines(init[i], w)
    ensures forall j :: i < j < |init| ==> !Defines(init[j], w)
    ensures !Defines(arts[|arts| - 1], w)
  {
    assert init[i] == arts[i];
    forall j | i < j < |init| ensures !Defines(init[j], w) {
      assert init[j] == arts[j];
    }
  }

  /** An inscription that does not gloss `w` keeps its lookup entry. */
  lemma LookupAddKeeps(g: map<string, GlossInfo>, a: Record, w: string)
    requires LookupAdd(g, a).Ok? && w in g && !Defines(a, w)
    ensures w in LookupAdd(g, a).value && LookupAdd(g, a).value[w] == g[w]
  {
    if Defines(a, HeadWord(a)) {
      assert HeadWord(a) != w;
    }
  }

  /** An inscription that glosses `w` sets its lookup entry. */
  lemma LookupAddDefines(g: map<string, GlossInfo>, a: Record, w: string)
    requires LookupAdd(g, a).Ok? && Defines(a, w)
    ensures w in LookupAdd(g, a).value && LookupAdd(g, a).value[w] == InfoOf(a)
  {
    assert HeadWord(a) == w;
  }

  // ---------------------------------------------------------------------
  // Sightings of glossed words in sentences

  /** One occurrence of a glossed word in a sentence. */
  datatype Sighting = Sighting(sentence: string, context: Json, artifactId: Json, wordGloss: GlossInfo)

  /** One key of the `word_contexts` dict and its list, in insertion order. */
  datatype WordEntry = WordEntry(word: string, sightings: seq<Sighting>)

  /** The keys of the dict. */
  function WordSet(wc: seq<WordEntry>): set<string> {
    if wc == [] then {} else {wc[0].word} + WordSet(wc[1..])
  }

  /** Dict keys are distinct. */
  predicate UniqueWords(wc: seq<WordEntry>) {
    wc != [] ==> wc[0].word !in WordSet(wc[1..]) && UniqueWords(wc[1..])
  }

  /** The list stored under `w`, or nothing. */
  function SightingsOf(wc: seq<WordEntry>, w: string): seq<Sighting> {
    if wc == [] then [] else if wc[0].word == w then wc[0].sightings else SightingsOf(wc[1..], w)
  }

  /** The number of sightings recorded over all words. */
  function TotalSightings(wc: seq<WordEntry>): nat {
    if wc == [] then 0 else |wc[0].sightings| + TotalSightings(wc[1..])
  }

  /** `word_contexts[w].append(s)` on a defaultdict. */
  function AddSighting(wc: seq<WordEntry>, w: string, s: Sighting): (r: seq<WordEntry>)
    requires UniqueWords(wc)
    ensures UniqueWords(r)
    ensures SightingsOf(r, w) == SightingsOf(wc, w) + [s]
    ensures forall v :: v != w ==> SightingsOf(r, v) == SightingsOf(wc, v)
    ensures WordSet(r) == WordSet(wc) + {w}
    ensures TotalSightings(r) == TotalSightings(wc) + 1
  {
    if wc == [] then [WordEntry(w, [s])]
    else if wc[0].word == w then
      var r := [WordEntry(w, wc[0].sightings + [s])] + wc[1..];
      assert r[1..] == wc[1..];
      r
    else
      var r := [wc[0]] + AddSighting(wc[1..], w, s);
      assert r[1..] == AddSighting(wc[1..], w, s);
      r
  }

  /** The number of words is the number of distinct keys. */
  lemma {:induction false} WordSetSize(wc: seq<WordEntry>)
    requires UniqueWords(wc)
    ensures |WordSet(wc)| == |wc|
  {
    if wc != [] {
      WordSetSize(wc[1..]);
    }
  }

  /** Reference: one copy of `s` per occurrence of `w` among `toks`. */
  function Occurrences(toks: seq<string>, w: string, s: Sighting): seq<Sighting> {
    if toks == [] then [] else (if toks[0] == w then [s] else []) + Occurrences(toks[1..], w, s)
  }

  /** A sentence contributes one sighting of a word per occurrence of it. */
  lemma {:induction false} OccurrencesCount(toks: seq<string>, w: string, s: Sighting)
    ensures |Occurrences(toks, w, s)| == R.Count(toks, w)
    ensures forall x :: x in Occurrences(toks, w, s) ==> x == s
  {
    if toks != [] {
      OccurrencesCount(toks[1..], w, s);
      assert toks == [toks[0]] + toks[1..];
      assert multiset(toks) == multiset{toks[0]} + multiset(toks[1..]);
    }
  }

  /** The number of tokens that are glossed words. */
  function GlossedCount(toks: seq<string>, glosses: map<string, GlossInfo>): nat {
    if toks == [] then 0 else (if toks[0] in glosses then 1 else 0) + GlossedCount(toks[1..], glosses)
  }

  /** The distinct tokens that are glossed words. */
  function GlossedWords(toks: seq<string>, glosses: map<string, GlossInfo>): set<string> {
    set t | t in toks && t in glosses
  }

  /** The token loop over one sentence. */
  function AddTokens(wc: seq<WordEntry>, toks: seq<string>, sentence: string, context: Json, id: Json,
                     glosses: map<string, GlossInfo>): (r: seq<WordEntry>)
    requires UniqueWords(wc)
    ensures UniqueWords(r)
    ensures WordSet(r) == WordSet(wc) + GlossedWords(toks, glosses)
    ensures TotalSightings(r) == TotalSightings(wc) + GlossedCount(toks, glosses)
    decreases |toks|
  {
    if toks == [] then wc
    else
      var t := toks[0];
      var wc' := if t in glosses then AddSighting(wc, t, Sighting(sentence, context, id, glosses[t])) else wc;
      var r := AddTokens(wc', toks[1..], sentence, context, id, glosses);
      assert GlossedWords(toks, glosses) == GlossedWords(toks[1..], glosses) + (if t in glosses then {t} else {}) by {
        assert forall v :: v in toks <==> v == t || v in toks[1..];
      }
      r
  }

  /** The token loop appends one sighting of `w` per occurrence of it,
      carrying the gloss of `w`, and touches no other list. */
  lemma {:induction false} AddTokensSightings(wc: seq<WordEntry>, toks: seq<string>, sentence: string, context: Json, id: Json,
                                              glosses: map<string, GlossInfo>, w: string)
    requires UniqueWords(wc)
    ensures SightingsOf(AddTokens(wc, toks, sentence, context, id, glosses), w) ==
      SightingsOf(wc, w) + (if w in glosses then Occurrences(toks, w, Sighting(sentence, context, id, glosses[w])) else [])
    decreases |toks|
  {
    if toks != [] {
      var t := toks[0];
      var wc' := if t in glosses then AddSighting(wc, t, Sighting(sentence, context, id, glosses[t])) else wc;
      assert AddTokens(wc, toks, sentence, context, id, glosses) == AddTokens(wc', toks[1..], sentence, context, id, glosses);
      AddTokensSightings(wc', toks[1..], sentence, context, id, glosses, w);
      if w in glosses {
        var sw := Sighting(sentence, context, id, glosses[w]);
        var now := if t == w then [sw] else [];
        assert Occurrences(toks, w, sw) == now + Occurrences(toks[1..], w, sw);
        assert SightingsOf(wc', w) == SightingsOf(wc, w) + now;
        AppendAssoc(SightingsOf(wc, w), now, Occurrences(toks[1..], w, sw));
      } else {
        assert SightingsOf(wc', w) == SightingsOf(wc, w);
      }
    }
  }

  lemma AppendAssoc<T>(a: seq<T>, b: seq<T>, c: seq<T>)
    ensures (a + b) + c == a + (b + c)
  {
  }

  /** `a.get('metadata', {}).get('context', 'unknown')` on object metadata. */
  function ContextOf(a: Record): Json {
    if MetadataOf(a).JObj? then Get(MetadataOf(a).fields, "context", JStr("unknown")) else JStr("unknown")
  }

  /** Reference: the sightings of `w` in one artifact. */
  function SightingsFrom(a: Record, glosses: map<string, GlossInfo>, w: string): seq<Sighting> {
    if R.IsSentence(a) && w in glosses
    then Occurrences(ContextTokens(TextOf(a)), w, Sighting(TextOf(a), ContextOf(a), Get(a, "id", JStr("?")), glosses[w]))
    else []
  }

  /** Reference: the sightings of `w` in the corpus, in corpus order. */
  function SightingsIn(arts: seq<Record>, glosses: map<string, GlossInfo>, w: string): seq<Sighting> {
    if arts == [] then []
    else SightingsIn(arts[..|arts| - 1], glosses, w) + SightingsFrom(arts[|arts| - 1], glosses, w)
  }

  /** Reference: the number of glossed tokens over all sentences. */
  function GlossedTokensIn(arts: seq<Record>, glosses: map<string, GlossInfo>): nat {
    if arts == [] then 0
    else
      var a := arts[|arts| - 1];
      GlossedTokensIn(arts[..|arts| - 1], glosses)
        + (if R.IsSentence(a) then GlossedCount(ContextTokens(TextOf(a)), glosses) else 0)
  }

  /** The glossed words that appear in some sentence of the corpus. */
  function SightedWords(arts: seq<Record>, glosses: map<string, GlossInfo>): set<string> {
    if arts == [] then {}
    else
      var a := arts[|arts| - 1];
      SightedWords(arts[..|arts| - 1], glosses)
        + (if R.IsSentence(a) then GlossedWords(ContextTokens(TextOf(a)), glosses) else {})
  }

  /** A word is sighted exactly when it is glossed and some sentence holds
      it as a token. */
  lemma {:induction false} SightedMeansSeen(arts: seq<Record>, glosses: map<string, GlossInfo>, w: string)
    ensures w in SightedWords(arts, glosses) <==>
      w in glosses && exists i :: 0 <= i < |arts| && R.IsSentence(arts[i]) && w in ContextTokens(TextOf(arts[i]))
    decreases |arts|
  {
    if arts != [] {
      var init := arts[..|arts| - 1];
      SightedMeansSeen(init, glosses, w);
      SightedStep(arts, init, glosses, w);
      HeldSplit(arts, init, w);
    }
  }

  /** One step of `SightedWords`: the last artifact adds its glossed
      tokens when it is a sentence. */
  lemma SightedStep(arts: seq<Record>, init: seq<Record>, glosses: map<string, GlossInfo>, w: string)
    requires arts != [] && init == arts[..|arts| - 1]
    ensures w in SightedWords(arts, glosses) <==>
      || w in SightedWords(init, glosses)
      || (w in glosses && R.IsSentence(arts[|arts| - 1]) && w in ContextTokens(TextOf(arts[|arts| - 1])))
  {
  }

  /** Some sentence of the corpus holds `w` exactly when one before the
      last does or the last does. */
  lemma HeldSplit(arts: seq<Record>, init: seq<Record>, w: string)
    requires arts != [] && init == arts[..|arts| - 1]
    ensures (exists i :: 0 <= i < |arts| && R.IsSentence(arts[i]) && w in ContextTokens(TextOf(arts[i]))) <==>
      || (exists i :: 0 <= i < |init| && R.IsSentence(init[i]) && w in ContextTokens(TextOf(init[i])))
      || (R.IsSentence(arts[|arts| - 1]) && w in ContextTokens(TextOf(arts[|arts| - 1])))
  {
    if exists i :: 0 <= i < |arts| && R.IsSentence(arts[i]) && w in ContextTokens(TextOf(arts[i])) {
      var i :| 0 <= i < |arts| && R.IsSentence(arts[i]) && w in ContextTokens(TextOf(arts[i]));
      if i < |init| {
        assert init[i] == arts[i];
      }
    }
    if exists i :: 0 <= i < |init| && R.IsSentence(init[i]) && w in ContextTokens(TextOf(init[i])) {
      var i :| 0 <= i < |init| && R.IsSentence(init[i]) && w in ContextTokens(TextOf(init[i]));
      assert init[i] == arts[i];
    }
  }

  /** The sentence pass does not raise on `a`: a sentence has object
      metadata and string text. */
  predicate SentenceReadable(a: Record) {
    R.IsSentence(a) ==> MetadataOf(a).JObj? && Get(a, "text", JStr("")).JStr?
  }

  /** The second pass of `_extract_word_contexts`. */
  function CollectSightings(arts: seq<Record>, glosses: map<string, GlossInfo>): (r: Result<seq<WordEntry>>)
    ensures r.Ok? <==> forall i :: 0 <= i < |arts| ==> SentenceReadable(arts[i])
    ensures r.Ok? ==> UniqueWords(r.value)
    ensures r.Ok? ==> WordSet(r.value) == SightedWords(arts, glosses)
    ensures r.Ok? ==> TotalSightings(r.value) == GlossedTokensIn(arts, glosses)
    decreases |arts|
  {
    if arts == [] then Ok([])
    else
      var init, a := arts[..|arts| - 1], arts[|arts| - 1];
      assert forall i :: 0 <= i < |init| ==> init[i] == arts[i];
      match CollectSightings(init, glosses)
      case Fail(e) => Fail(e)
      case Ok(wc) =>
        if !R.IsSentence(a) then Ok(wc)
        else if !MetadataOf(a).JObj? then Fail(WrongType("metadata"))
        else if !Get(a, "text", JStr("")).JStr? then Fail(WrongType("text"))
        else
          var r := AddTokens(wc, ContextTokens(TextOf(a)), TextOf(a), ContextOf(a), Get(a, "id", JStr("?")), glosses);
          Ok(r)
  }

  /** Each word's list holds its sentence occurrences in corpus order. */
  lemma {:induction false} CollectedSightings(arts: seq<Record>, glosses: map<string, GlossInfo>, w: string)
    requires CollectSightings(arts, glosses).Ok?
    ensures SightingsOf(CollectSightings(arts, glosses).value, w) == SightingsIn(arts, glosses, w)
    decreases |arts|
  {
    if arts != [] {
      var init, a := arts[..|arts| - 1], arts[|arts| - 1];
      assert forall i :: 0 <= i < |init| ==> init[i] == arts[i];
      CollectedSightings(init, glosses, w);
      if R.IsSentence(a) {
        AddTokensSightings(CollectSightings(init, glosses).value, ContextTokens(TextOf(a)), TextOf(a), ContextOf(a),
                           Get(a, "id", JStr("?")), glosses, w);
      }
    }
  }

  /** `_extract_word_contexts`: the words some inscription glosses that
      appear in a sentence, each with every sentence occurrence. */
  function ExtractWordContexts(arts: seq<Record>): (r: Result<seq<WordEntry>>)
    ensures r.Ok? <==> GlossLookup(arts).Ok? && CollectSightings(arts, GlossLookup(arts).value).Ok?
    ensures r.Ok? ==> r == CollectSightings(arts, GlossLookup(arts).value)
  {
    var glosses :- GlossLookup(arts);
    CollectSightings(arts, glosses)
  }

  /** Every sighting of a word carries that word's single gloss. */
  lemma {:induction false} SightingsShareGloss(arts: seq<Record>, glosses: map<string, GlossInfo>, w: string)
    ensures forall s :: s in SightingsIn(arts, glosses, w) ==> w in glosses && s.wordGloss == glosses[w]
    decreases |arts|
  {
    if arts != [] {
      SightingsShareGloss(arts[..|arts| - 1], glosses, w);
      var a := arts[|arts| - 1];
      if R.IsSentence(a) && w in glosses {
        OccurrencesCount(ContextTokens(TextOf(a)), w, Sighting(TextOf(a), ContextOf(a), Get(a, "id", JStr("?")), glosses[w]));
      }
    }
  }

  // ---------------------------------------------------------------------
  // analyze_contextual_fit

  const MaxPromptWords: int := 10

  /** Where building the prompt raises for one word: `set()` of an
      unhashable context, then `', '.join` of a non-string one. */
  function ContextsFault(ss: seq<Sighting>): (r: Option<Fault>)
    ensures r.None? <==> forall k :: 0 <= k < |ss| ==> ss[k].context.JStr?
  {
    if exists k :: 0 <= k < |ss| && !Hashable(ss[k].context) then Some(Unhashable("context"))
    else if exists k :: 0 <= k < |ss| && !ss[k].context.JStr? then Some(WrongType("context"))
    else None
  }

  /** The first fault among the prompt words, in dict order. */
  function PromptFault(wc: seq<WordEntry>): (r: Option<Fault>)
    ensures r.None? <==> forall i, k :: 0 <= i < |wc| && 0 <= k < |wc[i].sightings| ==> wc[i].sightings[k].context.JStr?
  {
    if wc == [] then None
    else if ContextsFault(wc[0].sightings).Some? then ContextsFault(wc[0].sightings)
    else
      assert forall i :: 1 <= i < |wc| ==> wc[i] == wc[1..][i - 1];
      PromptFault(wc[1..])
  }

  /** The `context_analysis` note, and whether the model was asked for it. */
  datatype ContextNote = ContextNote(note: Record, asked: bool)

  /** A `context_analysis` log entry under `entryId` that reports
      `words` words analysed. */
  predicate ContextEntry(r: Record, entryId: string, words: nat) {
    && r.Keys == {"id", "type", "summary", "metadata"}
    && r["id"] == JStr(entryId) && r["type"] == JStr("context_analysis")
    && r["metadata"].JObj? && "words_analyzed" in r["metadata"].fields
    && r["metadata"].fields["words_analyzed"] == JInt(words)
  }

  /** The note for a corpus with no glossed word in a sentence: no word
      analysed, and `contradictions_found` where the other note has
      `sentence_count`. */
  function NoDataNote(entryId: string): (r: Record)
    ensures ContextEntry(r, entryId, 0)
    ensures "contradictions_found" in r["metadata"].fields && "sentence_count" !in r["metadata"].fields
  {
    map[
      "id" := JStr(entryId),
      "type" := JStr("context_analysis"),
      "summary" := JStr("No glossed words found in sentence contexts yet. Need more data."),
      "metadata" := JObj(map["words_analyzed" := JInt(0), "contradictions_found" := JInt(0)])
    ]
  }

  /** The note of an analysis: the model's narrative, the number of words
      analysed and the number of their sentence occurrences. */
  function AnalysisNote(entryId: string, narrative: string, words: nat, sightings: nat): (r: Record)
    ensures ContextEntry(r, entryId, words) && r["summary"] == JStr(narrative)
    ensures "sentence_count" in r["metadata"].fields && r["metadata"].fields["sentence_count"] == JInt(sightings)
  {
    map[
      "id" := JStr(entryId),
      "type" := JStr("context_analysis"),
      "summary" := JStr(narrative),
      "metadata" := JObj(map["words_analyzed" := JInt(words), "sentence_count" := JInt(sightings)])
    ]
  }

  /** `analyze_contextual_fit`: when no glossed word appears in a
      sentence, a fixed note and no model call; otherwise the model's
      `narrative` with the number of distinct glossed words seen and the
      number of their sentence occurrences. Only the first ten words go
      into the prompt, so only their contexts must be strings. */
  function AnalyzeContextualFit(entryId: string, arts: seq<Record>, narrative: string): (r: Result<ContextNote>)
    ensures ExtractWordContexts(arts).Fail? ==> r.Fail?
    ensures r.Ok? ==> ExtractWordContexts(arts).Ok?
    ensures r.Ok? ==>
      var glosses := GlossLookup(arts).value;
      && (r.value.asked <==> SightedWords(arts, glosses) != {})
      && (!r.value.asked ==> r.value.note == NoDataNote(entryId))
      && (r.value.asked ==> r.value.note == AnalysisNote(entryId, narrative, |ExtractWordContexts(arts).value|,
                                                       GlossedTokensIn(arts, glosses)))
    ensures ExtractWordContexts(arts).Ok? ==>
      var wc := ExtractWordContexts(arts).value;
      wc != [] ==> (r.Ok? <==> PromptFault(Upto(wc, MaxPromptWords)).None?)
  {
    var wc :- ExtractWordContexts(arts);
    if wc == [] then
      Ok(ContextNote(NoDataNote(entryId), false))
    else
      match PromptFault(Upto(wc, MaxPromptWords))
      case Some(e) => Fail(e)
      case None => Ok(ContextNote(AnalysisNote(entryId, narrative, |wc|, TotalSightings(wc)), true))
  }

  /** `words_analyzed` counts each sighted word once. */
  lemma WordsAnalyzed(arts: seq<Record>)
    requires ExtractWordContexts(arts).Ok?
    ensures |ExtractWordContexts(arts).value| == |SightedWords(arts, GlossLookup(arts).value)|
  {
    WordSetSize(ExtractWordContexts(arts).value);
  }
}

=== FILE: cycle.dfy ===
/** The cycle of `run.py`: the command-line mode, the speaker-only runs,
    and one full research cycle over the three stores (artifacts, research
    log, research questions). The clock and the model's replies are
    inputs; a step that raises ends the cycle where it stands, with every
    store write made before it kept. */
module Cycle {
  import opened Results
  import opened JsonValue
  import opened PyText
  import opened Store
  import R = Researcher
  import S = Speaker
  import PySeq

  /** The one branch language the cycle speaks. */
  const Language: string := "ghostlang"

  // ---------------------------------------------------------------------
  // The command line

  /** What `--speaker COUNT` selects: no count or a zero count runs the
      full cycle, a negative count is refused, a positive count runs the
      speaker alone that many times. */
  datatype Mode = FullCycle | SpeakerOnly(count: nat) | Refused

  function ModeOf(speaker: Option<int>): (m: Mode)
    ensures m.FullCycle? <==> speaker == None || speaker == Some(0)
    ensures m.Refused? <==> speaker.Some? && speaker.value < 0
    ensures m.SpeakerOnly? <==> speaker.Some? && speaker.value > 0
    ensures m.SpeakerOnly? ==> m.count == speaker.value && m.count >= 1
  {
    match speaker
    case None => FullCycle
    case Some(n) => if n == 0 then FullCycle else if n < 0 then Refused else SpeakerOnly(n)
  }

  // ---------------------------------------------------------------------
  // Appending several records

  /** Appending records one at a time: the store afterwards loads as its
      old records followed by all of them. A store that does not load
      makes the first append fail, and nothing is written. */
  function AppendAll(f: FileState, recs: seq<Record>): (r: Result<FileState>)
    ensures r.Ok? <==> recs == [] || LoadJsonList(f).Ok?
    ensures recs == [] ==> r == Ok(f)
    ensures recs != [] && r.Ok? ==>
      LoadJsonList(r.value) == Ok(Loaded(r.value, LoadJsonList(f).value.records + recs))
    decreases |recs|
  {
    if recs == [] then Ok(f)
    else
      var g :- Append(f, recs[0]);
      var r := AppendAll(g, recs[1..]);
      assert LoadJsonList(f).value.records + [recs[0]] + recs[1..] == LoadJsonList(f).value.records + recs;
      assert recs[1..] == [] ==> recs == [recs[0]];
      r
  }

  // ---------------------------------------------------------------------
  // Speaker-only mode

  /** What one speaker run reads from outside: the clock for its id and
      the model's reply with the two random choices. */
  datatype Draw = Draw(clockMs: nat, reply: string, contextPick: nat, wordPick: nat)

  /** The pair one run generates, under the id `make_id("A")`. */
  function Drawn(d: Draw, maxWords: int): (r: seq<Record>)
    ensures |r| == 2
  {
    S.GenerateArtifact(Language, MakeId("A", d.clockMs), maxWords, d.reply, d.contextPick, d.wordPick)
  }

  /** The records of several runs, in run order, each run producing the
      pair `gen` gives it. */
  function Produced(draws: seq<Draw>, gen: Draw -> seq<Record>): (r: seq<Record>)
    requires forall d :: |gen(d)| == 2
    ensures |r| == 2 * |draws|
  {
    if draws == [] then [] else gen(draws[0]) + Produced(draws[1..], gen)
  }

  /** Indexing into a concatenation. */
  lemma ConcatIndex<T>(a: seq<T>, b: seq<T>, k: nat)
    requires k < |a| + |b|
    ensures k < |a| ==> (a + b)[k] == a[k]
    ensures |a| <= k ==> (a + b)[k] == b[k - |a|]
  {
  }

  /** Run `i` contributes records `2 * i` and `2 * i + 1`. */
  lemma {:induction false} ProducedAt(draws: seq<Draw>, gen: Draw -> seq<Record>, i: nat)
    requires forall d :: |gen(d)| == 2
    requires i < |draws|
    ensures Produced(draws, gen)[2 * i] == gen(draws[i])[0]
    ensures Produced(draws, gen)[2 * i + 1] == gen(draws[i])[1]
  {
    var d0 := gen(draws[0]);
    var rest := Produced(draws[1..], gen);
    assert Produced(draws, gen) == d0 + rest;
    if i > 0 {
      ProducedAt(draws[1..], gen, i - 1);
      assert draws[1..][i - 1] == draws[i];
      ConcatIndex(d0, rest, 2 * i);
      ConcatIndex(d0, rest, 2 * i + 1);
    } else {
      ConcatIndex(d0, rest, 0);
      ConcatIndex(d0, rest, 1);
    }
  }

  /** The speaker as a generator of pairs. */
  function Speak(maxWords: int): (gen: Draw -> seq<Record>)
    ensures forall d :: gen(d) == Drawn(d, maxWords)
  {
    d => Drawn(d, maxWords)
  }

  /** The speaker's pairs for several runs, in run order. */
  function DrawnAll(draws: seq<Draw>, maxWords: int): (r: seq<Record>)
    ensures |r| == 2 * |draws|
  {
    Produced(draws, Speak(maxWords))
  }

  /** `run_speaker_only`: each run generates its pair and appends both.
      Generating reads nothing from the store, so this is appending every
      run's pair in run order; the store afterwards loads as its old
      records followed by them. A store that does not load makes the
      first append fail, and nothing is written. */
  function RunSpeakerOnly(f: FileState, draws: seq<Draw>, maxWords: int): (r: Result<FileState>)
    ensures r.Ok? <==> draws == [] || LoadJsonList(f).Ok?
    ensures draws != [] && r.Ok? ==>
      LoadJsonList(r.value) == Ok(Loaded(r.value, LoadJsonList(f).value.records + DrawnAll(draws, maxWords)))
  {
    AppendAll(f, DrawnAll(draws, maxWords))
  }

  /** Run `i` of the speaker-only mode adds records `2 * i` and
      `2 * i + 1` of the new ones: the inscription `make_id("A")` and its
      sentence, both in the branch language. */
  lemma DrawnAllRuns(draws: seq<Draw>, maxWords: int, i: nat)
    requires i < |draws|
    ensures var news := DrawnAll(draws, maxWords);
      var id := MakeId("A", draws[i].clockMs);
      && news[2 * i].Keys == news[2 * i + 1].Keys == {"id", "language", "type", "text", "metadata"}
      && news[2 * i]["id"] == JStr(id)
      && news[2 * i]["type"] == JStr("inscription")
      && news[2 * i + 1]["id"] == JStr(id + "_S")
      && news[2 * i + 1]["type"] == JStr("sentence")
      && news[2 * i]["language"] == news[2 * i + 1]["language"] == JStr(Language)
  {
    var news := DrawnAll(draws, maxWords);
    var gen := Speak(maxWords);
    ProducedAt(draws, gen, i);
    var pair := Drawn(draws[i], maxWords);
    assert gen(draws[i]) == pair;
    assert news[2 * i] == pair[0] && news[2 * i + 1] == pair[1];
  }

  // ---------------------------------------------------------------------
  // Step 4: the count of questions shown as needing review

  /** `.lower()` can be called on the confidence where the display rule
      reaches it: the confidence is falsy or a string. Any question the
      researcher's filter can read, the display can read too. */
  predicate ConfidenceDisplayable(q: Record)
    ensures R.NeedsReview(q).Ok? ==> ConfidenceDisplayable(q)
  {
    var c := Get(q, "confidence", JNull);
    !Truthy(c) || c.JStr?
  }

  /** The display rule: no confidence, a low or medium confidence, or no
      proposed answer. A question it flags is one the researcher reviews. */
  predicate Flagged(q: Record)
    requires ConfidenceDisplayable(q)
    ensures Flagged(q) ==> !R.ConfidentlyAnswered(q)
  {
    var c := Get(q, "confidence", JNull);
    || !Truthy(c)
    || Lower(c.s) in {"low", "medium"}
    || !Truthy(Get(q, "proposed_answer", JNull))
  }

  /** The number of questions the display rule flags; fails, as `.lower()`
      would raise, on a truthy confidence that is not a string. */
  function ReviewCount(qs: seq<Record>): (r: Result<nat>)
    ensures r.Ok? <==> forall i :: 0 <= i < |qs| ==> ConfidenceDisplayable(qs[i])
    ensures r.Ok? ==> r.value <= |qs|
    ensures r.Ok? ==> (r.value == 0 <==> forall i :: 0 <= i < |qs| ==> !Flagged(qs[i]))
    ensures r.Ok? ==> (r.value == |qs| <==> forall i :: 0 <= i < |qs| ==> Flagged(qs[i]))
  {
    if qs == [] then Ok(0)
    else if !ConfidenceDisplayable(qs[0]) then Fail(WrongType("confidence"))
    else
      var rest := ReviewCount(qs[1..]);
      assert forall i :: 1 <= i < |qs| ==> qs[i] == qs[1..][i - 1];
      if rest.Fail? then rest
      else Ok((if Flagged(qs[0]) then 1 else 0) + rest.value)
  }

  /** The count adds up over a split of the questions, so with the
      one-question case it is the number of flagged questions. */
  lemma {:induction false} ReviewCountAppend(xs: seq<Record>, ys: seq<Record>)
    ensures ReviewCount(xs + ys).Ok? <==> ReviewCount(xs).Ok? && ReviewCount(ys).Ok?
    ensures ReviewCount(xs + ys).Ok? ==>
      ReviewCount(xs + ys).value == ReviewCount(xs).value + ReviewCount(ys).value
    ensures forall q :: ConfidenceDisplayable(q) ==> ReviewCount([q]) == Ok(if Flagged(q) then 1 else 0)
    decreases |xs|
  {
    if xs == [] {
      assert xs + ys == ys;
    } else {
      assert (xs + ys)[1..] == xs[1..] + ys;
      ReviewCountAppend(xs[1..], ys);
    }
    forall q | ConfidenceDisplayable(q) ensures ReviewCount([q]) == Ok(if Flagged(q) then 1 else 0) {
      assert [q][1..] == [];
    }
  }

  /** The displayed count never exceeds the number of questions the
      researcher reviews. */
  lemma {:induction false} ReviewCountAtMostReviewed(qs: seq<Record>)
    requires ReviewCount(qs).Ok? && R.ReviewFilter(qs).Ok?
    ensures ReviewCount(qs).value <= |R.ReviewFilter(qs).value|
  {
    if qs != [] {
      assert forall i :: 1 <= i < |qs| ==> qs[i] == qs[1..][i - 1];
      ReviewCountAtMostReviewed(qs[1..]);
      var q := qs[0];
      if Flagged(q) {
        assert R.NeedsReview(q) == Ok(true);
      }
    }
  }

  /** The two rules differ: an answer of only whitespace counts as an
      answer for the display but not for the researcher, so the count can
      be smaller than the number of questions reviewed. */
  lemma BlankAnswerNotFlagged()
    ensures var q: Record := map["confidence" := JStr("high"), "proposed_answer" := JStr(" ")];
      && ReviewCount([q]) == Ok(0)
      && R.ReviewFilter([q]) == Ok([q])
  {
    var q: Record := map["confidence" := JStr("high"), "proposed_answer" := JStr(" ")];
    assert Lower("high") == "high";
    assert "high" != "low" && "high" != "medium" by {
      assert "high"[0] != "low"[0] && "high"[0] != "medium"[0];
    }
    assert Strip(" ") == [] by { assert AllIn(" ", IsSpace); }
    assert !R.ConfidentlyAnswered(q);
    assert R.NeedsReview(q) == Ok(true);
    assert [q][1..] == [];
    assert FilterOk([q][1..], R.NeedsReview) == Ok([]);
    assert FilterOk([q], R.NeedsReview) == Ok([q] + []);
    assert [q] + [] == [q];
  }

  // ---------------------------------------------------------------------
  // Step 7: saving the new questions

  /** A new question as step 7 stores it: the note id, the question id
      `make_id("Q")` and the creation second are set, every other field is
      kept. */
  function Stamped(q: Record, entryId: string, clockMs: nat): (r: Record)
    ensures "research_note_id" in r && r["research_note_id"] == JStr(entryId)
    ensures "id" in r && r["id"] == JStr(MakeId("Q", clockMs))
    ensures "created_at" in r && r["created_at"] == JInt(clockMs / 1000)
  {
    q["research_note_id" := JStr(entryId)]["id" := JStr(MakeId("Q", clockMs))]["created_at" := JInt(clockMs / 1000)]
  }

  /** Stamping leaves every other field of the question as it was. */
  lemma StampedKeepsFields(q: Record, entryId: string, clockMs: nat)
    ensures var r := Stamped(q, entryId, clockMs);
      forall k :: k != "research_note_id" && k != "id" && k != "created_at" ==>
        (k in r <==> k in q) && (k in q ==> r[k] == q[k])
  {
  }

  /** The length of the leading run of objects. */
  function LeadingObjects(qs: seq<Json>): (n: nat)
    ensures n <= |qs|
    ensures forall i :: 0 <= i < n ==> qs[i].JObj?
    ensures n < |qs| ==> !qs[n].JObj?
  {
    if qs == [] || !qs[0].JObj? then 0 else 1 + LeadingObjects(qs[1..])
  }

  /** The questions `qs`, all objects, stamped with consecutive clock
      readings from `k` on. */
  function StampAll(qs: seq<Json>, entryId: string, clock: nat -> nat, k: nat): (r: seq<Record>)
    requires forall i :: 0 <= i < |qs| ==> qs[i].JObj?
    ensures |r| == |qs|
  {
    if qs == [] then []
    else [Stamped(qs[0].fields, entryId, clock(k))] + StampAll(qs[1..], entryId, clock, k + 1)
  }

  /** The `i`-th saved question is the `i`-th new one stamped with the
      `k + i`-th clock reading. */
  lemma {:induction false} StampAllAt(qs: seq<Json>, entryId: string, clock: nat -> nat, k: nat, i: nat)
    requires forall j :: 0 <= j < |qs| ==> qs[j].JObj?
    requires i < |qs|
    ensures StampAll(qs, entryId, clock, k)[i] == Stamped(qs[i].fields, entryId, clock(k + i))
  {
    if i == 0 {
      StampAllHead(qs, entryId, clock, k);
    } else {
      StampAllTail(qs, entryId, clock, k, i);
      StampAllAt(qs[1..], entryId, clock, k + 1, i - 1);
      assert qs[1..][i - 1] == qs[i] && k + 1 + (i - 1) == k + i;
    }
  }

  lemma StampAllHead(qs: seq<Json>, entryId: string, clock: nat -> nat, k: nat)
    requires forall j :: 0 <= j < |qs| ==> qs[j].JObj?
    requires qs != []
    ensures StampAll(qs, entryId, clock, k)[0] == Stamped(qs[0].fields, entryId, clock(k))
  {
  }

  lemma StampAllTail(qs: seq<Json>, entryId: string, clock: nat -> nat, k: nat, i: nat)
    requires forall j :: 0 <= j < |qs| ==> qs[j].JObj?
    requires 0 < i < |qs|
    ensures StampAll(qs, entryId, clock, k)[i] == StampAll(qs[1..], entryId, clock, k + 1)[i - 1]
  {
  }

  /** Where step 7 stops: the store as it stands, and the fault that
      stopped it, if any. */
  datatype Saved = Saved(file: FileState, fault: Option<Fault>)

  /** Step 7: each new question in turn is stamped with the `k`-th clock
      reading and appended. A question that is not an object raises when
      it is stamped; the ones before it stay saved. */
  function SaveQuestions(f: FileState, qs: seq<Json>, entryId: string, clock: nat -> nat, k: nat): (r: Saved)
    ensures qs == [] ==> r == Saved(f, None)
    ensures LoadJsonList(f).Ok? ==>
      r.fault == (if LeadingObjects(qs) == |qs| then None else Some(WrongType("question")))
    ensures LoadJsonList(f).Ok? && LeadingObjects(qs) > 0 ==>
      LoadJsonList(r.file) == Ok(Loaded(r.file, LoadJsonList(f).value.records
                                               + StampAll(qs[..LeadingObjects(qs)], entryId, clock, k)))
    ensures LeadingObjects(qs) == 0 ==> r.file == f
    ensures !LoadJsonList(f).Ok? ==> r.file == f && (qs != [] ==> r.fault.Some?)
    decreases |qs|
  {
    if qs == [] then Saved(f, None)
    else if !qs[0].JObj? then Saved(f, Some(WrongType("question")))
    else
      match Append(f, Stamped(qs[0].fields, entryId, clock(k)))
      case Fail(e) => Saved(f, Some(e))
      case Ok(g) =>
        var r := SaveQuestions(g, qs[1..], entryId, clock, k + 1);
        var before := LoadJsonList(f).value.records;
        var mid := LoadJsonList(g).value.records;
        var after := if LeadingObjects(qs[1..]) > 0 then LoadJsonList(r.file).value.records else mid;
        assert LeadingObjects(qs[1..]) == 0 ==> StampAll(qs[1..][..0], entryId, clock, k + 1) == [] && mid + [] == mid;
        SaveQuestionsStep(before, mid, after, qs, entryId, clock, k);
        r
  }

  /** Stamping a leading run of objects is stamping its first element,
      then the rest of the run with the following clock readings. */
  lemma StampAllCons(qs: seq<Json>, entryId: string, clock: nat -> nat, k: nat)
    requires qs != [] && qs[0].JObj?
    ensures LeadingObjects(qs) == 1 + LeadingObjects(qs[1..])
    ensures StampAll(qs[..LeadingObjects(qs)], entryId, clock, k)
         == [Stamped(qs[0].fields, entryId, clock(k))] + StampAll(qs[1..][..LeadingObjects(qs[1..])], entryId, clock, k + 1)
  {
    var n := LeadingObjects(qs);
    assert qs[..n][1..] == qs[1..][..n - 1];
  }

  /** The inductive step of `SaveQuestions`, on the stored records: the
      first question's record followed by the rest's is the stamped
      leading run. */
  lemma SaveQuestionsStep(before: seq<Record>, mid: seq<Record>, after: seq<Record>, qs: seq<Json>,
                          entryId: string, clock: nat -> nat, k: nat)
    requires qs != [] && qs[0].JObj?
    requires mid == before + [Stamped(qs[0].fields, entryId, clock(k))]
    requires after == mid + StampAll(qs[1..][..LeadingObjects(qs[1..])], entryId, clock, k + 1)
    ensures after == before + StampAll(qs[..LeadingObjects(qs)], entryId, clock, k)
  {
    StampAllCons(qs, entryId, clock, k);
  }

  // ---------------------------------------------------------------------
  // The full cycle

  /** The three stores of the cycle. */
  datatype Stores = Stores(artifacts: FileState, log: FileState, questions: FileState)

  /** Everything a full cycle reads from outside: the clock readings for
      the ids and timestamps, the speaker's reply and random choices, and
      the researcher's three replies. `questionMs(k)` is the reading taken
      for the `k`-th new question; `glossClock(i)` and `updateClock(i)` are
      the second-resolution readings taken when the artifact, respectively
      the question, at position `i` of its store is updated. */
  datatype Inputs = Inputs(
    artifactMs: nat, speakerReply: string, contextPick: nat, wordPick: nat, maxWords: int,
    entryMs: nat, narrative: string, questionReply: Option<Json>, glossReply: Option<Json>,
    glossClock: nat -> int, questionMs: nat -> nat, updateClock: nat -> int)

  datatype Halt = Completed | Aborted(fault: Fault)

  /** The stores as the cycle leaves them, and how it ended. */
  datatype CycleRun = CycleRun(stores: Stores, halt: Halt)

  /** Step 1: the new inscription and its sentence. */
  function NewArtifacts(inp: Inputs): (r: seq<Record>)
    ensures |r| == 2
  {
    S.GenerateArtifact(Language, MakeId("A", inp.artifactMs), inp.maxWords, inp.speakerReply,
                       inp.contextPick, inp.wordPick)
  }

  /** The corpus the researcher sees: the stored one with the new pair. */
  function CorpusAfterSpeaker(s: Stores, inp: Inputs): seq<Record>
    requires LoadJsonList(s.artifacts).Ok?
  {
    LoadJsonList(s.artifacts).value.records + NewArtifacts(inp)
  }

  function EntryId(inp: Inputs): string {
    MakeId("R", inp.entryMs)
  }

  /** Steps 0 to 3: load the corpus, append the new pair and reload. The
      corpus that does not load stops the cycle before anything is
      written; otherwise only the artifact store changes, and it loads as
      the old corpus followed by the pair. */
  function SpeakStage(s: Stores, inp: Inputs): (r: Result<Stores>)
    ensures r.Ok? <==> LoadJsonList(s.artifacts).Ok?
    ensures r.Fail? ==> r == LoadJsonList(s.artifacts).PropagateFailure()
    ensures r.Ok? ==> r.value.log == s.log && r.value.questions == s.questions
    ensures r.Ok? ==>
      LoadJsonList(r.value.artifacts) == Ok(Loaded(r.value.artifacts, CorpusAfterSpeaker(s, inp)))
  {
    var loaded :- LoadJsonList(s.artifacts);
    var f := AppendAll(loaded.file, NewArtifacts(inp));
    Ok(s.(artifacts := f.value))
  }

  /** Step 5: applying the gloss proposals, when there are any. */
  function GlossStep(f: FileState, proposals: seq<Json>, clock: nat -> int): (r: Result<FileState>)
    ensures proposals == [] ==> r == Ok(f)
    ensures proposals != [] ==> (r.Ok? <==> UpdateArtifactGlosses(f, proposals, clock).Ok?)
    ensures proposals != [] && r.Ok? ==> r.value == UpdateArtifactGlosses(f, proposals, clock).value.0
  {
    if proposals == [] then Ok(f)
    else
      match UpdateArtifactGlosses(f, proposals, clock)
      case Fail(e) => Fail(e)
      case Ok(p) => Ok(p.0)
  }

  /** Steps 5 to 8, after the analysis `a`: apply the glosses, log the
      note, save the new questions and store the answers. */
  function RecordStage(s: Stores, a: R.Analysis, entryId: string, inp: Inputs): (c: CycleRun)
    ensures c.stores.artifacts == s.artifacts
         || (GlossStep(s.artifacts, a.glossing.proposals, inp.glossClock).Ok?
             && c.stores.artifacts == GlossStep(s.artifacts, a.glossing.proposals, inp.glossClock).value)
    ensures c.stores.log == s.log || Append(s.log, a.note) == Ok(c.stores.log)
    ensures c.halt.Completed? ==> Append(s.log, a.note) == Ok(c.stores.log)
    ensures c.stores.questions != s.questions ==> Append(s.log, a.note).Ok?
    ensures c.halt.Completed? ==>
      var saved := SaveQuestions(s.questions, a.questioning.newQuestions, entryId, inp.questionMs, 0);
      && saved.fault.None?
      && (a.questioning.updated == [] ==> c.stores.questions == saved.file)
      && (a.questioning.updated != [] ==>
            && UpdateResearchQuestions(saved.file, a.questioning.updated, inp.updateClock).Ok?
            && c.stores.questions == UpdateResearchQuestions(saved.file, a.questioning.updated, inp.updateClock).value.0)
  {
    match GlossStep(s.artifacts, a.glossing.proposals, inp.glossClock)
    case Fail(e) => CycleRun(s, Aborted(e))
    case Ok(fa) =>
      var s5 := s.(artifacts := fa);
      match Append(s5.log, a.note)
      case Fail(e) => CycleRun(s5, Aborted(e))
      case Ok(fl) =>
        var s6 := s5.(log := fl);
        var saved := SaveQuestions(s6.questions, a.questioning.newQuestions, entryId, inp.questionMs, 0);
        var s7 := s6.(questions := saved.file);
        if saved.fault.Some? then CycleRun(s7, Aborted(saved.fault.value))
        else if a.questioning.updated == [] then CycleRun(s7, Completed)
        else
          match UpdateResearchQuestions(s7.questions, a.questioning.updated, inp.updateClock)
          case Fail(e) => CycleRun(s7, Aborted(e))
          case Ok(p) => CycleRun(s7.(questions := p.0), Completed)
  }

  /** The analysis of step 4, over the stores as step 4 finds them. */
  function AnalysisOf(s: Stores, inp: Inputs): Result<R.Analysis>
    requires LoadJsonList(s.artifacts).Ok? && LoadJsonList(s.questions).Ok?
  {
    R.AnalyzeCorpus(EntryId(inp), LoadJsonList(s.artifacts).value.records, LoadJsonList(s.questions).value.records,
                    inp.narrative, inp.questionReply, inp.glossReply)
  }

  /** Step 4 and on: load the questions, count those shown as needing
      review, analyze the corpus, then record the results. The log gains
      the analysis' note when the cycle completes and otherwise at most
      that note; the artifacts change only by the analysis' glosses. */
  function ResearchStage(s: Stores, inp: Inputs): (c: CycleRun)
    requires LoadJsonList(s.artifacts).Ok?
    ensures (c.halt.Completed? || c.stores.log != s.log) ==>
      && LoadJsonList(s.questions).Ok? && AnalysisOf(s, inp).Ok?
      && Append(s.log, AnalysisOf(s, inp).value.note) == Ok(c.stores.log)
    ensures c.halt.Completed? ==>
      && LoadJsonList(s.questions).Ok? && AnalysisOf(s, inp).Ok?
      && var s4 := s.(questions := LoadJsonList(s.questions).value.file);
         && LoadJsonList(s4.questions).Ok?
         && LoadJsonList(s4.questions).value.records == LoadJsonList(s.questions).value.records
         && c == RecordStage(s4, AnalysisOf(s, inp).value, EntryId(inp), inp)
    ensures c.stores.artifacts == s.artifacts
         || (&& LoadJsonList(s.questions).Ok? && AnalysisOf(s, inp).Ok?
             && GlossStep(s.artifacts, AnalysisOf(s, inp).value.glossing.proposals, inp.glossClock) == Ok(c.stores.artifacts))
  {
    match LoadJsonList(s.questions)
    case Fail(e) => CycleRun(s, Aborted(e))
    case Ok(lq) =>
      var s4 := s.(questions := lq.file);
      var existing := lq.records;
      var shown := if existing == [] then Ok(0) else ReviewCount(existing);
      if shown.Fail? then CycleRun(s4, Aborted(shown.fault))
      else
        match AnalysisOf(s, inp)
        case Fail(e) => CycleRun(s4, Aborted(e))
        case Ok(a) => RecordStage(s4, a, EntryId(inp), inp)
  }

  /** The analysis a full cycle makes: of the corpus with the new pair
      and the questions as stored before the cycle. */
  function CycleAnalysis(s: Stores, inp: Inputs): Result<R.Analysis>
    requires LoadJsonList(s.artifacts).Ok? && LoadJsonList(s.questions).Ok?
  {
    R.AnalyzeCorpus(EntryId(inp), CorpusAfterSpeaker(s, inp), LoadJsonList(s.questions).value.records,
                    inp.narrative, inp.questionReply, inp.glossReply)
  }

  /** `main` without `--speaker`: one full cycle. */
  function RunCycle(s: Stores, inp: Inputs): (c: CycleRun)
    ensures LoadJsonList(s.artifacts).Fail? ==> c == CycleRun(s, Aborted(LoadJsonList(s.artifacts).fault))
  {
    match SpeakStage(s, inp)
    case Fail(e) => CycleRun(s, Aborted(e))
    case Ok(s1) => ResearchStage(s1, inp)
  }

  // ---------------------------------------------------------------------
  // main

  /** How `main` ends: refusing the count, after the speaker-only runs,
      or after one full cycle. */
  datatype Ending = Refusal | SpeakerDone(speakerRun: Result<FileState>) | CycleDone(cycleRun: CycleRun)

  /** The draws of `count` speaker runs, run `i` reading `draw(i)`. */
  function Runs(count: nat, draw: nat -> Draw): (r: seq<Draw>)
    ensures |r| == count
    ensures forall i :: 0 <= i < count ==> r[i] == draw(i)
  {
    seq(count, i requires 0 <= i => draw(i))
  }

  /** `main`: the mode the count selects, then the speaker-only runs over
      the artifact store or one full cycle over the three stores. */
  function Main(speaker: Option<int>, s: Stores, inp: Inputs, draw: nat -> Draw): (e: Ending)
    ensures e.Refusal? <==> ModeOf(speaker).Refused?
    ensures e.SpeakerDone? <==> ModeOf(speaker).SpeakerOnly?
    ensures e.SpeakerDone? ==>
      e.speakerRun == RunSpeakerOnly(s.artifacts, Runs(ModeOf(speaker).count, draw), inp.maxWords)
    ensures e.CycleDone? <==> ModeOf(speaker).FullCycle?
    ensures e.CycleDone? ==> e.cycleRun == RunCycle(s, inp)
  {
    match ModeOf(speaker)
    case Refused => Refusal
    case SpeakerOnly(n) => SpeakerDone(RunSpeakerOnly(s.artifacts, Runs(n, draw), inp.maxWords))
    case FullCycle => CycleDone(RunCycle(s, inp))
  }

  /** The process exit status: 1 after the refusal message, and 1 when a
      run raises, since `main` catches nothing; 0 otherwise. */
  function ExitStatus(e: Ending): (code: int)
    ensures code == 0 || code == 1
    ensures code != 0 <==>
      || e.Refusal?
      || (e.SpeakerDone? && e.speakerRun.Fail?)
      || (e.CycleDone? && e.cycleRun.halt.Aborted?)
  {
    match e
    case Refusal => 1
    case SpeakerDone(r) => if r.Fail? then 1 else 0
    case CycleDone(c) => if c.halt.Aborted? then 1 else 0
  }

  /** The exit status of `main` in terms of its inputs: a refused count
      exits 1; the speaker-only runs exit 1 exactly when the artifact
      store does not load; a full cycle exits 1 exactly when it stops on a
      fault. An artifact store that does not load makes every mode exit
      1. */
  lemma MainExitStatus(speaker: Option<int>, s: Stores, inp: Inputs, draw: nat -> Draw)
    ensures var code := ExitStatus(Main(speaker, s, inp, draw));
      && (speaker.Some? && speaker.value < 0 ==> code == 1)
      && (speaker.Some? && speaker.value > 0 ==> (code == 1 <==> LoadJsonList(s.artifacts).Fail?))
      && (speaker == None || speaker == Some(0) ==> (code == 1 <==> RunCycle(s, inp).halt.Aborted?))
      && (LoadJsonList(s.artifacts).Fail? ==> code == 1)
  {
  }

  /** A full cycle that completes logs exactly one research note, for
      the corpus with the new pair; a cycle that stops logs that note or
      nothing. */
  lemma CycleLogsOneNote(s: Stores, inp: Inputs)
    ensures var c := RunCycle(s, inp);
      (c.halt.Completed? || c.stores.log != s.log) ==>
        && LoadJsonList(s.artifacts).Ok? && LoadJsonList(s.log).Ok?
        && LoadJsonList(c.stores.log).Ok?
        && var before := LoadJsonList(s.log).value.records;
           var after := LoadJsonList(c.stores.log).value.records;
           && |after| == |before| + 1
           && after[..|before|] == before
           && R.NoteFor(after[|before|], EntryId(inp), inp.narrative, CorpusAfterSpeaker(s, inp))
  {
    var c := RunCycle(s, inp);
    if LoadJsonList(s.artifacts).Ok? {
      var s1 := SpeakStage(s, inp).value;
      assert c == ResearchStage(s1, inp);
      if c.halt.Completed? || c.stores.log != s.log {
        var a := AnalysisOf(s1, inp).value;
        var before := LoadJsonList(s.log).value.records;
        assert LoadJsonList(c.stores.log).value.records == before + [a.note];
        assert (before + [a.note])[..|before|] == before;
      }
    }
  }

  /** A full cycle changes no artifact it found except in its metadata,
      and the artifact store ends as the old corpus followed by the new
      pair, in order. */
  lemma CycleKeepsArtifacts(s: Stores, inp: Inputs)
    requires LoadJsonList(s.artifacts).Ok?
    ensures var c := RunCycle(s, inp);
      var corpus := CorpusAfterSpeaker(s, inp);
      && LoadJsonList(c.stores.artifacts).Ok?
      && var after := LoadJsonList(c.stores.artifacts).value.records;
         && |after| == |corpus|
         && forall i, k :: 0 <= i < |corpus| && k != "metadata" ==>
              (k in after[i] <==> k in corpus[i]) && (k in corpus[i] ==> after[i][k] == corpus[i][k])
  {
    var c := RunCycle(s, inp);
    var s1 := SpeakStage(s, inp).value;
    assert c == ResearchStage(s1, inp);
    if c.stores.artifacts != s1.artifacts {
      var a := AnalysisOf(s1, inp).value;
      GlossStepKeeps(s1.artifacts, a.glossing.proposals, inp.glossClock);
    }
  }

  /** Applying gloss proposals keeps every artifact, and every field of
      it but its metadata. */
  lemma GlossStepKeeps(f: FileState, proposals: seq<Json>, clock: nat -> int)
    requires LoadJsonList(f).Ok? && GlossStep(f, proposals, clock).Ok?
    ensures var before := LoadJsonList(f).value.records;
      && LoadJsonList(GlossStep(f, proposals, clock).value).Ok?
      && var after := LoadJsonList(GlossStep(f, proposals, clock).value).value.records;
         && |after| == |before|
         && forall i, k :: 0 <= i < |before| && k != "metadata" ==>
              (k in after[i] <==> k in before[i]) && (k in before[i] ==> after[i][k] == before[i][k])
  {
    if proposals != [] {
      var before := LoadJsonList(f).value.records;
      var byId := GlossUpdatesById(proposals).value;
      var after := LoadJsonList(GlossStep(f, proposals, clock).value).value.records;
      forall i, k | 0 <= i < |before| && k != "metadata"
        ensures (k in after[i] <==> k in before[i]) && (k in before[i] ==> after[i][k] == before[i][k])
      {
        if IdOf(before[i]) in byId {
          assert after[i] == GlossApplied(before[i], byId[IdOf(before[i])], clock(i)).value;
        }
      }
    }
  }

  /** `x` and `y` agree on every key outside `changed`. */
  ghost predicate AgreesOutside(x: Record, y: Record, changed: set<string>) {
    forall k :: k !in changed ==> (k in x <==> k in y) && (k in y ==> x[k] == y[k])
  }

  /** The fields an answer update may change. */
  const AnswerFields: set<string> := {"proposed_answer", "confidence", "updated_at"}

  /** The stamps of step 7 on the `j`-th new question. */
  predicate StampedAs(q: Record, entryId: string, clockMs: nat) {
    && "research_note_id" in q && q["research_note_id"] == JStr(entryId)
    && "id" in q && q["id"] == JStr(MakeId("Q", clockMs))
    && "created_at" in q && q["created_at"] == JInt(clockMs / 1000)
  }

  /** Step 7 without a fault: every new question was an object, and the
      store ends as the old questions followed by the stamped new ones. */
  lemma SavedQuestionsRecords(f: FileState, newQs: seq<Json>, entryId: string, clock: nat -> nat)
    requires LoadJsonList(f).Ok?
    requires SaveQuestions(f, newQs, entryId, clock, 0).fault.None?
    ensures LeadingObjects(newQs) == |newQs|
    ensures var saved := SaveQuestions(f, newQs, entryId, clock, 0).file;
      && LoadJsonList(saved).Ok?
      && LoadJsonList(saved).value.records == LoadJsonList(f).value.records + StampAll(newQs, entryId, clock, 0)
  {
    if newQs == [] {
      SavedNoQuestions(f, entryId, clock);
    } else {
      SavedSomeQuestions(f, newQs, entryId, clock);
    }
  }

  lemma SavedNoQuestions(f: FileState, entryId: string, clock: nat -> nat)
    requires LoadJsonList(f).Ok?
    ensures SaveQuestions(f, [], entryId, clock, 0).file == f
    ensures LoadJsonList(f).value.records + StampAll([], entryId, clock, 0) == LoadJsonList(f).value.records
  {
    assert StampAll([], entryId, clock, 0) == [];
  }

  lemma SavedSomeQuestions(f: FileState, newQs: seq<Json>, entryId: string, clock: nat -> nat)
    requires LoadJsonList(f).Ok? && newQs != []
    requires SaveQuestions(f, newQs, entryId, clock, 0).fault.None?
    ensures LeadingObjects(newQs) == |newQs|
    ensures var saved := SaveQuestions(f, newQs, entryId, clock, 0).file;
      && LoadJsonList(saved).Ok?
      && LoadJsonList(saved).value.records == LoadJsonList(f).value.records + StampAll(newQs, entryId, clock, 0)
  {
    assert newQs[..|newQs|] == newQs;
  }

  /** The stamped questions, appended after `before`, carry their stamps. */
  lemma StampedAfter(before: seq<Record>, newQs: seq<Json>, entryId: string, clock: nat -> nat)
    requires forall j :: 0 <= j < |newQs| ==> newQs[j].JObj?
    ensures var after := before + StampAll(newQs, entryId, clock, 0);
      forall j :: 0 <= j < |newQs| ==> StampedAs(after[|before| + j], entryId, clock(j))
  {
    var stamped := StampAll(newQs, entryId, clock, 0);
    forall j | 0 <= j < |newQs|
      ensures StampedAs((before + stamped)[|before| + j], entryId, clock(j))
    {
      StampAllAt(newQs, entryId, clock, 0, j);
      assert (before + stamped)[|before| + j] == stamped[j];
    }
  }

  /** Step 8: storing the answers keeps every question, and every field
      of it outside the answer fields. */
  lemma AnswersKeepQuestions(f: FileState, updated: seq<Record>, clock: nat -> int)
    requires UpdateResearchQuestions(f, updated, clock).Ok?
    ensures var before := LoadJsonList(f).value.records;
      var after := LoadJsonList(UpdateResearchQuestions(f, updated, clock).value.0);
      && after.Ok?
      && |after.value.records| == |before|
      && forall i :: 0 <= i < |before| ==> AgreesOutside(after.value.records[i], before[i], AnswerFields)
  {
    var before := LoadJsonList(f).value.records;
    var byId := QuestionUpdatesById(updated).value;
    var after := LoadJsonList(UpdateResearchQuestions(f, updated, clock).value.0).value.records;
    forall i | 0 <= i < |before|
      ensures AgreesOutside(after[i], before[i], AnswerFields)
    {
      if IdOf(before[i]) in byId {
        assert after[i] == AnswerUpdate(before[i], byId[IdOf(before[i])], clock(i));
      }
    }
  }

  /** The answer fields hold none of the stamps. */
  lemma AnswersKeepStamps(x: Record, y: Record, entryId: string, clockMs: nat)
    requires AgreesOutside(x, y, AnswerFields) && StampedAs(y, entryId, clockMs)
    ensures StampedAs(x, entryId, clockMs)
  {
    assert "research_note_id" !in AnswerFields && "id" !in AnswerFields && "created_at" !in AnswerFields;
  }

  /** The questions store after steps 7 and 8 ran without a fault. */
  ghost predicate QuestionsRecorded(before: seq<Record>, g: FileState, newQs: seq<Json>, entryId: string,
                                    clock: nat -> nat)
  {
    && LeadingObjects(newQs) == |newQs|
    && LoadJsonList(g).Ok?
    && RecordedIn(before, LoadJsonList(g).value.records, newQs, entryId, clock)
  }

  /** `after` holds the questions of `before`, changed at most in their
      answer fields, followed by the new questions with their stamps. */
  ghost predicate RecordedIn(before: seq<Record>, after: seq<Record>, newQs: seq<Json>, entryId: string,
                             clock: nat -> nat)
  {
    && |after| == |before| + |newQs|
    && (forall i :: 0 <= i < |before| ==> AgreesOutside(after[i], before[i], AnswerFields))
    && (forall j :: 0 <= j < |newQs| ==> StampedAs(after[|before| + j], entryId, clock(j)))
  }

  /** Step 7 alone, when there are no answers to store. */
  lemma QuestionsSavedOnly(f: FileState, newQs: seq<Json>, entryId: string, clock: nat -> nat)
    requires LoadJsonList(f).Ok?
    requires SaveQuestions(f, newQs, entryId, clock, 0).fault.None?
    ensures QuestionsRecorded(LoadJsonList(f).value.records, SaveQuestions(f, newQs, entryId, clock, 0).file,
                              newQs, entryId, clock)
  {
    SavedQuestionsRecords(f, newQs, entryId, clock);
    AppendedRecorded(LoadJsonList(f).value.records, newQs, entryId, clock);
  }

  /** The stamped questions appended after `before` are recorded there. */
  lemma AppendedRecorded(before: seq<Record>, newQs: seq<Json>, entryId: string, clock: nat -> nat)
    requires forall j :: 0 <= j < |newQs| ==> newQs[j].JObj?
    ensures RecordedIn(before, before + StampAll(newQs, entryId, clock, 0), newQs, entryId, clock)
  {
    var after := before + StampAll(newQs, entryId, clock, 0);
    StampedAfter(before, newQs, entryId, clock);
    forall i | 0 <= i < |before| ensures AgreesOutside(after[i], before[i], AnswerFields) {
      assert after[i] == before[i];
    }
  }

  lemma AgreesOutsideTrans(x: Record, y: Record, z: Record, changed: set<string>)
    requires AgreesOutside(x, y, changed) && AgreesOutside(y, z, changed)
    ensures AgreesOutside(x, z, changed)
  {
  }

  /** Storing answers after step 7 keeps what step 7 recorded. */
  lemma AnsweringKeepsRecorded(before: seq<Record>, g: FileState, newQs: seq<Json>, updated: seq<Record>,
                               entryId: string, clock: nat -> nat, updateClock: nat -> int)
    requires QuestionsRecorded(before, g, newQs, entryId, clock)
    requires UpdateResearchQuestions(g, updated, updateClock).Ok?
    ensures QuestionsRecorded(before, UpdateResearchQuestions(g, updated, updateClock).value.0, newQs, entryId, clock)
  {
    AnswersKeepQuestions(g, updated, updateClock);
    var mid := LoadJsonList(g).value.records;
    var after := LoadJsonList(UpdateResearchQuestions(g, updated, updateClock).value.0).value.records;
    RecordedUnderAnswers(before, mid, after, newQs, entryId, clock);
  }

  /** Answers stored over a store that recorded step 7 keep it recorded. */
  lemma RecordedUnderAnswers(before: seq<Record>, mid: seq<Record>, after: seq<Record>, newQs: seq<Json>,
                             entryId: string, clock: nat -> nat)
    requires RecordedIn(before, mid, newQs, entryId, clock)
    requires |after| == |mid| && forall i :: 0 <= i < |mid| ==> AgreesOutside(after[i], mid[i], AnswerFields)
    ensures RecordedIn(before, after, newQs, entryId, clock)
  {
    AnsweredKeepsOld(before, mid, after);
    AnsweredKeepsStamps(|before|, mid, after, newQs, entryId, clock);
  }

  /** Answers stored on top of questions that agree with `before` still
      agree with it outside the answer fields. */
  lemma AnsweredKeepsOld(before: seq<Record>, mid: seq<Record>, after: seq<Record>)
    requires |before| <= |mid| == |after|
    requires forall i :: 0 <= i < |before| ==> AgreesOutside(mid[i], before[i], AnswerFields)
    requires forall i :: 0 <= i < |mid| ==> AgreesOutside(after[i], mid[i], AnswerFields)
    ensures forall i :: 0 <= i < |before| ==> AgreesOutside(after[i], before[i], AnswerFields)
  {
    forall i | 0 <= i < |before| ensures AgreesOutside(after[i], before[i], AnswerFields) {
      AgreesOutsideTrans(after[i], mid[i], before[i], AnswerFields);
    }
  }

  /** Answers stored on top of stamped questions keep the stamps. */
  lemma AnsweredKeepsStamps(n: nat, mid: seq<Record>, after: seq<Record>, newQs: seq<Json>,
                            entryId: string, clock: nat -> nat)
    requires n + |newQs| == |mid| == |after|
    requires forall j :: 0 <= j < |newQs| ==> StampedAs(mid[n + j], entryId, clock(j))
    requires forall i :: 0 <= i < |mid| ==> AgreesOutside(after[i], mid[i], AnswerFields)
    ensures forall j :: 0 <= j < |newQs| ==> StampedAs(after[n + j], entryId, clock(j))
  {
    forall j | 0 <= j < |newQs| ensures StampedAs(after[n + j], entryId, clock(j)) {
      AnswersKeepStamps(after[n + j], mid[n + j], entryId, clock(j));
    }
  }

  /** Steps 7 and 8, when the cycle completes: every new question was an
      object and is saved after the stored ones with its stamps; the
      answers change no stored question outside its answer fields and
      remove none of the stamps. */
  lemma RecordStageQuestions(s: Stores, a: R.Analysis, entryId: string, inp: Inputs)
    requires LoadJsonList(s.questions).Ok?
    ensures var c := RecordStage(s, a, entryId, inp);
      c.halt.Completed? ==>
        QuestionsRecorded(LoadJsonList(s.questions).value.records, c.stores.questions,
                          a.questioning.newQuestions, entryId, inp.questionMs)
  {
    var c := RecordStage(s, a, entryId, inp);
    if c.halt.Completed? {
      if a.questioning.updated == [] {
        QuestionsSavedOnly(s.questions, a.questioning.newQuestions, entryId, inp.questionMs);
      } else {
        QuestionsSavedOnly(s.questions, a.questioning.newQuestions, entryId, inp.questionMs);
        var saved := SaveQuestions(s.questions, a.questioning.newQuestions, entryId, inp.questionMs, 0);
        AnsweringKeepsRecorded(LoadJsonList(s.questions).value.records, saved.file, a.questioning.newQuestions,
                               a.questioning.updated, entryId, inp.questionMs, inp.updateClock);
      }
    }
  }

  /** A full cycle that completes saved every new question of its
      analysis, stamped with the note id, after the stored questions, and
      changed no stored question outside its answer fields. */
  lemma CycleRecordsQuestions(s: Stores, inp: Inputs)
    requires LoadJsonList(s.artifacts).Ok?
    ensures var c := RunCycle(s, inp);
      c.halt.Completed? ==>
        && LoadJsonList(s.questions).Ok?
        && CycleAnalysis(s, inp).Ok?
        && QuestionsRecorded(LoadJsonList(s.questions).value.records, c.stores.questions,
                             CycleAnalysis(s, inp).value.questioning.newQuestions, EntryId(inp), inp.questionMs)
  {
    var c := RunCycle(s, inp);
    var s1 := SpeakStage(s, inp).value;
    assert c == ResearchStage(s1, inp);
    if c.halt.Completed? {
      assert AnalysisOf(s1, inp) == CycleAnalysis(s, inp);
      var s4 := s1.(questions := LoadJsonList(s1.questions).value.file);
      RecordStageQuestions(s4, AnalysisOf(s1, inp).value, EntryId(inp), inp);
    }
  }

  /** What the researcher needs to know of a fresh pair. */
  predicate FreshPair(p: seq<Record>) {
    && |p| == 2
    && R.Contributes(p[0]) && R.LanguageOf(p[0]) == JStr(Language) && R.NeedsGloss(p[0]) == Ok(true)
    && R.IsSentence(p[1])
    && "id" in p[0] && "id" in p[1]
  }

  lemma NewArtifactsFresh(inp: Inputs)
    ensures FreshPair(NewArtifacts(inp))
  {
    S.FreshArtifactsForResearch(Language, MakeId("A", inp.artifactMs), inp.maxWords, inp.speakerReply,
                                inp.contextPick, inp.wordPick);
  }

  /** A fresh pair gives one language, and the languages sort. */
  lemma FreshPairTokens(p: seq<Record>)
    requires FreshPair(p)
    ensures R.ExtractTokens(p).Ok?
    ensures R.LanguagesSeen(R.ExtractTokens(p).value).Ok?
  {
    assert forall i :: 0 <= i < |p| && R.Contributes(p[i]) ==> Hashable(R.LanguageOf(p[i])) by {
      forall i | 0 <= i < |p| && R.Contributes(p[i]) ensures Hashable(R.LanguageOf(p[i])) {
        assert i == 0;
      }
    }
    var bs := R.ExtractTokens(p).value;
    assert R.ContributingLanguages(p) == {JStr(Language)} by {
      forall l ensures l in R.ContributingLanguages(p) <==> l == JStr(Language) {
        if l == JStr(Language) {
          assert R.Contributes(p[0]) && R.LanguageOf(p[0]) == l;
        }
      }
    }
    forall i | 0 <= i < |bs| ensures bs[i].lang == JStr(Language) {
      assert bs[i].lang in R.Langs(bs);
    }
    var langs := R.BucketLangs(bs);
    assert forall i :: 0 <= i < |langs| ==> langs[i].JStr?;
  }

  /** The gloss candidates of a fresh pair: its inscription is one, and
      every one carries an `id`. */
  lemma FreshPairCandidates(p: seq<Record>)
    requires FreshPair(p)
    ensures R.GlossCandidates(p).Ok?
    ensures p[0] in R.GlossCandidates(p).value
    ensures forall a :: a in R.GlossCandidates(p).value ==> "id" in a
  {
    var window := p[|p| - (if |p| < R.GlossWindow then |p| else R.GlossWindow)..];
    assert window == p;
    assert forall i :: 0 <= i < |window| && !R.IsSentence(window[i]) ==> R.NeedsGloss(window[i]).Ok? by {
      forall i | 0 <= i < |window| && !R.IsSentence(window[i]) ensures R.NeedsGloss(window[i]).Ok? {
        assert i == 0;
      }
    }
  }

  /** The gloss step accepts a fresh pair. With no usable reply nothing is
      proposed. */
  lemma FreshPairGlosses(p: seq<Record>)
    requires FreshPair(p)
    ensures R.GenerateArtifactGlosses(p, R.MaxToGloss, None).Ok?
    ensures R.GenerateArtifactGlosses(p, R.MaxToGloss, None).value.proposals == []
  {
    FreshPairCandidates(p);
    var cands := R.GlossCandidates(p).value;
    var batch := PySeq.From(cands, -(R.MaxToGloss as int));
    assert R.AllHaveIds(batch) by {
      forall i | 0 <= i < |batch| ensures "id" in batch[i] {
        assert batch[i] in cands;
      }
    }
  }

  /** With no questions stored and no usable reply, the question step
      reviews, proposes and answers nothing. */
  lemma NoQuestionsNoReply()
    ensures R.GenerateResearchQuestions([], None) == Ok(R.Questioning([], [], [], []))
  {
    assert R.ReviewFilter([]) == Ok([]);
    assert R.ParseQuestionReply([], [], None) == Ok(R.Questioning([], [], [], []));
  }

  /** The researcher accepts a corpus holding only a fresh pair. With no
      usable replies nothing is proposed. */
  lemma FreshPairAnalyzed(entryId: string, p: seq<Record>, narrative: string)
    requires FreshPair(p)
    ensures var a := R.AnalyzeCorpus(entryId, p, [], narrative, None, None);
      && a.Ok?
      && a.value.glossing.proposals == []
      && a.value.questioning.newQuestions == []
      && a.value.questioning.updated == []
  {
    FreshPairTokens(p);
    FreshPairGlosses(p);
    NoQuestionsNoReply();
  }

  /** An analysis that proposes no gloss and no question. */
  predicate Quiet(a: R.Analysis) {
    a.glossing.proposals == [] && a.questioning.newQuestions == [] && a.questioning.updated == []
  }

  /** Recording a quiet analysis completes, and only appends its note. */
  lemma RecordQuiet(s: Stores, a: R.Analysis, entryId: string, inp: Inputs)
    requires Quiet(a) && LoadJsonList(s.log).Ok?
    ensures RecordStage(s, a, entryId, inp) == CycleRun(s.(log := Append(s.log, a.note).value), Completed)
  {
    assert GlossStep(s.artifacts, a.glossing.proposals, inp.glossClock) == Ok(s.artifacts);
    assert SaveQuestions(s.questions, [], entryId, inp.questionMs, 0) == Saved(s.questions, None);
  }

  /** Step 4 on with no stored questions and a quiet analysis completes:
      the question store is created empty and the log gains the note. */
  lemma ResearchQuiet(s: Stores, inp: Inputs)
    requires LoadJsonList(s.artifacts).Ok? && LoadJsonList(s.log).Ok?
    requires LoadJsonList(s.questions).Ok? && LoadJsonList(s.questions).value.records == []
    requires AnalysisOf(s, inp).Ok? && Quiet(AnalysisOf(s, inp).value)
    ensures ResearchStage(s, inp) ==
      CycleRun(s.(questions := LoadJsonList(s.questions).value.file,
                  log := Append(s.log, AnalysisOf(s, inp).value.note).value), Completed)
  {
    var s4 := s.(questions := LoadJsonList(s.questions).value.file);
    RecordQuiet(s4, AnalysisOf(s, inp).value, EntryId(inp), inp);
  }

  /** Speaking onto an empty corpus leaves the new pair as the corpus. */
  lemma SpeakOntoEmpty(s: Stores, inp: Inputs)
    requires LoadJsonList(s.artifacts).Ok? && LoadJsonList(s.artifacts).value.records == []
    ensures CorpusAfterSpeaker(s, inp) == NewArtifacts(inp)
  {
    EmptyThen(LoadJsonList(s.artifacts).value.records, NewArtifacts(inp));
  }

  lemma EmptyThen<T>(xs: seq<T>, ys: seq<T>)
    requires xs == []
    ensures xs + ys == ys
  {
  }

  /** Steps 0 to 3 on missing stores leave the new pair as the whole
      corpus and write nothing else. */
  lemma FirstSpeak(inp: Inputs)
    ensures SpeakStage(Stores(Absent, Absent, Absent), inp).Ok?
    ensures var s1 := SpeakStage(Stores(Absent, Absent, Absent), inp).value;
      && LoadJsonList(s1.artifacts).Ok?
      && LoadJsonList(s1.artifacts).value.records == NewArtifacts(inp)
      && s1.log == Absent && s1.questions == Absent
  {
    SpeakOntoEmpty(Stores(Absent, Absent, Absent), inp);
  }

  /** With no usable model reply the cycle after steps 0 to 3 on missing
      stores is quiet and completes. */
  lemma FirstResearchQuiet(inp: Inputs)
    requires inp.questionReply.None? && inp.glossReply.None?
    ensures SpeakStage(Stores(Absent, Absent, Absent), inp).Ok?
    ensures var s1 := SpeakStage(Stores(Absent, Absent, Absent), inp).value;
      && AnalysisOf(s1, inp).Ok?
      && ResearchStage(s1, inp) ==
           CycleRun(s1.(questions := Present(Some(JArr([]))),
                        log := Append(Absent, AnalysisOf(s1, inp).value.note).value), Completed)
  {
    FirstSpeak(inp);
    var s1 := SpeakStage(Stores(Absent, Absent, Absent), inp).value;
    var p := NewArtifacts(inp);
    NewArtifactsFresh(inp);
    FreshPairAnalyzed(EntryId(inp), p, inp.narrative);
    assert AnalysisOf(s1, inp) == R.AnalyzeCorpus(EntryId(inp), p, [], inp.narrative, None, None);
    ResearchQuiet(s1, inp);
  }

  /** The first cycle on missing stores, with no usable model reply,
      completes: the artifact store holds exactly the new pair, the log
      holds the one note, and the question store is created empty. */
  lemma FirstCycleCompletes(inp: Inputs)
    requires inp.questionReply.None? && inp.glossReply.None?
    ensures var c := RunCycle(Stores(Absent, Absent, Absent), inp);
      && c.halt.Completed?
      && LoadJsonList(c.stores.artifacts).Ok?
      && LoadJsonList(c.stores.artifacts).value.records == NewArtifacts(inp)
      && LoadJsonList(c.stores.log).Ok? && |LoadJsonList(c.stores.log).value.records| == 1
      && LoadJsonList(c.stores.questions) == Ok(Loaded(Present(Some(JArr([]))), []))
  {
    var s := Stores(Absent, Absent, Absent);
    FirstSpeak(inp);
    FirstResearchQuiet(inp);
    var s1 := SpeakStage(s, inp).value;
    assert RunCycle(s, inp) == ResearchStage(s1, inp);
    CycleLogsOneNote(s, inp);
  }
}

=== FILE: json.dfy ===
/** JSON values as the Python `json` module hands them to the program,
    and the few Python operations the core applies to them. */
module JsonValue {

  /** A decoded JSON document. Numbers are integers; objects are maps
      from key to value (key order plays no role in the modelled logic). */
  datatype Json =
    | JNull
    | JBool(b: bool)
    | JInt(n: int)
    | JStr(s: string)
    | JArr(items: seq<Json>)
    | JObj(fields: map<string, Json>)

  /** A store record: one JSON object. */
  type Record = map<string, Json>

  /** The value stored under `key`, or `default` when the record has no
      such key, as `dict.get` gives. */
  function Get(r: Record, key: string, default: Json): Json {
    if key in r then r[key] else default
  }

  /** The id a record is matched by: `record.get('id')`. */
  function IdOf(a: Record): Json {
    Get(a, "id", JNull)
  }

  /** A record's metadata, or an empty object when it has none. */
  function MetadataOf(a: Record): Json {
    Get(a, "metadata", JObj(map[]))
  }

  /** Python truthiness of a decoded JSON value. */
  predicate Truthy(j: Json) {
    match j
    case JNull => false
    case JBool(b) => b
    case JInt(n) => n != 0
    case JStr(s) => s != []
    case JArr(xs) => xs != []
    case JObj(m) => m != map[]
  }

  /** Values Python accepts as dict keys (lists and dicts are unhashable). */
  predicate Hashable(j: Json) {
    !j.JArr? && !j.JObj?
  }

  /** The elements of a JSON list, or nothing for any other value. */
  function ListItems(j: Json): seq<Json> {
    if j.JArr? then j.items else []
  }
}

=== FILE: pyseq.dfy ===
/** Python slicing of lists, negative bounds included. */
module PySeq {

  /** `xs[start:]`: a negative start counts from the end. */
  function From<T>(xs: seq<T>, start: int): (r: seq<T>)
    ensures |r| <= |xs| && r == xs[|xs| - |r|..]
    ensures start >= 0 ==> |r| == (if start > |xs| then 0 else |xs| - start)
    ensures start < 0 ==> |r| == (if -start > |xs| then |xs| else -start)
  {
    if start < 0 then xs[(if |xs| + start < 0 then 0 else |xs| + start)..]
    else xs[(if start > |xs| then |xs| else start)..]
  }

  /** `xs[:stop]`: a negative stop counts from the end. */
  function Upto<T>(xs: seq<T>, stop: int): (r: seq<T>)
    ensures |r| <= |xs| && r == xs[..|r|]
    ensures stop >= 0 ==> |r| == (if stop > |xs| then |xs| else stop)
    ensures stop < 0 ==> |r| == (if |xs| + stop < 0 then 0 else |xs| + stop)
  {
    if stop < 0 then xs[..(if |xs| + stop < 0 then 0 else |xs| + stop)]
    else xs[..(if stop > |xs| then |xs| else stop)]
  }
}

=== FILE: pytext.dfy ===
/** The Python string operations the core relies on: `str.isspace`,
    `strip`, `split()`, `" ".join`, `lower`, substring search, regular
    expression runs `[class]+` and decimal rendering of integers. */
module PyText {

  /** `c.isspace()`: the characters Python treats as whitespace. */
  predicate IsSpace(c: char) {
    || ('\t' <= c <= '\r')
    || ('\U{1C}' <= c <= ' ')
    || c == '\U{85}' || c == '\U{A0}' || c == '\U{1680}'
    || ('\U{2000}' <= c <= '\U{200A}')
    || c == '\U{2028}' || c == '\U{2029}' || c == '\U{202F}'
    || c == '\U{205F}' || c == '\U{3000}'
  }

  predicate NotSpace(c: char) {
    !IsSpace(c)
  }

  predicate AllIn(s: string, p: char -> bool) {
    forall i :: 0 <= i < |s| ==> p(s[i])
  }

  /** The text with its leading whitespace removed, as `str.lstrip`
      gives. */
  function LStrip(s: string): (r: string)
    ensures |r| <= |s| && r == s[|s| - |r|..]
    ensures forall i :: 0 <= i < |s| - |r| ==> IsSpace(s[i])
    ensures r != [] ==> !IsSpace(r[0])
  {
    if s != [] && IsSpace(s[0]) then LStrip(s[1..]) else s
  }

  /** The text with its trailing whitespace removed, as `str.rstrip`
      gives. */
  function RStrip(s: string): (r: string)
    ensures |r| <= |s| && r == s[..|r|]
    ensures forall i :: |r| <= i < |s| ==> IsSpace(s[i])
    ensures r != [] ==> !IsSpace(r[|r| - 1])
  {
    if s != [] && IsSpace(s[|s| - 1]) then RStrip(s[..|s| - 1]) else s
  }

  /** `s.strip()`: the result is empty exactly when `s` is all whitespace,
      and otherwise starts and ends with a non-whitespace character. */
  function Strip(s: string): (r: string)
    ensures |r| <= |s|
    ensures r == [] <==> AllIn(s, IsSpace)
    ensures r != [] ==> !IsSpace(r[0]) && !IsSpace(r[|r| - 1])
  {
    if s != [] && IsSpace(s[0]) then Strip(s[1..]) else RStrip(s)
  }

  /** Stripping is `lstrip` followed by `rstrip`. */
  lemma {:induction false} StripIsBothSides(s: string)
    ensures Strip(s) == RStrip(LStrip(s))
  {
    if s != [] && IsSpace(s[0]) {
      StripIsBothSides(s[1..]);
    }
  }

  /** Length of the longest prefix of `s` whose characters satisfy `p`. */
  function RunLen(s: string, p: char -> bool): (n: nat)
    ensures n <= |s|
    ensures forall i :: 0 <= i < n ==> p(s[i])
    ensures n < |s| ==> !p(s[n])
  {
    if s != [] && p(s[0]) then 1 + RunLen(s[1..], p) else 0
  }

  /** The maximal runs of `p`-characters of `s`, left to right: what
      `re.findall("[...]+", s)` returns for a character class `p`, and
      what `s.split()` returns for `p == NotSpace`. */
  function Runs(s: string, p: char -> bool): (r: seq<string>)
    ensures forall i :: 0 <= i < |r| ==> r[i] != [] && AllIn(r[i], p)
    decreases |s|
  {
    if s == [] then []
    else if !p(s[0]) then Runs(s[1..], p)
    else
      var n := RunLen(s, p);
      [s[..n]] + Runs(s[n..], p)
  }

  /** The maximal runs of non-whitespace characters, in order, as
      `str.split` with no separator gives. */
  function Split(s: string): seq<string> {
    Runs(s, NotSpace)
  }

  /** The words concatenated with `sep` between each adjacent pair, as
      `str.join` gives. */
  function Join(sep: string, ws: seq<string>): string
    decreases |ws|
  {
    if ws == [] then []
    else if |ws| == 1 then ws[0]
    else ws[0] + sep + Join(sep, ws[1..])
  }

  /** The characters of `s` that satisfy `p`, in order. */
  function Filter(s: string, p: char -> bool): string {
    if s == [] then []
    else (if p(s[0]) then [s[0]] else []) + Filter(s[1..], p)
  }

  function Concat(ws: seq<string>): string {
    if ws == [] then [] else ws[0] + Concat(ws[1..])
  }

  lemma {:induction false} FilterAppend(a: string, b: string, p: char -> bool)
    ensures Filter(a + b, p) == Filter(a, p) + Filter(b, p)
    decreases |a|
  {
    if a != [] {
      assert (a + b)[1..] == a[1..] + b;
      FilterAppend(a[1..], b, p);
    } else {
      assert a + b == b;
    }
  }

  lemma {:induction false} FilterAll(a: string, p: char -> bool)
    requires AllIn(a, p)
    ensures Filter(a, p) == a
    decreases |a|
  {
    if a != [] {
      FilterAll(a[1..], p);
    }
  }

  /** The runs, concatenated, are exactly the `p`-characters of `s`:
      nothing is lost, duplicated or reordered. */
  lemma {:induction false} RunsCoverFilter(s: string, p: char -> bool)
    ensures Concat(Runs(s, p)) == Filter(s, p)
    decreases |s|
  {
    if s == [] {
    } else if !p(s[0]) {
      RunsCoverFilter(s[1..], p);
    } else {
      var n := RunLen(s, p);
      var rest := Runs(s[n..], p);
      assert Runs(s, p) == [s[..n]] + rest;
      assert ([s[..n]] + rest)[1..] == rest;
      RunsCoverFilter(s[n..], p);
      assert s == s[..n] + s[n..];
      FilterAppend(s[..n], s[n..], p);
      FilterAll(s[..n], p);
    }
  }

  /** `RunLen` is the only length with its two defining properties. */
  lemma {:induction false} RunLenExact(s: string, p: char -> bool, m: nat)
    requires m <= |s|
    requires forall i :: 0 <= i < m ==> p(s[i])
    requires m < |s| ==> !p(s[m])
    ensures RunLen(s, p) == m
  {
    if m > 0 {
      assert p(s[0]);
      RunLenExact(s[1..], p, m - 1);
    }
  }

  /** A run followed by a separator character splits off as one token. */
  lemma RunsOfPrefix(w: string, t: string, p: char -> bool)
    requires w != [] && AllIn(w, p)
    requires t == [] || !p(t[0])
    ensures Runs(w + t, p) == [w] + Runs(t, p)
  {
    var s := w + t;
    RunLenExact(s, p, |w|);
    var n := RunLen(s, p);
    assert s[..n] == w;
    assert s[n..] == t;
  }

  lemma RunsSkipSeparator(c: char, t: string, p: char -> bool)
    requires !p(c)
    ensures Runs([c] + t, p) == Runs(t, p)
  {
    assert ([c] + t)[1..] == t;
  }

  /** Words without whitespace, as `split()` produces them. */
  predicate PlainWords(ws: seq<string>) {
    forall i :: 0 <= i < |ws| ==> ws[i] != [] && AllIn(ws[i], NotSpace)
  }

  /** Joining words with single spaces and splitting again gives the words
      back. */
  lemma {:induction false} SplitJoin(ws: seq<string>)
    requires PlainWords(ws)
    ensures Split(Join(" ", ws)) == ws
    decreases |ws|
  {
    if ws == [] {
    } else if |ws| == 1 {
      RunsOfPrefix(ws[0], [], NotSpace);
      assert ws[0] + [] == ws[0];
    } else {
      var rest := Join(" ", ws[1..]);
      assert Join(" ", ws) == ws[0] + (" " + rest);
      RunsOfPrefix(ws[0], " " + rest, NotSpace);
      RunsSkipSeparator(' ', rest, NotSpace);
      SplitJoin(ws[1..]);
      assert ws == [ws[0]] + ws[1..];
    }
  }

  /** `s.split()` is empty exactly when `s.strip()` is. */
  lemma {:induction false} SplitEmptyIffBlank(s: string)
    ensures Split(s) == [] <==> Strip(s) == []
    decreases |s|
  {
    if s != [] && IsSpace(s[0]) {
      SplitEmptyIffBlank(s[1..]);
      assert AllIn(s, IsSpace) <==> AllIn(s[1..], IsSpace) by {
        if AllIn(s[1..], IsSpace) {
          forall i | 0 <= i < |s| ensures IsSpace(s[i]) {
            if i > 0 { assert s[i] == s[1..][i - 1]; }
          }
        }
      }
    }
  }

  function LowerChar(c: char): char {
    if 'A' <= c <= 'Z' then (c as int + 32) as char else c
  }

  /** `s.lower()` restricted to ASCII letters. */
  function Lower(s: string): (r: string)
    ensures |r| == |s|
    ensures forall i :: 0 <= i < |s| ==> r[i] == LowerChar(s[i])
  {
    seq(|s|, i requires 0 <= i < |s| => LowerChar(s[i]))
  }

  /** `needle in hay` for strings. */
  predicate Contains(hay: string, needle: string) {
    exists i :: 0 <= i <= |hay| && StartsWith(hay[i..], needle)
  }

  predicate StartsWith(s: string, prefix: string) {
    |prefix| <= |s| && s[..|prefix|] == prefix
  }

  /** Every joined part occurs in the joined text. */
  lemma {:induction false} JoinContainsPart(sep: string, ws: seq<string>, k: nat)
    requires k < |ws|
    ensures Contains(Join(sep, ws), ws[k])
    decreases |ws|
  {
    var whole := Join(sep, ws);
    if |ws| == 1 {
      assert StartsWith(whole[0..], ws[k]);
    } else if k == 0 {
      assert whole == ws[0] + (sep + Join(sep, ws[1..]));
      assert StartsWith(whole[0..], ws[0]);
    } else {
      JoinContainsPart(sep, ws[1..], k - 1);
      var rest := Join(sep, ws[1..]);
      var i :| 0 <= i <= |rest| && StartsWith(rest[i..], ws[1..][k - 1]);
      var off := |ws[0] + sep|;
      assert whole == (ws[0] + sep) + rest;
      assert whole[off + i..] == rest[i..];
      assert StartsWith(whole[off + i..], ws[k]);
    }
  }

  /** An occurrence inside an occurrence is an occurrence. */
  lemma ContainsTrans(hay: string, mid: string, needle: string)
    requires Contains(hay, mid) && Contains(mid, needle)
    ensures Contains(hay, needle)
  {
    var i :| 0 <= i <= |hay| && StartsWith(hay[i..], mid);
    var j :| 0 <= j <= |mid| && StartsWith(mid[j..], needle);
    assert |mid| <= |hay| - i && |needle| <= |mid| - j;
    forall k | 0 <= k < |needle| ensures hay[i + j..][k] == needle[k] {
      assert mid[j..][..|needle|][k] == needle[k];
      assert hay[i..][..|mid|][j + k] == mid[j + k];
    }
    assert StartsWith(hay[i + j..], needle) by {
      assert hay[i + j..][..|needle|] == needle;
    }
  }

  /** Lowercasing keeps an occurrence. */
  lemma LowerContains(hay: string, needle: string)
    requires Contains(hay, needle)
    ensures Contains(Lower(hay), Lower(needle))
  {
    var i :| 0 <= i <= |hay| && StartsWith(hay[i..], needle);
    assert Lower(hay)[i..][..|needle|] == Lower(needle) by {
      forall j | 0 <= j < |needle| ensures Lower(hay)[i..][..|needle|][j] == Lower(needle)[j] {
        assert hay[i..][..|needle|][j] == needle[j];
      }
    }
  }

  /** `a <= b` for Python strings: code-point lexicographic order. */
  predicate LexLe(a: string, b: string) {
    a == [] || (b != [] && (a[0] < b[0] || (a[0] == b[0] && LexLe(a[1..], b[1..]))))
  }

  lemma {:induction false} LexLeTotal(a: string, b: string)
    ensures LexLe(a, b) || LexLe(b, a)
  {
    if a != [] && b != [] && a[0] == b[0] {
      LexLeTotal(a[1..], b[1..]);
    }
  }

  lemma {:induction false} LexLeTransitive(a: string, b: string, c: string)
    requires LexLe(a, b) && LexLe(b, c)
    ensures LexLe(a, c)
  {
    if a != [] && b != [] && c != [] && a[0] == b[0] && b[0] == c[0] {
      LexLeTransitive(a[1..], b[1..], c[1..]);
    }
  }

  predicate IsDigit(c: char) {
    '0' <= c <= '9'
  }

  function DigitChar(d: nat): (c: char)
    requires d < 10
    ensures IsDigit(c) && c as int - '0' as int == d
  {
    ('0' as int + d) as char
  }

  /** `str(n)` for a natural number. */
  function Decimal(n: nat): (r: string)
    ensures r != [] && AllIn(r, IsDigit)
  {
    if n < 10 then [DigitChar(n)] else Decimal(n / 10) + [DigitChar(n % 10)]
  }

  /** The value of a string of decimal digits. */
  function DecimalValue(s: string): nat
    requires AllIn(s, IsDigit)
  {
    if s == [] then 0
    else DecimalValue(s[..|s| - 1]) * 10 + (s[|s| - 1] as int - '0' as int)
  }

  /** Rendering a number in decimal and reading it back gives the number. */
  lemma {:induction false} DecimalRoundTrip(n: nat)
    ensures DecimalValue(Decimal(n)) == n
  {
    if n >= 10 {
      var d := Decimal(n / 10);
      var r := d + [DigitChar(n % 10)];
      assert r[..|r| - 1] == d;
      DecimalRoundTrip(n / 10);
    }
  }

  /** `str(i)` for an integer. */
  function IntStr(i: int): string {
    if i < 0 then "-" + Decimal(-i) else Decimal(i)
  }
}

=== FILE: researcher.dfy ===
/** The selection and parsing rules of `agents/researcher.py` around its
    three model calls: token statistics, gloss-candidate selection, the
    open-question review filter, matching proposed answers back to stored
    questions, and the research note. The model's replies are inputs:
    the narrative as text, the structured replies as what `json.loads`
    makes of them (`None` when they are not JSON). */
module Researcher {
  import opened Results
  import opened JsonValue
  import opened PyText
  import opened PySeq
  import opened Sorting

  // ---------------------------------------------------------------------
  // _extract_tokens_from_artifacts

  /** The character class `[a-zA-Zʔʼ’-]` of the token pattern. */
  predicate TokenChar(c: char) {
    ('a' <= c <= 'z') || ('A' <= c <= 'Z') || c == '\U{294}' || c == '\U{2BC}' || c == '\U{2019}' || c == '-'
  }

  function LowerAll(ws: seq<string>): (r: seq<string>)
    ensures |r| == |ws| && forall i :: 0 <= i < |ws| ==> r[i] == Lower(ws[i])
  {
    seq(|ws|, i requires 0 <= i < |ws| => Lower(ws[i]))
  }

  /** Lowercasing token by token is lowercasing the tokens' concatenation. */
  lemma {:induction false} ConcatLowerAll(ws: seq<string>)
    ensures Concat(LowerAll(ws)) == Lower(Concat(ws))
    decreases |ws|
  {
    if ws != [] {
      ConcatLowerAll(ws[1..]);
      assert LowerAll(ws)[1..] == LowerAll(ws[1..]);
      var a, b := ws[0], Concat(ws[1..]);
      assert Lower(a + b) == Lower(a) + Lower(b) by {
        forall i | 0 <= i < |a + b| ensures Lower(a + b)[i] == (Lower(a) + Lower(b))[i] {
          if i < |a| {
            assert (a + b)[i] == a[i];
          } else {
            assert (a + b)[i] == b[i - |a|];
          }
        }
      }
    }
  }

  /** The lowercased tokens of a text: every token is non-empty. */
  function Tokenize(text: string): (r: seq<string>)
    ensures forall i :: 0 <= i < |r| ==> r[i] != []
  {
    LowerAll(Runs(text, TokenChar))
  }

  /** Together the tokens are exactly the text's token characters,
      lowercased, in order. */
  lemma TokensSpellText(text: string)
    ensures Concat(Tokenize(text)) == Lower(Filter(text, TokenChar))
  {
    RunsCoverFilter(text, TokenChar);
    ConcatLowerAll(Runs(text, TokenChar));
  }

  predicate IsSentence(a: Record) {
    Get(a, "type", JNull) == JStr("sentence")
  }

  /** An artifact feeds the statistics when it is not a sentence and its
      text is a string. */
  predicate Contributes(a: Record) {
    !IsSentence(a) && Get(a, "text", JStr("")).JStr?
  }

  function LanguageOf(a: Record): Json {
    Get(a, "language", JStr("unknown"))
  }

  function ArtifactTokens(a: Record): seq<string>
    requires Contributes(a)
  {
    Tokenize(Get(a, "text", JStr("")).s)
  }

  /** Reference: all tokens the corpus gives a language, in corpus order. */
  function LanguageTokens(arts: seq<Record>, lang: Json): seq<string> {
    if arts == [] then []
    else
      var a := arts[|arts| - 1];
      LanguageTokens(arts[..|arts| - 1], lang)
        + (if Contributes(a) && LanguageOf(a) == lang then ArtifactTokens(a) else [])
  }

  /** Reference: the languages of the contributing artifacts. */
  function ContributingLanguages(arts: seq<Record>): set<Json> {
    set i | 0 <= i < |arts| && Contributes(arts[i]) :: LanguageOf(arts[i])
  }

  /** One entry of the per-language token dictionary. */
  datatype Bucket = Bucket(lang: Json, tokens: seq<string>)

  function Langs(bs: seq<Bucket>): set<Json> {
    set i | 0 <= i < |bs| :: bs[i].lang
  }

  predicate UniqueLangs(bs: seq<Bucket>) {
    forall i, j :: 0 <= i < j < |bs| ==> bs[i].lang != bs[j].lang
  }

  /** The tokens a dictionary holds for `lang` (`[]` when absent). */
  function TokensFor(bs: seq<Bucket>, lang: Json): seq<string> {
    if bs == [] then []
    else if bs[0].lang == lang then bs[0].tokens
    else TokensFor(bs[1..], lang)
  }

  lemma LangsCons(b: Bucket, bs: seq<Bucket>)
    ensures Langs([b] + bs) == {b.lang} + Langs(bs)
  {
    var r := [b] + bs;
    forall l | l in Langs(r) ensures l in {b.lang} + Langs(bs) {
      var i :| 0 <= i < |r| && r[i].lang == l;
      if i > 0 {
        assert bs[i - 1].lang == l;
      }
    }
    forall l | l in Langs(bs) ensures l in Langs(r) {
      var i :| 0 <= i < |bs| && bs[i].lang == l;
      assert r[i + 1].lang == l;
    }
    assert r[0].lang == b.lang;
  }

  /** `per_lang[lang].extend(toks)` on a `defaultdict(list)`. */
  function AddTokens(bs: seq<Bucket>, lang: Json, toks: seq<string>): (r: seq<Bucket>)
    requires UniqueLangs(bs)
    ensures UniqueLangs(r)
    ensures Langs(r) == Langs(bs) + {lang}
    ensures forall l :: TokensFor(r, l) == TokensFor(bs, l) + (if l == lang then toks else [])
  {
    if bs == [] then
      LangsCons(Bucket(lang, toks), []);
      assert [Bucket(lang, toks)] + [] == [Bucket(lang, toks)];
      [Bucket(lang, toks)]
    else if bs[0].lang == lang then
      ExtendFirst(bs, lang, toks);
      [Bucket(lang, bs[0].tokens + toks)] + bs[1..]
    else
      var rest := AddTokens(bs[1..], lang, toks);
      ExtendBehind(bs, lang, toks, rest);
      [bs[0]] + rest
  }

  /** Extending the language the first bucket holds. */
  lemma ExtendFirst(bs: seq<Bucket>, lang: Json, toks: seq<string>)
    requires UniqueLangs(bs) && bs != [] && bs[0].lang == lang
    ensures var r := [Bucket(lang, bs[0].tokens + toks)] + bs[1..];
      && UniqueLangs(r)
      && Langs(r) == Langs(bs) + {lang}
      && forall l :: TokensFor(r, l) == TokensFor(bs, l) + (if l == lang then toks else [])
  {
    var r := [Bucket(lang, bs[0].tokens + toks)] + bs[1..];
    assert r[1..] == bs[1..];
    assert forall l :: l != lang ==> TokensFor(bs, l) == TokensFor(bs[1..], l);
    assert bs == [bs[0]] + bs[1..];
    LangsCons(bs[0], bs[1..]);
    LangsCons(Bucket(lang, bs[0].tokens + toks), bs[1..]);
  }

  /** Extending a language held behind the first bucket, given the
      extended rest. */
  lemma ExtendBehind(bs: seq<Bucket>, lang: Json, toks: seq<string>, rest: seq<Bucket>)
    requires UniqueLangs(bs) && bs != [] && bs[0].lang != lang
    requires UniqueLangs(rest) && Langs(rest) == Langs(bs[1..]) + {lang}
    requires forall l :: TokensFor(rest, l) == TokensFor(bs[1..], l) + (if l == lang then toks else [])
    ensures var r := [bs[0]] + rest;
      && UniqueLangs(r)
      && Langs(r) == Langs(bs) + {lang}
      && forall l :: TokensFor(r, l) == TokensFor(bs, l) + (if l == lang then toks else [])
  {
    var r := [bs[0]] + rest;
    assert bs == [bs[0]] + bs[1..];
    LangsCons(bs[0], bs[1..]);
    LangsCons(bs[0], rest);
    assert r[1..] == rest;
    forall i | 0 <= i < |bs[1..]| ensures bs[1..][i].lang != bs[0].lang {
      assert bs[1..][i] == bs[i + 1];
    }
    assert bs[0].lang !in Langs(bs[1..]);
    forall i, j | 0 <= i < j < |r| ensures r[i].lang != r[j].lang {
      if i == 0 {
        assert r[j] == rest[j - 1];
        assert r[j].lang in Langs(rest);
      }
    }
  }

  /** `_extract_tokens_from_artifacts`: for every language with a
      contributing artifact, exactly the tokens of that language's
      artifacts in corpus order, and no other language. Fails when a
      contributing artifact's language cannot be a dictionary key. */
  function ExtractTokens(arts: seq<Record>): (r: Result<seq<Bucket>>)
    ensures r.Ok? <==> forall i :: 0 <= i < |arts| && Contributes(arts[i]) ==> Hashable(LanguageOf(arts[i]))
    ensures r.Ok? ==> UniqueLangs(r.value)
    ensures r.Ok? ==> Langs(r.value) == ContributingLanguages(arts)
    ensures r.Ok? ==> forall l :: TokensFor(r.value, l) == LanguageTokens(arts, l)
  {
    if arts == [] then Ok([])
    else
      var init := arts[..|arts| - 1];
      var a := arts[|arts| - 1];
      assert forall i :: 0 <= i < |init| ==> init[i] == arts[i];
      var prev :- ExtractTokens(init);
      assert ContributingLanguages(arts)
          == ContributingLanguages(init) + (if Contributes(a) then {LanguageOf(a)} else {});
      if IsSentence(a) then Ok(prev)
      else
        var lang := LanguageOf(a);
        var text := Get(a, "text", JStr(""));
        if !text.JStr? then Ok(prev)
        else if !Hashable(lang) then Fail(Unhashable("language"))
        else Ok(AddTokens(prev, lang, Tokenize(text.s)))
  }

  /** A corpus of sentences alone yields no languages and no tokens. */
  lemma SentencesGiveNoTokens(arts: seq<Record>)
    requires forall i :: 0 <= i < |arts| ==> IsSentence(arts[i])
    ensures ExtractTokens(arts) == Ok([])
  {
    var r := ExtractTokens(arts);
    assert ContributingLanguages(arts) == {};
    assert Langs(r.value) == {};
  }

  /** Every token is a non-empty lowercase run of token characters. */
  lemma TokensAreWords(text: string)
    ensures forall t :: t in Tokenize(text) ==>
      t != [] && forall j :: 0 <= j < |t| ==> TokenChar(t[j]) && !('A' <= t[j] <= 'Z')
  {
    var runs := Runs(text, TokenChar);
    forall t | t in Tokenize(text)
      ensures t != [] && forall j :: 0 <= j < |t| ==> TokenChar(t[j]) && !('A' <= t[j] <= 'Z')
    {
      var i :| 0 <= i < |runs| && Tokenize(text)[i] == t;
      assert AllIn(runs[i], TokenChar);
      forall j | 0 <= j < |t| ensures TokenChar(t[j]) && !('A' <= t[j] <= 'Z') {
        assert TokenChar(runs[i][j]);
      }
    }
  }

  // ---------------------------------------------------------------------
  // Counter(toks).most_common(10)

  function Count(toks: seq<string>, w: string): nat {
    multiset(toks)[w]
  }

  predicate NoDuplicates<T(==)>(xs: seq<T>) {
    forall i, j :: 0 <= i < j < |xs| ==> xs[i] != xs[j]
  }

  /** The distinct tokens in order of first occurrence (a `Counter`'s key
      order). */
  function Distinct(toks: seq<string>): (r: seq<string>)
    ensures NoDuplicates(r)
    ensures forall w :: w in r <==> w in toks
  {
    if toks == [] then []
    else
      var init := toks[..|toks| - 1];
      var w := toks[|toks| - 1];
      var d := Distinct(init);
      assert toks == init + [w];
      if w in d then d else d + [w]
  }

  lemma {:induction false} NoDuplicatesCount<T>(xs: seq<T>, x: T)
    requires NoDuplicates(xs)
    ensures multiset(xs)[x] <= 1
    decreases |xs|
  {
    if xs != [] {
      assert xs == [xs[0]] + xs[1..];
      NoDuplicatesCount(xs[1..], x);
      if x == xs[0] {
        assert x !in xs[1..];
      }
    }
  }

  /** A permutation of a duplicate-free sequence is duplicate-free. */
  lemma PermutationKeepsNoDuplicates<T>(xs: seq<T>, ys: seq<T>)
    requires NoDuplicates(xs) && multiset(xs) == multiset(ys)
    ensures NoDuplicates(ys)
  {
    forall i, j | 0 <= i < j < |ys| ensures ys[i] != ys[j] {
      NoDuplicatesCount(xs, ys[i]);
      RepeatCounted(ys, i, j);
    }
  }

  lemma RepeatCounted<T>(ys: seq<T>, i: nat, j: nat)
    requires i < j < |ys|
    ensures ys[i] == ys[j] ==> multiset(ys)[ys[i]] >= 2
  {
    if ys[i] == ys[j] {
      assert ys == ys[..i] + [ys[i]] + ys[i + 1..j] + [ys[j]] + ys[j + 1..];
    }
  }

  /** The order `most_common` ranks by: higher count first. */
  function ByCount(toks: seq<string>): (string, string) -> bool {
    (a: string, b: string) => Count(toks, a) >= Count(toks, b)
  }

  lemma ByCountIsPreorder(toks: seq<string>)
    ensures TotalPreorder(ByCount(toks))
  {
  }

  /** `Counter(toks).most_common(n)`: at most `n` distinct tokens of
      `toks`, by non-increasing count, and no token left out is more
      frequent than one kept; with at most `n` distinct tokens, all of
      them. Ties keep first-occurrence order (a stable sort). */
  function MostCommon(toks: seq<string>, n: nat): (r: seq<string>)
    ensures |r| <= n
    ensures NoDuplicates(r)
    ensures forall i :: 0 <= i < |r| ==> r[i] in toks
    ensures forall i, j :: 0 <= i < j < |r| ==> Count(toks, r[i]) >= Count(toks, r[j])
    ensures forall w, i :: w in toks && w !in r && 0 <= i < |r| ==> Count(toks, w) <= Count(toks, r[i])
    ensures |Distinct(toks)| <= n ==> forall w :: w in toks ==> w in r
  {
    var d := Distinct(toks);
    ByCountIsPreorder(toks);
    var sorted := SortBy(d, ByCount(toks));
    PermutationKeepsNoDuplicates(d, sorted);
    var m := if n < |sorted| then n else |sorted|;
    RankedPrefix(toks, d, sorted, m);
    assert m == |sorted| ==> sorted[..m] == sorted;
    sorted[..m]
  }

  /** The first `m` of the distinct tokens ranked by count are the `m`
      most frequent ones. */
  lemma RankedPrefix(toks: seq<string>, d: seq<string>, sorted: seq<string>, m: nat)
    requires forall w :: w in d <==> w in toks
    requires multiset(sorted) == multiset(d)
    requires SortedBy(sorted, ByCount(toks))
    requires m <= |sorted|
    ensures forall w :: w in sorted <==> w in toks
    ensures forall i :: 0 <= i < m ==> sorted[i] in toks
    ensures forall i, j :: 0 <= i < j < m ==> Count(toks, sorted[i]) >= Count(toks, sorted[j])
    ensures forall w, i :: w in toks && w !in sorted[..m] && 0 <= i < m ==> Count(toks, w) <= Count(toks, sorted[i])
  {
    forall w ensures w in sorted <==> w in toks {
      assert w in sorted <==> w in multiset(sorted);
      assert w in d <==> w in multiset(d);
    }
    forall w, i | w in toks && w !in sorted[..m] && 0 <= i < m ensures Count(toks, w) <= Count(toks, sorted[i]) {
      var k :| 0 <= k < |sorted| && sorted[k] == w;
      assert ByCount(toks)(sorted[i], sorted[k]);
    }
    forall i, j | 0 <= i < j < m ensures Count(toks, sorted[i]) >= Count(toks, sorted[j]) {
      assert ByCount(toks)(sorted[i], sorted[j]);
    }
  }

  /** The statistics kept for one language: its token count and its
      most frequent tokens. */
  datatype LangSummary = LangSummary(lang: Json, tokenCount: nat, topTokens: seq<string>)

  /** One language's summary: all its tokens counted, and at most ten of
      them, most frequent first. */
  function Summarize(b: Bucket): (s: LangSummary)
    ensures s.lang == b.lang && s.tokenCount == |b.tokens|
    ensures |s.topTokens| <= 10 && forall j :: 0 <= j < |s.topTokens| ==> s.topTokens[j] in b.tokens
    ensures forall j, k :: 0 <= j < k < |s.topTokens| ==>
      Count(b.tokens, s.topTokens[j]) >= Count(b.tokens, s.topTokens[k])
  {
    LangSummary(b.lang, |b.tokens|, MostCommon(b.tokens, 10))
  }

  function Summaries(bs: seq<Bucket>): (r: seq<LangSummary>)
    ensures |r| == |bs| && forall i :: 0 <= i < |bs| ==> r[i] == Summarize(bs[i])
  {
    seq(|bs|, i requires 0 <= i < |bs| => Summarize(bs[i]))
  }

  lemma {:induction false} TokensForMember(bs: seq<Bucket>, i: nat)
    requires UniqueLangs(bs) && i < |bs|
    ensures TokensFor(bs, bs[i].lang) == bs[i].tokens
    decreases i
  {
    if i > 0 {
      TokensForMember(bs[1..], i - 1);
    }
  }

  /** The statistics of every language: `token_count` is the number of
      tokens its artifacts give, and `top_tokens` holds at most ten of
      those tokens, most frequent first. */
  lemma SummariesFaithful(arts: seq<Record>)
    requires ExtractTokens(arts).Ok?
    ensures var bs := ExtractTokens(arts).value;
      forall i :: 0 <= i < |bs| ==>
        var s := Summaries(bs)[i];
        var toks := LanguageTokens(arts, s.lang);
        && s.lang in ContributingLanguages(arts)
        && s.tokenCount == |toks|
        && |s.topTokens| <= 10
        && (forall j :: 0 <= j < |s.topTokens| ==> s.topTokens[j] in toks)
        && (forall j, k :: 0 <= j < k < |s.topTokens| ==> Count(toks, s.topTokens[j]) >= Count(toks, s.topTokens[k]))
  {
    var bs := ExtractTokens(arts).value;
    forall i | 0 <= i < |bs| ensures bs[i].tokens == LanguageTokens(arts, bs[i].lang) && bs[i].lang in Langs(bs) {
      TokensForMember(bs, i);
    }
  }

  // ---------------------------------------------------------------------
  // generate_artifact_glosses: candidate selection and reply parsing

  const GlossWindow: nat := 20
  const MaxToGloss: int := 8

  /** An artifact already glossed with a confidence other than `"low"`. */
  predicate SettledGloss(a: Record) {
    && MetadataOf(a).JObj?
    && var md := MetadataOf(a).fields;
       && "gloss" in md && md["gloss"].JStr? && Strip(md["gloss"].s) != []
       && Get(md, "confidence", JStr("none")) != JStr("low")
  }

  /** Whether the candidate rule picks a non-sentence artifact: exactly
      when its gloss is not settled. Fails where Python would raise:
      metadata that is not an object, or a truthy gloss that is not a
      string. */
  function NeedsGloss(a: Record): (r: Result<bool>)
    ensures r.Ok? <==> (MetadataOf(a).JObj?
                        && var g := Get(MetadataOf(a).fields, "gloss", JNull); !Truthy(g) || g.JStr?)
    ensures r.Ok? ==> (r.value <==> !SettledGloss(a))
  {
    var md := MetadataOf(a);
    if !md.JObj? then Fail(WrongType("metadata"))
    else
      var gloss := Get(md.fields, "gloss", JNull);
      if Truthy(gloss) && !gloss.JStr? then Fail(WrongType("gloss"))
      else
        var hasGloss := Truthy(gloss) && Strip(gloss.s) != [];
        Ok(!hasGloss || Get(md.fields, "confidence", JStr("none")) == JStr("low"))
  }

  /** The candidate test applied to every artifact of the window. */
  function CandidateTest(a: Record): Result<bool> {
    if IsSentence(a) then Ok(false) else NeedsGloss(a)
  }

  /** The gloss candidates: taken from the last 20 artifacts only, in
      corpus order, and exactly the non-sentence artifacts of that window
      whose gloss is not settled, each as often as the window holds it. */
  function GlossCandidates(arts: seq<Record>): (r: Result<seq<Record>>)
    ensures var window := arts[|arts| - (if |arts| < GlossWindow then |arts| else GlossWindow)..];
      && (r.Ok? <==> forall i :: 0 <= i < |window| && !IsSentence(window[i]) ==> NeedsGloss(window[i]).Ok?)
      && (r.Ok? ==> forall a :: a in r.value <==> a in window && !IsSentence(a) && !SettledGloss(a))
    ensures var window := arts[|arts| - (if |arts| < GlossWindow then |arts| else GlossWindow)..];
      r.Ok? ==>
        && IsSubsequence(r.value, window)
        && forall a :: multiset(r.value)[a] == (if !IsSentence(a) && !SettledGloss(a) then multiset(window)[a] else 0)
  {
    var window := From(arts, -(GlossWindow as int));
    assert window == arts[|arts| - (if |arts| < GlossWindow then |arts| else GlossWindow)..];
    CandidateFilterMembers(window);
    CandidateFilterOrder(window);
    FilterOk(window, CandidateTest)
  }

  /** The candidate filter over a window fails exactly on an unreadable
      non-sentence artifact and keeps exactly the unsettled ones. */
  lemma CandidateFilterMembers(window: seq<Record>)
    ensures var r := FilterOk(window, CandidateTest);
      && (r.Ok? <==> forall i :: 0 <= i < |window| && !IsSentence(window[i]) ==> NeedsGloss(window[i]).Ok?)
      && (r.Ok? ==> forall a :: a in r.value <==> a in window && !IsSentence(a) && !SettledGloss(a))
  {
    var r := FilterOk(window, CandidateTest);
    assert forall i :: 0 <= i < |window| ==> (CandidateTest(window[i]).Ok? <==> (IsSentence(window[i]) || NeedsGloss(window[i]).Ok?));
    FilterOkMembers(window, CandidateTest);
    if r.Ok? {
      forall a | a in window ensures CandidateTest(a) == Ok(true) <==> !IsSentence(a) && !SettledGloss(a) {
        var i :| 0 <= i < |window| && window[i] == a;
      }
    }
  }

  /** The candidate filter keeps the window's order and every occurrence
      of an unsettled non-sentence artifact, and nothing else. */
  lemma CandidateFilterOrder(window: seq<Record>)
    ensures var r := FilterOk(window, CandidateTest);
      r.Ok? ==>
        && IsSubsequence(r.value, window)
        && forall a :: multiset(r.value)[a] == (if !IsSentence(a) && !SettledGloss(a) then multiset(window)[a] else 0)
  {
    var r := FilterOk(window, CandidateTest);
    if r.Ok? {
      FilterOkOrder(window, CandidateTest);
      forall a ensures multiset(r.value)[a] == (if !IsSentence(a) && !SettledGloss(a) then multiset(window)[a] else 0) {
        if a !in window {
          assert multiset(window)[a] == 0;
        } else {
          var i :| 0 <= i < |window| && window[i] == a;
          assert CandidateTest(window[i]).Ok?;
        }
      }
    }
  }

  /** What the gloss step did: whether it asked the model, which artifacts
      it put in the prompt, and the proposals it accepted. */
  datatype Glossing = Glossing(asked: bool, batch: seq<Record>, proposals: seq<Json>)

  /** "parse or return empty": a reply that decodes to a list is returned
      as it is; anything else gives no proposals. */
  function ParseGlossReply(reply: Option<Json>): (r: seq<Json>)
    ensures reply.Some? && reply.value.JArr? ==> r == reply.value.items
    ensures !(reply.Some? && reply.value.JArr?) ==> r == []
  {
    if reply.Some? then ListItems(reply.value) else []
  }

  /** Every artifact of the batch has an `id` for the prompt. */
  predicate AllHaveIds(batch: seq<Record>) {
    forall i :: 0 <= i < |batch| ==> "id" in batch[i]
  }

  /** `generate_artifact_glosses`: with no candidates the model is not
      asked and nothing is proposed; otherwise the batch is
      `candidates[-max_to_gloss:]` and the proposals are the parsed
      reply. Fails when a batch artifact has no `id`. */
  function GenerateArtifactGlosses(arts: seq<Record>, maxToGloss: int, reply: Option<Json>): (r: Result<Glossing>)
    ensures GlossCandidates(arts).Fail? ==> r.Fail?
    ensures r.Ok? ==> GlossCandidates(arts).Ok?
    ensures r.Ok? ==> (r.value.asked <==> GlossCandidates(arts).value != [])
    ensures r.Ok? && !r.value.asked ==> r.value.batch == [] && r.value.proposals == []
    ensures r.Ok? && r.value.asked ==>
      && r.value.batch == From(GlossCandidates(arts).value, -maxToGloss)
      && r.value.proposals == ParseGlossReply(reply)
    ensures GlossCandidates(arts).Ok? && GlossCandidates(arts).value != [] ==>
      (r.Ok? <==> AllHaveIds(From(GlossCandidates(arts).value, -maxToGloss)))
  {
    var candidates :- GlossCandidates(arts);
    if candidates == [] then Ok(Glossing(false, [], []))
    else
      var batch := From(candidates, -maxToGloss);
      if !AllHaveIds(batch) then Fail(MissingKey("id"))
      else Ok(Glossing(true, batch, ParseGlossReply(reply)))
  }

  /** `candidates[-max_to_gloss:]` keeps the last `max_to_gloss`
      candidates when that is positive, but all of them when it is 0
      (`[-0:]` is `[0:]`). */
  lemma GlossBatchSize(candidates: seq<Record>, maxToGloss: int)
    ensures maxToGloss >= 1 ==>
      var b := From(candidates, -maxToGloss);
      && |b| == (if maxToGloss < |candidates| then maxToGloss else |candidates|)
      && b == candidates[|candidates| - |b|..]
    ensures maxToGloss == 0 ==> From(candidates, -maxToGloss) == candidates
  {
  }

  // ---------------------------------------------------------------------
  // generate_research_questions: review filter

  /** A question whose confidence is a string other than empty, low or
      medium (in any letter case) and whose answer is a non-blank string. */
  predicate ConfidentlyAnswered(q: Record) {
    && "confidence" in q && q["confidence"].JStr?
    && Lower(q["confidence"].s) !in {"", "low", "medium"}
    && "proposed_answer" in q && q["proposed_answer"].JStr? && Strip(q["proposed_answer"].s) != []
  }

  /** Whether a stored question goes to the model for review: exactly when
      it is not confidently answered. Fails where Python would raise: a
      confidence that is not a string, or a truthy answer that is not a
      string. */
  function NeedsReview(q: Record): (r: Result<bool>)
    ensures r.Ok? <==> (Get(q, "confidence", JStr("")).JStr?
                        && var ans := Get(q, "proposed_answer", JNull); !Truthy(ans) || ans.JStr?)
    ensures r.Ok? ==> (r.value <==> !ConfidentlyAnswered(q))
  {
    var c := Get(q, "confidence", JStr(""));
    if !c.JStr? then Fail(WrongType("confidence"))
    else
      var ans := Get(q, "proposed_answer", JNull);
      if Truthy(ans) && !ans.JStr? then Fail(WrongType("proposed_answer"))
      else
        var conf := Lower(c.s);
        var hasAnswer := Truthy(ans) && Strip(ans.s) != [];
        Ok(conf == [] || conf == "low" || conf == "medium" || !hasAnswer)
  }

  /** The questions put to the model for review: in stored order, exactly
      those not confidently answered. */
  function ReviewFilter(qs: seq<Record>): (r: Result<seq<Record>>)
    ensures r.Ok? <==> forall i :: 0 <= i < |qs| ==> NeedsReview(qs[i]).Ok?
    ensures r.Ok? ==> |r.value| <= |qs|
    ensures r.Ok? ==> forall q :: q in r.value <==> q in qs && !ConfidentlyAnswered(q)
  {
    var r := FilterOk(qs, NeedsReview);
    FilterOkMembers(qs, NeedsReview);
    r
  }

  // ---------------------------------------------------------------------
  // generate_research_questions: answer matching

  /** The index of the first question whose id equals `qid`. */
  function FirstWithId(qs: seq<Record>, qid: Json): (r: Option<nat>)
    ensures r.Some? ==> r.value < |qs| && IdOf(qs[r.value]) == qid
                        && forall j :: 0 <= j < r.value ==> IdOf(qs[j]) != qid
    ensures r.None? ==> forall j :: 0 <= j < |qs| ==> IdOf(qs[j]) != qid
  {
    if qs == [] then None
    else if IdOf(qs[0]) == qid then Some(0)
    else match FirstWithId(qs[1..], qid)
      case None => None
      case Some(i) => Some(i + 1)
  }

  lemma FirstWithIdSameIds(qs: seq<Record>, qs': seq<Record>, qid: Json)
    requires |qs| == |qs'| && forall i :: 0 <= i < |qs| ==> IdOf(qs[i]) == IdOf(qs'[i])
    ensures FirstWithId(qs, qid) == FirstWithId(qs', qid)
  {
    var a := FirstWithId(qs, qid);
    var b := FirstWithId(qs', qid);
    if a.Some? && b.Some? {
      assert !(a.value < b.value) && !(b.value < a.value);
    }
  }

  /** The question an answer is applied to: the first stored question
      whose id equals the answer's `question_id`. */
  function HitOf(qs: seq<Record>, ans: Json): Option<nat> {
    if ans.JObj? then FirstWithId(qs, Get(ans.fields, "question_id", JNull)) else None
  }

  /** Two versions of a question that differ at most in the fields an
      answer sets. */
  ghost predicate SameButAnswer(q: Record, q': Record) {
    forall k :: k != "proposed_answer" && k != "confidence" ==>
      (k in q <==> k in q') && (k in q ==> q[k] == q'[k])
  }

  /** An answer applied to a question: `proposed_answer` defaults to `""`
      and `confidence` to `"low"`; nothing else changes. */
  function Answered(q: Record, ans: Record): (r: Record)
    ensures "proposed_answer" in r && r["proposed_answer"] == Get(ans, "proposed_answer", JStr(""))
    ensures "confidence" in r && r["confidence"] == Get(ans, "confidence", JStr("low"))
    ensures SameButAnswer(r, q)
  {
    q["proposed_answer" := Get(ans, "proposed_answer", JStr(""))]["confidence" := Get(ans, "confidence", JStr("low"))]
  }

  /** An answer overwrites everything an earlier answer set. */
  lemma AnsweredForgets(q: Record, q': Record, ans: Record)
    requires SameButAnswer(q, q')
    ensures Answered(q, ans) == Answered(q', ans)
  {
    var a, b := Answered(q, ans), Answered(q', ans);
    assert forall k :: k in a <==> k in b;
    assert forall k :: k in a ==> a[k] == b[k];
  }

  /** Reference: the stored question each answer hits, in answer order;
      answers that hit nothing are skipped. */
  function Hits(qs: seq<Record>, answers: seq<Json>): (r: seq<nat>)
    ensures forall k :: 0 <= k < |r| ==> r[k] < |qs|
  {
    if answers == [] then []
    else
      var h := HitOf(qs, answers[|answers| - 1]);
      Hits(qs, answers[..|answers| - 1]) + (if h.Some? then [h.value] else [])
  }

  /** The stored questions after matching, and which question each
      matched answer hit. */
  datatype Matching = Matching(questions: seq<Record>, hits: seq<nat>)

  /** The answer loop of `generate_research_questions`. Each answer that
      is an object updates the first question (among all stored ones,
      reviewed or not) with an equal id; unmatched answers are dropped.
      Fails when an answer is not an object. */
  function MatchAnswers(existing: seq<Record>, answers: seq<Json>): (r: Result<Matching>)
    ensures r.Ok? <==> forall k :: 0 <= k < |answers| ==> answers[k].JObj?
    ensures r.Ok? ==> |r.value.questions| == |existing|
    ensures r.Ok? ==> r.value.hits == Hits(existing, answers)
    ensures r.Ok? ==> forall i :: 0 <= i < |existing| ==> SameButAnswer(r.value.questions[i], existing[i])
  {
    if answers == [] then Ok(Matching(existing, []))
    else
      var init := answers[..|answers| - 1];
      var ans := answers[|answers| - 1];
      assert forall k :: 0 <= k < |init| ==> init[k] == answers[k];
      match MatchAnswers(existing, init)
      case Fail(e) => Fail(e)
      case Ok(m) =>
        if !ans.JObj? then Fail(WrongType("answer"))
        else
          var qid := Get(ans.fields, "question_id", JNull);
          FirstWithIdSameIds(existing, m.questions, qid);
          match FirstWithId(m.questions, qid)
          case None => Ok(m)
          case Some(i) =>
            AnswerKeepsOthers(existing, m.questions, i, ans.fields);
            Ok(Matching(m.questions[i := Answered(m.questions[i], ans.fields)], m.hits + [i]))
  }

  /** Answering question `i` keeps every question, `i` included, the same
      as stored apart from the answer fields. */
  lemma AnswerKeepsOthers(existing: seq<Record>, qs: seq<Record>, i: nat, ans: Record)
    requires |qs| == |existing| && i < |qs|
    requires forall j :: 0 <= j < |qs| ==> SameButAnswer(qs[j], existing[j])
    ensures var qs' := qs[i := Answered(qs[i], ans)];
      forall j :: 0 <= j < |qs'| ==> SameButAnswer(qs'[j], existing[j])
  {
    var qs' := qs[i := Answered(qs[i], ans)];
    forall j | 0 <= j < |qs'| ensures SameButAnswer(qs'[j], existing[j]) {
      if j == i {
        assert SameButAnswer(qs'[i], qs[i]);
      }
    }
  }

  /** A question no answer hits keeps its stored value. */
  lemma {:induction false} MatchUntouched(existing: seq<Record>, answers: seq<Json>, i: nat)
    requires MatchAnswers(existing, answers).Ok?
    requires i < |existing| && i !in Hits(existing, answers)
    ensures MatchAnswers(existing, answers).value.questions[i] == existing[i]
    decreases |answers|
  {
    if answers != [] {
      var init := answers[..|answers| - 1];
      assert forall k :: 0 <= k < |init| ==> init[k] == answers[k];
      MatchUntouched(existing, init, i);
    }
  }

  /** A question takes the values of the last answer that hits it. */
  lemma {:induction false} MatchLastWins(existing: seq<Record>, answers: seq<Json>, i: nat, k: nat)
    requires MatchAnswers(existing, answers).Ok?
    requires k < |answers| && HitOf(existing, answers[k]) == Some(i)
    requires forall k' :: k < k' < |answers| ==> HitOf(existing, answers[k']) != Some(i)
    ensures i < |existing|
    ensures MatchAnswers(existing, answers).value.questions[i] == Answered(existing[i], answers[k].fields)
    decreases |answers|
  {
    var init := answers[..|answers| - 1];
    var ans := answers[|answers| - 1];
    assert forall j :: 0 <= j < |init| ==> init[j] == answers[j];
    var m := MatchAnswers(existing, init).value;
    var qid := Get(ans.fields, "question_id", JNull);
    FirstWithIdSameIds(existing, m.questions, qid);
    if k == |answers| - 1 {
      AnsweredForgets(m.questions[i], existing[i], ans.fields);
    } else {
      MatchLastWins(existing, init, i, k);
    }
  }

  /** The `updated_questions` list: one entry per matched answer, in
      answer order. Python appends the question object itself, so every
      entry shows its question as it stands after all answers. */
  function UpdatedQuestions(m: Matching): seq<Record>
    requires forall k :: 0 <= k < |m.hits| ==> m.hits[k] < |m.questions|
  {
    seq(|m.hits|, k requires 0 <= k < |m.hits| => m.questions[m.hits[k]])
  }

  /** What `for ans in answers` does with the value the reply holds under
      `"answers"`: a list yields its items; an empty dict or string yields
      nothing; a non-empty dict or string yields keys or characters, whose
      `.get` raises; any other value is not iterable. */
  function AnswerItems(j: Json): (r: Result<seq<Json>>)
    ensures j.JArr? ==> r == Ok(j.items)
    ensures r.Ok? && !j.JArr? ==> r.value == []
    ensures r.Fail? <==> (j.JObj? && j.fields != map[]) || (j.JStr? && j.s != []) || !(j.JArr? || j.JObj? || j.JStr?)
  {
    match j
    case JArr(xs) => Ok(xs)
    case JObj(m) => if m == map[] then Ok([]) else Fail(WrongType("answer"))
    case JStr(s) => if s == [] then Ok([]) else Fail(WrongType("answer"))
    case _ => Fail(WrongType("answers"))
  }

  /** What the question step returns: the questions it put up for review,
      the new questions, the updated questions, and the stored questions as
      the answer loop left them. */
  datatype Questioning = Questioning(reviewed: seq<Record>, newQuestions: seq<Json>,
                                     updated: seq<Record>, questions: seq<Record>)

  /** Parsing the question reply: a reply that is not JSON or not an
      object gives no new and no updated questions; `new_questions` that is
      not a list gives no new questions; new questions are returned exactly
      as the model gave them; the updated questions are the hit questions
      in answer order, each as it stands after all answers. */
  function ParseQuestionReply(existing: seq<Record>, reviewed: seq<Record>, reply: Option<Json>): (r: Result<Questioning>)
    ensures !(reply.Some? && reply.value.JObj?) ==> r == Ok(Questioning(reviewed, [], [], existing))
    ensures r.Ok? ==> r.value.reviewed == reviewed
    ensures r.Ok? && reply.Some? && reply.value.JObj? ==>
      && r.value.newQuestions == ListItems(Get(reply.value.fields, "new_questions", JArr([])))
      && AnswerItems(Get(reply.value.fields, "answers", JArr([]))).Ok?
      && var items := AnswerItems(Get(reply.value.fields, "answers", JArr([]))).value;
         && MatchAnswers(existing, items).Ok?
         && var m := MatchAnswers(existing, items).value;
            && r.value.questions == m.questions
            && |r.value.updated| == |Hits(existing, items)|
            && forall k :: 0 <= k < |r.value.updated| ==>
                 r.value.updated[k] == m.questions[Hits(existing, items)[k]]
  {
    if reply.None? || !reply.value.JObj? then Ok(Questioning(reviewed, [], [], existing))
    else
      var fields := reply.value.fields;
      var newQuestions := Get(fields, "new_questions", JArr([]));
      var items :- AnswerItems(Get(fields, "answers", JArr([])));
      var m :- MatchAnswers(existing, items);
      Ok(Questioning(reviewed, ListItems(newQuestions), UpdatedQuestions(m), m.questions))
  }

  /** `generate_research_questions`: the review filter, then the reply. */
  function GenerateResearchQuestions(existing: seq<Record>, reply: Option<Json>): (r: Result<Questioning>)
    ensures ReviewFilter(existing).Fail? ==> r.Fail?
    ensures r.Ok? ==> r == ParseQuestionReply(existing, ReviewFilter(existing).value, reply)
  {
    var reviewed :- ReviewFilter(existing);
    ParseQuestionReply(existing, reviewed, reply)
  }

  // ---------------------------------------------------------------------
  // analyze_corpus: the research note

  predicate IsNumber(j: Json) {
    j.JInt? || j.JBool?
  }

  function NumberValue(j: Json): int {
    if j.JInt? then j.n else if j.JBool? && j.b then 1 else 0
  }

  function StringKey(j: Json): string {
    if j.JStr? then j.s else []
  }

  /** A list Python's `sorted` can return: all strings in code-point order,
      or all numbers in numeric order. */
  predicate SortedSeen(ls: seq<Json>) {
    || (forall i, j :: 0 <= i < j < |ls| ==> ls[i].JStr? && ls[j].JStr? && LexLe(ls[i].s, ls[j].s))
    || (forall i, j :: 0 <= i < j < |ls| ==> IsNumber(ls[i]) && IsNumber(ls[j]) && NumberValue(ls[i]) <= NumberValue(ls[j]))
  }

  /** Python's `<=` on string keys. */
  function StringOrder(): (Json, Json) -> bool {
    (a: Json, b: Json) => LexLe(StringKey(a), StringKey(b))
  }

  /** Python's `<=` on numeric keys. */
  function NumberOrder(): (Json, Json) -> bool {
    (a: Json, b: Json) => NumberValue(a) <= NumberValue(b)
  }

  lemma StringOrderIsPreorder()
    ensures TotalPreorder(StringOrder())
  {
    forall a: Json, b: Json ensures StringOrder()(a, b) || StringOrder()(b, a) {
      LexLeTotal(StringKey(a), StringKey(b));
    }
    forall a: Json, b: Json, c: Json | StringOrder()(a, b) && StringOrder()(b, c)
      ensures StringOrder()(a, c)
    {
      LexLeTransitive(StringKey(a), StringKey(b), StringKey(c));
    }
  }

  /** `sorted(keys)`: a single key needs no comparison; strings sort by
      code point and numbers by value; any other mix of two or more keys
      makes Python raise. */
  function SortedLanguages(langs: seq<Json>): (r: Result<seq<Json>>)
    ensures r.Ok? <==> |langs| <= 1 || (forall i :: 0 <= i < |langs| ==> langs[i].JStr?)
                                   || (forall i :: 0 <= i < |langs| ==> IsNumber(langs[i]))
    ensures r.Ok? ==> multiset(r.value) == multiset(langs)
    ensures r.Ok? && (forall i :: 0 <= i < |langs| ==> langs[i].JStr?) ==>
      forall i, j :: 0 <= i < j < |r.value| ==> LexLe(StringKey(r.value[i]), StringKey(r.value[j]))
    ensures r.Ok? && |langs| > 1 && (forall i :: 0 <= i < |langs| ==> IsNumber(langs[i])) ==>
      forall i, j :: 0 <= i < j < |r.value| ==> NumberValue(r.value[i]) <= NumberValue(r.value[j])
    ensures r.Ok? ==> SortedSeen(r.value)
  {
    if |langs| <= 1 then Ok(langs)
    else if forall i :: 0 <= i < |langs| ==> langs[i].JStr? then
      StringSortFacts(langs);
      Ok(SortBy(langs, StringOrder()))
    else if forall i :: 0 <= i < |langs| ==> IsNumber(langs[i]) then
      NumberSortFacts(langs);
      Ok(SortBy(langs, NumberOrder()))
    else
      Fail(WrongType("sorted"))
  }

  /** Sorting string keys gives strings in code-point order. */
  lemma StringSortFacts(langs: seq<Json>)
    requires forall i :: 0 <= i < |langs| ==> langs[i].JStr?
    ensures |langs| > 0 ==> !IsNumber(langs[0])
    ensures TotalPreorder(StringOrder())
    ensures var sorted := SortBy(langs, StringOrder());
      && multiset(sorted) == multiset(langs)
      && (forall i :: 0 <= i < |sorted| ==> sorted[i].JStr?)
      && (forall i, j :: 0 <= i < j < |sorted| ==> LexLe(StringKey(sorted[i]), StringKey(sorted[j])))
      && SortedSeen(sorted)
  {
    StringOrderIsPreorder();
    var sorted := SortBy(langs, StringOrder());
    forall i, j | 0 <= i < j < |sorted| ensures LexLe(StringKey(sorted[i]), StringKey(sorted[j])) {
      assert StringOrder()(sorted[i], sorted[j]);
    }
    forall i | 0 <= i < |sorted| ensures sorted[i].JStr? {
      assert sorted[i] in multiset(langs);
    }
  }

  /** Sorting numeric keys gives numbers in ascending order. */
  lemma NumberSortFacts(langs: seq<Json>)
    requires forall i :: 0 <= i < |langs| ==> IsNumber(langs[i])
    ensures |langs| > 0 ==> !langs[0].JStr?
    ensures TotalPreorder(NumberOrder())
    ensures var sorted := SortBy(langs, NumberOrder());
      && multiset(sorted) == multiset(langs)
      && (forall i :: 0 <= i < |sorted| ==> IsNumber(sorted[i]))
      && (forall i, j :: 0 <= i < j < |sorted| ==> NumberValue(sorted[i]) <= NumberValue(sorted[j]))
      && SortedSeen(sorted)
  {
    var sorted := SortBy(langs, NumberOrder());
    forall i, j | 0 <= i < j < |sorted| ensures NumberValue(sorted[i]) <= NumberValue(sorted[j]) {
      assert NumberOrder()(sorted[i], sorted[j]);
    }
    forall i | 0 <= i < |sorted| ensures IsNumber(sorted[i]) {
      assert sorted[i] in multiset(langs);
    }
  }

  function BucketLangs(bs: seq<Bucket>): (r: seq<Json>)
    ensures |r| == |bs| && forall i :: 0 <= i < |bs| ==> r[i] == bs[i].lang
  {
    seq(|bs|, i requires 0 <= i < |bs| => bs[i].lang)
  }

  /** The `research_note` entry. */
  function ResearchNote(entryId: string, narrative: string, artifactCount: nat, languages: seq<Json>): Record {
    map[
      "id" := JStr(entryId),
      "type" := JStr("research_note"),
      "summary" := JStr(narrative),
      "metadata" := JObj(map["artifact_count" := JInt(artifactCount), "languages_seen" := JArr(languages)])
    ]
  }

  /** `sorted(list(per_lang_tokens.keys()))`: each contributing language
      once, in Python's order. */
  function LanguagesSeen(bs: seq<Bucket>): (r: Result<seq<Json>>)
    requires UniqueLangs(bs)
    ensures r.Ok? ==> |r.value| == |Langs(bs)| && forall l :: l in r.value <==> l in Langs(bs)
    ensures r.Ok? ==> SortedSeen(r.value)
  {
    var langs :- SortedLanguages(BucketLangs(bs));
    LanguagesSeenCount(bs, langs);
    Ok(langs)
  }

  /** Everything `analyze_corpus` returns, with the statistics it builds
      on the way. */
  datatype Analysis = Analysis(note: Record, summaries: seq<LangSummary>,
                               questioning: Questioning, glossing: Glossing)

  /** The note records a corpus size and the languages seen: each
      contributing language exactly once (as many entries as languages),
      sorted. */
  ghost predicate NoteFor(note: Record, entryId: string, narrative: string, arts: seq<Record>) {
    && note.Keys == {"id", "type", "summary", "metadata"}
    && note["id"] == JStr(entryId)
    && note["type"] == JStr("research_note")
    && note["summary"] == JStr(narrative)
    && note["metadata"].JObj?
    && var md := note["metadata"].fields;
       && md.Keys == {"artifact_count", "languages_seen"}
       && md["artifact_count"] == JInt(|arts|)
       && md["languages_seen"].JArr?
       && (forall l :: l in md["languages_seen"].items <==> l in ContributingLanguages(arts))
       && |md["languages_seen"].items| == |ContributingLanguages(arts)|
       && SortedSeen(md["languages_seen"].items)
  }

  lemma NoteRecordsCorpus(entryId: string, narrative: string, arts: seq<Record>, langs: seq<Json>)
    requires forall l :: l in langs <==> l in ContributingLanguages(arts)
    requires |langs| == |ContributingLanguages(arts)|
    requires SortedSeen(langs)
    ensures NoteFor(ResearchNote(entryId, narrative, |arts|, langs), entryId, narrative, arts)
  {
  }

  /** `analyze_corpus`: token statistics, the question step, the gloss
      step, and a research note recording the corpus size and the sorted
      languages seen. `narrative`, `questionReply` and `glossReply` are the
      model's three replies. */
  function AnalyzeCorpus(entryId: string, arts: seq<Record>, existing: seq<Record>, narrative: string,
                         questionReply: Option<Json>, glossReply: Option<Json>): (r: Result<Analysis>)
    ensures ExtractTokens(arts).Fail? || ReviewFilter(existing).Fail? || GlossCandidates(arts).Fail? ==> r.Fail?
    ensures r.Ok? <==>
      && ExtractTokens(arts).Ok?
      && GenerateResearchQuestions(existing, questionReply).Ok?
      && GenerateArtifactGlosses(arts, MaxToGloss, glossReply).Ok?
      && LanguagesSeen(ExtractTokens(arts).value).Ok?
    ensures r.Ok? ==> NoteFor(r.value.note, entryId, narrative, arts)
    ensures r.Ok? ==> GenerateResearchQuestions(existing, questionReply) == Ok(r.value.questioning)
    ensures r.Ok? ==> GenerateArtifactGlosses(arts, MaxToGloss, glossReply) == Ok(r.value.glossing)
  {
    var buckets :- ExtractTokens(arts);
    var questioning :- GenerateResearchQuestions(existing, questionReply);
    var glossing :- GenerateArtifactGlosses(arts, MaxToGloss, glossReply);
    var langs :- LanguagesSeen(buckets);
    NoteRecordsCorpus(entryId, narrative, arts, langs);
    Ok(Analysis(ResearchNote(entryId, narrative, |arts|, langs), Summaries(buckets), questioning, glossing))
  }

  lemma LanguagesSeenCount(bs: seq<Bucket>, langs: seq<Json>)
    requires UniqueLangs(bs)
    requires multiset(langs) == multiset(BucketLangs(bs))
    ensures |langs| == |Langs(bs)|
    ensures forall l :: l in langs <==> l in Langs(bs)
  {
    var keys := BucketLangs(bs);
    forall l ensures l in langs <==> l in Langs(bs) {
      assert l in langs <==> l in multiset(langs);
      assert l in keys <==> l in multiset(keys);
    }
    assert NoDuplicates(keys);
    PermutationKeepsNoDuplicates(keys, langs);
    DistinctCard(langs);
    assert Langs(bs) == set l | l in langs;
  }

  lemma {:induction false} DistinctCard<T>(xs: seq<T>)
    requires NoDuplicates(xs)
    ensures |set x | x in xs| == |xs|
    decreases |xs|
  {
    if xs != [] {
      DistinctCard(xs[1..]);
      assert (set x | x in xs) == {xs[0]} + (set x | x in xs[1..]);
      assert xs[0] !in (set x | x in xs[1..]);
    }
  }
}

=== FILE: results.dfy ===
/** Failure-compatible wrappers shared by every module of the model.
    `Fault` names the Python exceptions the source lets escape; each
    operation that can raise returns a `Result`. */
module Results {

  datatype Option<+T> = None | Some(value: T)

  /** Why an operation of the original program raised. */
  datatype Fault =
    | InvalidJson              // the store text is not JSON (RuntimeError)
    | NotAList                 // the store JSON is not a list (RuntimeError)
    | MissingKey(key: string)  // KeyError on a dict subscript
    | WrongType(site: string)  // TypeError / AttributeError on a value of the wrong kind
    | Unhashable(site: string) // a list or dict used as a dict key

  datatype Result<+T> = Ok(value: T) | Fail(fault: Fault) {

    predicate IsFailure() {
      Fail?
    }

    function PropagateFailure<U>(): Result<U>
      requires Fail?
    {
      Fail(fault)
    }

    function Extract(): T
      requires Ok?
    {
      value
    }
  }

  /** A loop that keeps the elements `keep` accepts and stops at the first
      element on which `keep` raises, with that element's fault. */
  function FilterOk<T>(xs: seq<T>, keep: T -> Result<bool>): (r: Result<seq<T>>)
    ensures r.Ok? <==> forall i :: 0 <= i < |xs| ==> keep(xs[i]).Ok?
    ensures r.Fail? ==> exists i :: 0 <= i < |xs| && keep(xs[i]) == Fail(r.fault)
    ensures r.Ok? ==> |r.value| <= |xs|
  {
    if xs == [] then Ok([])
    else
      match keep(xs[0])
      case Fail(e) => Fail(e)
      case Ok(k) =>
        var rest := FilterOk(xs[1..], keep);
        assert forall i :: 1 <= i < |xs| ==> xs[i] == xs[1..][i - 1];
        if rest.Fail? then rest
        else Ok(if k then [xs[0]] + rest.value else rest.value)
  }

  /** Exactly the accepted elements survive the filter. */
  lemma {:induction false} FilterOkMembers<T>(xs: seq<T>, keep: T -> Result<bool>)
    ensures FilterOk(xs, keep).Ok? ==>
      forall x :: x in FilterOk(xs, keep).value <==> x in xs && keep(x) == Ok(true)
  {
    if xs != [] && FilterOk(xs, keep).Ok? {
      FilterOkMembers(xs[1..], keep);
      assert forall x :: x in xs <==> x == xs[0] || x in xs[1..];
    }
  }

  /** Filtering a concatenation filters each part in turn: the first
      part's fault wins, and otherwise the kept elements of both parts
      follow each other. */
  lemma {:induction false} FilterOkAppend<T>(xs: seq<T>, ys: seq<T>, keep: T -> Result<bool>)
    ensures FilterOk(xs, keep).Fail? ==> FilterOk(xs + ys, keep) == FilterOk(xs, keep)
    ensures FilterOk(xs, keep).Ok? && FilterOk(ys, keep).Fail? ==> FilterOk(xs + ys, keep) == FilterOk(ys, keep)
    ensures FilterOk(xs, keep).Ok? && FilterOk(ys, keep).Ok? ==>
      FilterOk(xs + ys, keep) == Ok(FilterOk(xs, keep).value + FilterOk(ys, keep).value)
    decreases |xs|
  {
    if xs == [] {
      assert xs + ys == ys;
      if FilterOk(ys, keep).Ok? {
        assert FilterOk(xs, keep).value + FilterOk(ys, keep).value == FilterOk(ys, keep).value;
      }
    } else {
      var zs := xs + ys;
      assert zs[0] == xs[0];
      assert zs[1..] == xs[1..] + ys;
      FilterOkAppend(xs[1..], ys, keep);
      match keep(xs[0])
      case Fail(e) =>
      case Ok(k) =>
        var restX := FilterOk(xs[1..], keep);
        var restZ := FilterOk(zs[1..], keep);
        if restX.Ok? && FilterOk(ys, keep).Ok? {
          var tail := FilterOk(ys, keep).value;
          assert restZ == Ok(restX.value + tail);
          if k {
            assert FilterOk(xs, keep) == Ok([xs[0]] + restX.value);
            assert FilterOk(zs, keep) == Ok([xs[0]] + restZ.value);
            assert [xs[0]] + (restX.value + tail) == ([xs[0]] + restX.value) + tail;
          } else {
            assert FilterOk(xs, keep) == Ok(restX.value);
            assert FilterOk(zs, keep) == Ok(restZ.value);
          }
        }
    }
  }

  /** `ys` is `xs` with some elements left out, order kept. */
  predicate IsSubsequence<T(==)>(ys: seq<T>, xs: seq<T>)
    decreases |xs|
  {
    if ys == [] then true
    else if xs == [] then false
    else (ys[0] == xs[0] && IsSubsequence(ys[1..], xs[1..])) || IsSubsequence(ys, xs[1..])
  }

  /** The filter keeps the order of `xs`, every occurrence of an accepted
      element, and nothing else. */
  lemma {:induction false} FilterOkOrder<T>(xs: seq<T>, keep: T -> Result<bool>)
    requires FilterOk(xs, keep).Ok?
    ensures IsSubsequence(FilterOk(xs, keep).value, xs)
    ensures forall x :: multiset(FilterOk(xs, keep).value)[x] ==
                        (if keep(x) == Ok(true) then multiset(xs)[x] else 0)
    decreases |xs|
  {
    if xs != [] {
      FilterOkOrder(xs[1..], keep);
      assert xs == [xs[0]] + xs[1..];
      var rest := FilterOk(xs[1..], keep).value;
      if keep(xs[0]) == Ok(true) {
        assert ([xs[0]] + rest)[1..] == rest;
      } else {
        if rest != [] {
          assert IsSubsequence(rest, xs[1..]);
        }
      }
    }
  }
}

=== FILE: sorting.dfy ===
/** A stable insertion sort over any total preorder. Python's `sorted`
    and `Counter.most_common` are both stable, so the model sorts the same
    way: equal elements keep their original order. */
module Sorting {

  ghost predicate TotalPreorder<T(!new)>(le: (T, T) -> bool) {
    && (forall a, b :: le(a, b) || le(b, a))
    && (forall a, b, c :: le(a, b) && le(b, c) ==> le(a, c))
  }

  predicate SortedBy<T>(xs: seq<T>, le: (T, T) -> bool) {
    forall i, j :: 0 <= i < j < |xs| ==> le(xs[i], xs[j])
  }

  /** Puts `x` in front of the first element it is not above. */
  function Insert<T(==,!new)>(x: T, xs: seq<T>, le: (T, T) -> bool): (r: seq<T>)
    requires TotalPreorder(le)
    requires SortedBy(xs, le)
    ensures SortedBy(r, le)
    ensures multiset(r) == multiset(xs) + multiset{x}
    ensures |r| == |xs| + 1
  {
    if xs == [] || le(x, xs[0]) then
      InsertInFront(x, xs, le);
      [x] + xs
    else
      var rest := Insert(x, xs[1..], le);
      assert xs == [xs[0]] + xs[1..];
      InsertBehindHead(x, xs, rest, le);
      [xs[0]] + rest
  }

  /** An element not above the head of a sorted sequence may go in front. */
  lemma InsertInFront<T(!new)>(x: T, xs: seq<T>, le: (T, T) -> bool)
    requires TotalPreorder(le)
    requires SortedBy(xs, le)
    requires xs == [] || le(x, xs[0])
    ensures SortedBy([x] + xs, le)
  {
    var r := [x] + xs;
    forall i, j | 0 <= i < j < |r| ensures le(r[i], r[j]) {
      if i == 0 && j > 1 {
        assert le(xs[0], xs[j - 1]);
      }
    }
  }

  /** When `x` goes after the head, the head stays the least element. */
  lemma InsertBehindHead<T(!new)>(x: T, xs: seq<T>, rest: seq<T>, le: (T, T) -> bool)
    requires TotalPreorder(le)
    requires SortedBy(xs, le) && xs != [] && le(xs[0], x)
    requires SortedBy(rest, le)
    requires multiset(rest) == multiset(xs[1..]) + multiset{x}
    ensures SortedBy([xs[0]] + rest, le)
  {
    forall j | 0 <= j < |rest| ensures le(xs[0], rest[j]) {
      assert rest[j] in multiset(rest);
      if rest[j] != x {
        assert rest[j] in xs[1..];
        var k :| 0 <= k < |xs[1..]| && xs[1..][k] == rest[j];
        assert xs[k + 1] == rest[j];
      }
    }
    var r := [xs[0]] + rest;
    forall i, j | 0 <= i < j < |r| ensures le(r[i], r[j]) {
      assert r[j] == rest[j - 1];
      if i > 0 {
        assert r[i] == rest[i - 1];
      }
    }
  }

  /** Stable insertion sort. */
  function SortBy<T(==,!new)>(xs: seq<T>, le: (T, T) -> bool): (r: seq<T>)
    requires TotalPreorder(le)
    ensures SortedBy(r, le)
    ensures multiset(r) == multiset(xs)
    ensures |r| == |xs|
  {
    if xs == [] then []
    else
      assert xs == [xs[0]] + xs[1..];
      Insert(xs[0], SortBy(xs[1..], le), le)
  }
}

=== FILE: speaker.dfy ===
/** The speaker's post-processing of a model reply into a pair of
    artifacts: a one-word inscription and a short sentence. The reply text
    and the two random choices are parameters; a choice `pick` selects
    element `pick % n` of a list of `n`. */
module Speaker {
  import opened Results
  import opened JsonValue
  import opened PyText
  import opened PySeq
  import R = Researcher

  /** The archaeological settings an artifact can come from. */
  const Contexts: seq<string> := [
    "trade receipt scratched on wood",
    "boundary marker inscription",
    "tomb offering label",
    "short prayer fragment",
    "graffiti near a dock",
    "maker's mark on a tool",
    "temple administrative archives",
    "palace record rooms",
    "scribal school tablets",
    "private household archives",
    "merchant accounting rooms",
    "city gate offices",
    "royal chancellery archives",
    "provincial governor residences",
    "law court record rooms",
    "taxation registry offices",
    "warehouse inventory stores",
    "harbor customs offices",
    "military camp headquarters",
    "frontier fort garrisons",
    "canal maintenance offices",
    "irrigation control stations",
    "agricultural estate offices",
    "workshop accounting archives",
    "priesthood ritual storerooms",
    "oracle consultation chambers",
    "healer practice archives",
    "astronomical observation records",
    "omen interpretation libraries",
    "burial chamber deposits",
    "cemetery grave goods",
    "emergency hoard caches",
    "abandoned city ruins",
    "scribal workshop remains",
    "palace construction records",
    "diplomatic correspondence caches",
    "treaty tablet deposits",
    "census enumeration records",
    "ration distribution offices",
    "labor assignment records",
    "market regulation offices",
    "city wall guardhouses",
    "temple treasury vaults",
    "road checkpoint stations",
    "river transport offices",
    "judicial appeal archives"
  ]

  const DefaultMaxWords: int := 5

  /** The context the random pick selects; any pick selects one of the
      contexts. */
  function PickContext(pick: nat): (r: string)
    ensures r in Contexts
  {
    Contexts[pick % |Contexts|]
  }

  // ---------------------------------------------------------------------
  // re.sub(r'^[\'"]|[\'"]$', "", s)

  predicate IsQuote(c: char) {
    c == '\'' || c == '"'
  }

  /** 1 when the text starts with a quote, else 0. */
  function Lead(s: string): nat {
    if s != [] && IsQuote(s[0]) then 1 else 0
  }

  /** Removes a quote at the start and a quote at the end. As Python's `$`
      also matches before a final newline, a quote followed by a final
      newline counts as the end quote; a one-character string loses its
      quote once. What remains keeps its order: a piece of the text that
      starts after the leading quote, if there is one, and is followed by
      the final newline when that newline was kept. */
  function StripQuotes(s: string): (r: string)
    ensures |s| - 2 <= |r| <= |s|
    ensures multiset(r) <= multiset(s)
    ensures forall c :: !IsQuote(c) ==> multiset(r)[c] == multiset(s)[c]
    ensures s != [] && IsQuote(s[0]) ==> |r| < |s|
    ensures Lead(s) + |r| <= |s|
    ensures || r == s[Lead(s)..Lead(s) + |r|]
            || (r != [] && r[|r| - 1] == s[|s| - 1] == '\n' && r[..|r| - 1] == s[Lead(s)..Lead(s) + |r| - 1])
  {
    CutShape(s);
    QuotesTrimmed(s, Lead(s), Cut(s), Kept(s));
    PieceKept(s, Lead(s), Cut(s), Kept(s));
    s[Lead(s)..Cut(s)] + Kept(s)
  }

  /** Whether the text ends in a quote that `$` matches at the very end. */
  predicate EndQuote(s: string) {
    |s| >= 1 && IsQuote(s[|s| - 1]) && |s| - 1 >= Lead(s)
  }

  /** Whether the text ends in a quote that `$` matches before a final
      newline (and not at the very end). */
  predicate QuoteBeforeNewline(s: string) {
    !EndQuote(s) && |s| >= 2 && s[|s| - 1] == '\n' && IsQuote(s[|s| - 2]) && |s| - 2 >= Lead(s)
  }

  /** Where the kept text ends. */
  function Cut(s: string): nat {
    if EndQuote(s) then |s| - 1 else if QuoteBeforeNewline(s) then |s| - 2 else |s|
  }

  /** The final newline, kept when the end quote stood before it. */
  function Kept(s: string): string {
    if QuoteBeforeNewline(s) then [s[|s| - 1]] else []
  }

  /** The cut is what `QuotesTrimmed` and `PieceKept` need. */
  lemma CutShape(s: string)
    ensures Lead(s) <= 1 && Lead(s) <= Cut(s) <= |s|
    ensures Lead(s) == 1 ==> IsQuote(s[0])
    ensures || (Cut(s) == |s| && Kept(s) == [])
            || (Cut(s) == |s| - 1 && IsQuote(s[Cut(s)]) && Kept(s) == [])
            || (Cut(s) == |s| - 2 && IsQuote(s[Cut(s)]) && Kept(s) == [s[|s| - 1]] && s[|s| - 1] == '\n')
  {
  }

  /** Cutting `s` to `s[lo..hi]` and keeping either nothing or the final
      newline leaves a piece of `s` starting at `lo`, in order. */
  lemma PieceKept(s: string, lo: nat, hi: nat, keep: string)
    requires lo <= hi <= |s|
    requires keep == [] || (hi < |s| && keep == [s[|s| - 1]] && s[|s| - 1] == '\n')
    ensures var r := s[lo..hi] + keep;
      && lo + |r| <= |s|
      && (|| r == s[lo..lo + |r|]
          || (r != [] && r[|r| - 1] == s[|s| - 1] == '\n' && r[..|r| - 1] == s[lo..lo + |r| - 1]))
  {
    var r := s[lo..hi] + keep;
    if keep != [] {
      assert r[..|r| - 1] == s[lo..hi];
    }
  }

  /** Cutting `s` to `s[lo..hi]`, where what lies before `lo` and the
      character at `hi` are quotes, and keeping `keep` from the end, loses
      only quotes. */
  lemma QuotesTrimmed(s: string, lo: nat, hi: nat, keep: string)
    requires lo <= 1 && lo <= hi <= |s|
    requires lo == 1 ==> IsQuote(s[0])
    requires || (hi == |s| && keep == [])
             || (hi == |s| - 1 && IsQuote(s[hi]) && keep == [])
             || (hi == |s| - 2 && IsQuote(s[hi]) && keep == [s[|s| - 1]])
    ensures multiset(s[lo..hi] + keep) <= multiset(s)
    ensures forall c :: !IsQuote(c) ==> multiset(s[lo..hi] + keep)[c] == multiset(s)[c]
  {
    TrimmedParts(s, lo, hi, keep);
    DroppedAreQuotes(s, lo, hi);
  }

  /** What the cut drops is quotes only. */
  lemma DroppedAreQuotes(s: string, lo: nat, hi: nat)
    requires lo <= 1 && lo <= hi <= |s|
    requires lo == 1 ==> IsQuote(s[0])
    requires hi < |s| ==> IsQuote(s[hi])
    ensures forall c :: !IsQuote(c) ==> multiset(s[..lo] + (if hi < |s| then [s[hi]] else []))[c] == 0
  {
    var dropped := s[..lo] + (if hi < |s| then [s[hi]] else []);
    forall c | !IsQuote(c) ensures multiset(dropped)[c] == 0 {
      assert c !in dropped;
    }
  }

  /** What the cut keeps and what it drops make up the whole text. */
  lemma TrimmedParts(s: string, lo: nat, hi: nat, keep: string)
    requires lo <= hi <= |s|
    requires hi < |s| ==> s[hi + 1..] == keep
    requires hi == |s| ==> keep == []
    ensures multiset(s) == multiset(s[lo..hi] + keep) + multiset(s[..lo] + (if hi < |s| then [s[hi]] else []))
  {
    assert s == s[..lo] + s[lo..hi] + s[hi..];
    assert s[hi..] == (if hi < |s| then [s[hi]] else []) + keep;
  }

  /** A quoted text loses exactly its two quotes. */
  lemma QuotedUnwrapped(q: char, w: string, q': char)
    requires IsQuote(q) && IsQuote(q')
    ensures StripQuotes([q] + w + [q']) == w
  {
    var s := [q] + w + [q'];
    assert Lead(s) == 1 && EndQuote(s);
    assert s[1..|s| - 1] == w;
  }

  /** A text that only starts with a quote loses that quote. */
  lemma LeadingQuoteOnly(q: char, w: string)
    requires IsQuote(q)
    requires w == [] || !IsQuote(w[|w| - 1])
    requires |w| >= 2 && w[|w| - 1] == '\n' ==> !IsQuote(w[|w| - 2])
    ensures StripQuotes([q] + w) == w
  {
    var s := [q] + w;
    assert Lead(s) == 1 && !EndQuote(s) && !QuoteBeforeNewline(s);
    assert s[1..] == w;
  }

  /** A text that only ends with a quote loses that quote. */
  lemma TrailingQuoteOnly(w: string, q: char)
    requires IsQuote(q)
    requires w == [] || !IsQuote(w[0])
    ensures StripQuotes(w + [q]) == w
  {
    var s := w + [q];
    if w == [] {
      assert Lead(s) == 1 && !EndQuote(s) && !QuoteBeforeNewline(s);
    } else {
      assert Lead(s) == 0 && EndQuote(s);
      assert s[0..|w|] == w;
    }
  }

  /** A text with no quote at either end is left as it is. */
  lemma UnquotedUnchanged(s: string)
    requires s != [] ==> !IsQuote(s[0]) && !IsQuote(s[|s| - 1])
    requires |s| >= 2 && s[|s| - 1] == '\n' ==> !IsQuote(s[|s| - 2])
    ensures StripQuotes(s) == s
  {
    assert s[0..] == s;
  }

  /** A quote before a final newline is removed, the newline is kept. */
  lemma QuoteBeforeFinalNewline(w: string)
    requires w != [] ==> !IsQuote(w[0])
    ensures StripQuotes(w + "'\n") == w + "\n"
  {
    var s := w + "'\n";
    assert s[|s| - 1] == '\n' && s[|s| - 2] == '\'';
    if w == [] {
      assert Lead(s) == 1 && !EndQuote(s) && !QuoteBeforeNewline(s);
      assert s[1..] == "\n";
    } else {
      assert Lead(s) == 0 && !EndQuote(s) && QuoteBeforeNewline(s);
      assert Cut(s) == |s| - 2 && Kept(s) == "\n";
      assert s[0..|s| - 2] == w;
    }
  }

  /** Characters kept by `StripQuotes` come from its input. */
  lemma StripQuotesKeeps(s: string, p: char -> bool)
    requires AllIn(s, p)
    ensures AllIn(StripQuotes(s), p)
  {
    var r := StripQuotes(s);
    forall i | 0 <= i < |r| ensures p(r[i]) {
      assert r[i] in multiset(r);
      assert r[i] in multiset(s);
      assert r[i] in s;
    }
  }

  /** A string without whitespace is its own strip. */
  lemma {:induction false} StripPlain(s: string)
    requires AllIn(s, NotSpace)
    ensures Strip(s) == s
  {
    if s != [] {
      assert !IsSpace(s[0]);
      assert !IsSpace(s[|s| - 1]);
    }
  }

  // ---------------------------------------------------------------------
  // The inscription word

  /** The words longer than one character, in order. */
  function LongWords(ws: seq<string>): (r: seq<string>)
    ensures |r| <= |ws|
    ensures forall w :: w in r <==> w in ws && |w| > 1
  {
    if ws == [] then []
    else
      assert forall w :: w in ws <==> w == ws[0] || w in ws[1..];
      (if |ws[0]| > 1 then [ws[0]] else []) + LongWords(ws[1..])
  }

  /** The candidates for the inscription: the reply's words longer than one
      character, or all its words when there are none; empty exactly when
      the reply is blank. */
  function WordPool(raw: string): (r: seq<string>)
    ensures forall w :: w in r ==> w in Split(raw)
    ensures (exists w :: w in Split(raw) && |w| > 1) ==> forall w :: w in r ==> |w| > 1
    ensures r == [] <==> Strip(raw) == []
  {
    SplitEmptyIffBlank(raw);
    var long := LongWords(Split(raw));
    if long != [] then long
    else
      assert Split(raw) != [] ==> Split(raw)[0] in Split(raw);
      Split(raw)
  }

  /** `random.choice(all_words)`, or `"unk"` for a blank reply. The
      source's fallback to the first word of the stripped reply is never
      taken: a reply with no words is blank. */
  function ChosenWord(raw: string, pick: nat): (w: string)
    ensures Strip(raw) == [] ==> w == "unk"
    ensures Strip(raw) != [] ==> w in Split(raw)
    ensures (exists v :: v in Split(raw) && |v| > 1) ==> |w| > 1
    ensures AllIn(w, NotSpace)
  {
    var pool := WordPool(raw);
    if pool == [] then
      assert forall i :: 0 <= i < 3 ==> NotSpace("unk"[i]);
      "unk"
    else
      var w := pool[pick % |pool|];
      assert w in pool;
      var k :| 0 <= k < |Split(raw)| && Split(raw)[k] == w;
      w
  }

  /** The inscription text: the chosen word without its quotes; a single
      token with no whitespace, `"unk"` for a blank reply. */
  function InscriptionWord(raw: string, pick: nat): (r: string)
    ensures Strip(raw) == [] ==> r == "unk"
    ensures AllIn(r, NotSpace)
  {
    var single := ChosenWord(raw, pick);
    StripQuotesKeeps(single, NotSpace);
    StripPlain(StripQuotes(single));
    if Strip(raw) == [] then
      UnquotedUnchanged("unk");
      Strip(StripQuotes(single))
    else
      Strip(StripQuotes(single))
  }

  /** The inscription is a word of the reply with its quotes removed, and
      a word longer than one character whenever the reply has one. */
  lemma InscriptionFromReply(raw: string, pick: nat)
    requires Strip(raw) != []
    ensures exists w :: w in Split(raw) && InscriptionWord(raw, pick) == StripQuotes(w)
    ensures (exists v :: v in Split(raw) && |v| > 1) ==>
      exists w :: w in Split(raw) && |w| > 1 && InscriptionWord(raw, pick) == StripQuotes(w)
  {
    var w := ChosenWord(raw, pick);
    StripQuotesKeeps(w, NotSpace);
    StripPlain(StripQuotes(w));
    assert InscriptionWord(raw, pick) == StripQuotes(w);
  }

  // ---------------------------------------------------------------------
  // The sentence

  /** The sentence text: the reply without its quotes and surrounding
      whitespace, cut to its first `maxWords` words when it has more.
      A negative `maxWords` drops words from the end, as Python's slice
      does. */
  function Sentence(raw: string, maxWords: int): (r: string)
    ensures Split(r) == Upto(Split(Strip(StripQuotes(raw))), maxWords)
    ensures |Split(Strip(StripQuotes(raw)))| <= maxWords ==> r == Strip(StripQuotes(raw))
    ensures |Split(Strip(StripQuotes(raw)))| > maxWords ==>
      r == Join(" ", Upto(Split(Strip(StripQuotes(raw))), maxWords))
  {
    var s := Strip(StripQuotes(raw));
    var words := Split(s);
    if |words| > maxWords then
      var kept := Upto(words, maxWords);
      assert PlainWords(kept) by {
        forall i | 0 <= i < |kept| ensures kept[i] != [] && AllIn(kept[i], NotSpace) {
          assert kept[i] == words[i];
        }
      }
      SplitJoin(kept);
      Join(" ", kept)
    else
      s
  }

  /** With a non-negative limit, the sentence has at most that many words,
      and they are the reply's first words. */
  lemma SentenceWordLimit(raw: string, maxWords: nat)
    ensures |Split(Sentence(raw, maxWords))| <= maxWords
    ensures forall i :: 0 <= i < |Split(Sentence(raw, maxWords))| ==>
      Split(Sentence(raw, maxWords))[i] == Split(Strip(StripQuotes(raw)))[i]
  {
  }

  // ---------------------------------------------------------------------
  // generate_artifact

  /** The metadata of a fresh artifact: its context, an empty gloss,
      meaning and confidence, and no gloss timestamp. */
  function SpeakerMetadata(context: string): (m: Json)
    ensures m.JObj? && m.fields.Keys == {"context", "gloss", "meaning", "confidence", "gloss_updated_at"}
    ensures m.fields["context"] == JStr(context)
    ensures m.fields["gloss"] == JStr("") && m.fields["meaning"] == JStr("")
    ensures m.fields["confidence"] == JStr("") && m.fields["gloss_updated_at"] == JNull
  {
    JObj(map[
      "context" := JStr(context),
      "gloss" := JStr(""),
      "meaning" := JStr(""),
      "confidence" := JStr(""),
      "gloss_updated_at" := JNull
    ])
  }

  /** One artifact record as `generate_artifact` writes it. */
  function ArtifactRecord(id: string, language: string, kind: string, text: string, metadata: Json): (a: Record)
    ensures a.Keys == {"id", "language", "type", "text", "metadata"}
    ensures a["id"] == JStr(id) && a["language"] == JStr(language) && a["type"] == JStr(kind)
    ensures a["text"] == JStr(text) && a["metadata"] == metadata
  {
    map["id" := JStr(id), "language" := JStr(language), "type" := JStr(kind),
        "text" := JStr(text), "metadata" := metadata]
  }

  /** `generate_artifact`: the inscription `artifactId` holding one word
      of the reply and the sentence `artifactId + "_S"` holding the reply
      itself, both in the branch's language, both from the same context
      and both unglossed. */
  function GenerateArtifact(branch: string, artifactId: string, maxWords: int, raw: string,
                            contextPick: nat, wordPick: nat): (r: seq<Record>)
    ensures |r| == 2
    ensures r[0].Keys == r[1].Keys == {"id", "language", "type", "text", "metadata"}
    ensures r[0]["id"] == JStr(artifactId) && r[1]["id"] == JStr(artifactId + "_S")
    ensures r[0]["type"] == JStr("inscription") && r[1]["type"] == JStr("sentence")
    ensures r[0]["language"] == r[1]["language"] == JStr(branch)
    ensures r[0]["metadata"] == r[1]["metadata"]
    ensures r[0]["metadata"].JObj? && "context" in r[0]["metadata"].fields
    ensures r[0]["metadata"].fields["context"].JStr? && r[0]["metadata"].fields["context"].s in Contexts
    ensures r[0]["text"] == JStr(InscriptionWord(raw, wordPick))
    ensures r[1]["text"] == JStr(Sentence(raw, maxWords))
  {
    var md := SpeakerMetadata(PickContext(contextPick));
    [ArtifactRecord(artifactId, branch, "inscription", InscriptionWord(raw, wordPick), md),
     ArtifactRecord(artifactId + "_S", branch, "sentence", Sentence(raw, maxWords), md)]
  }

  /** A fresh inscription feeds the token statistics under its branch and
      is a gloss candidate; a fresh sentence is neither. */
  lemma FreshArtifactsForResearch(branch: string, artifactId: string, maxWords: int, raw: string,
                                  contextPick: nat, wordPick: nat)
    ensures var r := GenerateArtifact(branch, artifactId, maxWords, raw, contextPick, wordPick);
      && R.Contributes(r[0]) && R.LanguageOf(r[0]) == JStr(branch)
      && R.NeedsGloss(r[0]) == Ok(true)
      && R.IsSentence(r[1]) && !R.Contributes(r[1])
  {
    var md := SpeakerMetadata(PickContext(contextPick));
    FreshInscriptionForResearch(artifactId, branch, InscriptionWord(raw, wordPick), PickContext(contextPick));
    FreshSentenceForResearch(artifactId + "_S", branch, Sentence(raw, maxWords), md);
  }

  /** The inscription half of `FreshArtifactsForResearch`. */
  lemma FreshInscriptionForResearch(id: string, branch: string, word: string, context: string)
    ensures var a := ArtifactRecord(id, branch, "inscription", word, SpeakerMetadata(context));
      && R.Contributes(a) && R.LanguageOf(a) == JStr(branch)
      && R.NeedsGloss(a) == Ok(true)
  {
    var a := ArtifactRecord(id, branch, "inscription", word, SpeakerMetadata(context));
    assert "inscription" != "sentence" by { assert "inscription"[0] != "sentence"[0]; }
    assert Get(a, "type", JNull) == JStr("inscription");
    assert Get(a, "text", JStr("")).JStr?;
    var md := MetadataOf(a);
    assert md.JObj? && Get(md.fields, "gloss", JNull) == JStr("");
    assert !Truthy(JStr(""));
  }

  /** The sentence half of `FreshArtifactsForResearch`. */
  lemma FreshSentenceForResearch(id: string, branch: string, text: string, md: Json)
    ensures var a := ArtifactRecord(id, branch, "sentence", text, md);
      R.IsSentence(a) && !R.Contributes(a)
  {
    var a := ArtifactRecord(id, branch, "sentence", text, md);
    assert Get(a, "type", JNull) == JStr("sentence");
  }
}

=== FILE: store.dfy ===
/** The JSON list store of `tools.py`: a file holding a JSON list of
    records, loaded whole, changed in memory and written back whole.
    The file is abstract: `Absent`, or `Present` with what `json.loads`
    makes of its text (`None` when the text is not JSON). */
module Store {
  import opened Results
  import opened JsonValue
  import opened PyText

  datatype FileState = Absent | Present(content: Option<Json>)

  /** A file whose text decodes to a JSON list. */
  predicate HoldsList(f: FileState) {
    f.Present? && f.content.Some? && f.content.value.JArr?
  }

  /** `_ensure_json_list_file`: creates a missing file as `[]`; rejects a
      file that is not JSON or not a list; leaves a list file alone. */
  function EnsureListFile(f: FileState): (r: Result<FileState>)
    ensures r.Ok? <==> f.Absent? || HoldsList(f)
    ensures r.Ok? ==> HoldsList(r.value)
    ensures f.Absent? ==> r == Ok(Present(Some(JArr([]))))
    ensures f.Present? && r.Ok? ==> r.value == f
    ensures f == Present(None) ==> r == Fail(InvalidJson)
  {
    match f
    case Absent => Ok(Present(Some(JArr([]))))
    case Present(None) => Fail(InvalidJson)
    case Present(Some(j)) => if j.JArr? then Ok(f) else Fail(NotAList)
  }

  /** What a load returns: the file afterwards (created when it was
      missing) and its records. */
  datatype Loaded = Loaded(file: FileState, records: seq<Record>)

  /** The record that stands for a non-object list item at index `i`. */
  function Placeholder(i: nat, item: Json): (r: Record)
    ensures r.Keys == {"_invalid_index", "value"}
    ensures r["_invalid_index"] == JInt(i) && r["value"] == item
  {
    map["_invalid_index" := JInt(i), "value" := item]
  }

  function AsRecord(i: nat, item: Json): Record {
    if item.JObj? then item.fields else Placeholder(i, item)
  }

  /** `load_json_list`: same length and order as the stored list; objects
      unchanged, every other item replaced by its placeholder. */
  function LoadJsonList(f: FileState): (r: Result<Loaded>)
    ensures r.Ok? <==> f.Absent? || HoldsList(f)
    ensures f.Absent? ==> r == Ok(Loaded(Present(Some(JArr([]))), []))
    ensures r.Ok? && f.Present? ==> r.value.file == f
    ensures r.Ok? && f.Present? ==>
      var items := f.content.value.items;
      && |r.value.records| == |items|
      && forall i :: 0 <= i < |items| ==>
           (items[i].JObj? ==> r.value.records[i] == items[i].fields)
           && (!items[i].JObj? ==> r.value.records[i] == Placeholder(i, items[i]))
  {
    var g :- EnsureListFile(f);
    var items := g.content.value.items;
    Ok(Loaded(g, seq(|items|, i requires 0 <= i < |items| => AsRecord(i, items[i]))))
  }

  /** The file as `json.dumps` leaves it after writing `records`. */
  function Stored(records: seq<Record>): FileState {
    Present(Some(JArr(seq(|records|, i requires 0 <= i < |records| => JObj(records[i])))))
  }

  /** `write_json_list`: reloading what was written gives back exactly
      the records written. */
  function WriteJsonList(f: FileState, records: seq<Record>): (r: Result<FileState>)
    ensures r.Ok? <==> f.Absent? || HoldsList(f)
    ensures r.Ok? ==> LoadJsonList(r.value) == Ok(Loaded(r.value, records))
  {
    var _ :- EnsureListFile(f);
    var g := Stored(records);
    assert LoadJsonList(g).value.records == records;
    Ok(g)
  }

  /** `add_artifact`, `append_research_log` and `append_research_question`
      (three copies of one routine): the store afterwards loads as the old
      records followed by `rec`; a store that does not load is left alone. */
  function Append(f: FileState, rec: Record): (r: Result<FileState>)
    ensures r.Ok? <==> LoadJsonList(f).Ok?
    ensures r.Ok? ==>
      LoadJsonList(r.value) == Ok(Loaded(r.value, LoadJsonList(f).value.records + [rec]))
  {
    var l :- LoadJsonList(f);
    WriteJsonList(l.file, l.records + [rec])
  }

  /** Loading a missing store creates it holding `[]`; loading again
      still gives the empty list. */
  lemma LoadMissingIsIdempotent()
    ensures LoadJsonList(Absent).Ok?
    ensures LoadJsonList(Absent).value.records == []
    ensures var f := LoadJsonList(Absent).value.file;
            f == Present(Some(JArr([]))) && LoadJsonList(f) == Ok(Loaded(f, []))
  {
  }

  /** A store whose text is not JSON, or is JSON but not a list, makes
      every load, append and write fail, so nothing is written. */
  lemma CorruptStoreRejected(f: FileState, rec: Record, records: seq<Record>)
    requires f == Present(None) || (f.Present? && f.content.Some? && !f.content.value.JArr?)
    ensures LoadJsonList(f).Fail? && Append(f, rec).Fail? && WriteJsonList(f, records).Fail?
    ensures f == Present(None) ==> LoadJsonList(f) == Fail(InvalidJson)
    ensures f != Present(None) ==> LoadJsonList(f) == Fail(NotAList)
  {
  }

  // ---------------------------------------------------------------------
  // search_artifacts

  const DefaultSearchFields: seq<string> := ["id", "language", "type", "text"]

  /** `str(v)` of a field value that is not `None`; `render` stands for
      Python's `repr` of a list or dict. */
  function FieldText(v: Json, render: Json -> string): string {
    match v
    case JStr(s) => s
    case JBool(b) => if b then "True" else "False"
    case JInt(n) => IntStr(n)
    case _ => render(v)
  }

  /** The non-`None` selected fields of a record, as text, in field order. */
  function HayParts(a: Record, fields: seq<string>, render: Json -> string): seq<string> {
    if fields == [] then []
    else
      var v := Get(a, fields[0], JNull);
      (if v.JNull? then [] else [FieldText(v, render)]) + HayParts(a, fields[1..], render)
  }

  /** The text of every selected field that is not `None` is a part. */
  lemma {:induction false} HayPartsHold(a: Record, fields: seq<string>, render: Json -> string, k: nat)
    requires k < |fields| && !Get(a, fields[k], JNull).JNull?
    ensures FieldText(Get(a, fields[k], JNull), render) in HayParts(a, fields, render)
    decreases |fields|
  {
    if k > 0 {
      HayPartsHold(a, fields[1..], render, k - 1);
    }
  }

  /** The text a search looks in: every selected field that is not `None`,
      lowercased, occurs in it. */
  function Haystack(a: Record, fields: seq<string>, render: Json -> string): (r: string)
    ensures forall k :: 0 <= k < |fields| && !Get(a, fields[k], JNull).JNull? ==>
      Contains(r, Lower(FieldText(Get(a, fields[k], JNull), render)))
  {
    var parts := HayParts(a, fields, render);
    assert forall k :: 0 <= k < |fields| && !Get(a, fields[k], JNull).JNull? ==>
      Contains(Lower(Join(" ", parts)), Lower(FieldText(Get(a, fields[k], JNull), render))) by {
      forall k | 0 <= k < |fields| && !Get(a, fields[k], JNull).JNull?
        ensures Contains(Lower(Join(" ", parts)), Lower(FieldText(Get(a, fields[k], JNull), render)))
      {
        HayPartsHold(a, fields, render, k);
        var j :| 0 <= j < |parts| && parts[j] == FieldText(Get(a, fields[k], JNull), render);
        JoinContainsPart(" ", parts, j);
        LowerContains(Join(" ", parts), parts[j]);
      }
    }
    Lower(Join(" ", parts))
  }

  /** The keyword as the search uses it: lowercased, then stripped. */
  function SearchKey(keyword: string): string {
    Strip(Lower(keyword))
  }

  predicate Matches(a: Record, key: string, fields: seq<string>, render: Json -> string) {
    Contains(Haystack(a, fields, render), key)
  }

  /** A record matches whenever one selected field that is not `None`
      holds the key in its lowercased text. */
  lemma FieldHitMatches(a: Record, key: string, fields: seq<string>, render: Json -> string, k: nat)
    requires k < |fields| && !Get(a, fields[k], JNull).JNull?
    requires Contains(Lower(FieldText(Get(a, fields[k], JNull), render)), key)
    ensures Matches(a, key, fields, render)
  {
    ContainsTrans(Haystack(a, fields, render), Lower(FieldText(Get(a, fields[k], JNull), render)), key);
  }

  /** Reference definition of a search: the matching records, in order. */
  function MatchingRecords(records: seq<Record>, key: string, fields: seq<string>,
                           render: Json -> string): (r: seq<Record>)
    ensures |r| <= |records|
    ensures forall a :: a in r ==> a in records && Matches(a, key, fields, render)
    ensures forall a :: a in records && Matches(a, key, fields, render) ==> a in r
  {
    if records == [] then []
    else
      var rest := MatchingRecords(records[1..], key, fields, render);
      assert forall a :: a in records ==> a == records[0] || a in records[1..];
      if Matches(records[0], key, fields, render) then [records[0]] + rest else rest
  }

  lemma MatchingRecordsAppend(records: seq<Record>, a: Record, key: string,
                              fields: seq<string>, render: Json -> string)
    ensures MatchingRecords(records + [a], key, fields, render)
         == MatchingRecords(records, key, fields, render)
            + (if Matches(a, key, fields, render) then [a] else [])
  {
    if records != [] {
      assert (records + [a])[1..] == records[1..] + [a];
      MatchingRecordsAppend(records[1..], a, key, fields, render);
    }
  }

  /** The matches of one more record of a prefix. */
  lemma MatchingPrefixStep(records: seq<Record>, i: nat, key: string, fields: seq<string>,
                           render: Json -> string)
    requires i < |records|
    ensures MatchingRecords(records[..i + 1], key, fields, render)
         == MatchingRecords(records[..i], key, fields, render)
            + (if Matches(records[i], key, fields, render) then [records[i]] else [])
  {
    assert records[..i + 1] == records[..i] + [records[i]];
    MatchingRecordsAppend(records[..i], records[i], key, fields, render);
  }

  /** `search_artifacts`: a blank keyword finds nothing; otherwise the
      result is the order-preserving selection of the records whose
      selected fields contain the keyword, ignoring ASCII case. */
  method Search(records: seq<Record>, keyword: string, fields: Option<seq<string>>,
                render: Json -> string) returns (matches: seq<Record>)
    ensures SearchKey(keyword) == [] ==> matches == []
    ensures SearchKey(keyword) != [] ==>
      var fs := if fields.Some? then fields.value else DefaultSearchFields;
      matches == MatchingRecords(records, SearchKey(keyword), fs, render)
  {
    var key := SearchKey(keyword);
    if key == [] {
      return [];
    }
    var fs := if fields.Some? then fields.value else DefaultSearchFields;
    matches := [];
    var i := 0;
    while i < |records|
      invariant 0 <= i <= |records|
      invariant matches == MatchingRecords(records[..i], key, fs, render)
    {
      var a := records[i];
      var joined := Haystack(a, fs, render);
      MatchingPrefixStep(records, i, key, fs, render);
      if Contains(joined, key) {
        matches := matches + [a];
      }
      i := i + 1;
    }
    assert records[..i] == records;
  }

  // ---------------------------------------------------------------------
  // update_research_questions

  /** `{u['id']: u for u in updates if 'id' in u}`: updates without an id
      are ignored, and the last update for an id wins. */
  function QuestionUpdatesById(updates: seq<Record>): (r: Result<map<Json, Record>>)
    ensures r.Ok? <==> forall k :: 0 <= k < |updates| && "id" in updates[k] ==> Hashable(updates[k]["id"])
    ensures r.Ok? ==> forall id :: id in r.value ==> "id" in r.value[id] && r.value[id]["id"] == id
    ensures r.Ok? ==> forall k :: 0 <= k < |updates| && "id" in updates[k] ==> updates[k]["id"] in r.value
    ensures r.Ok? ==> forall k :: 0 <= k < |updates| && "id" in updates[k]
                       && (forall k' :: k < k' < |updates| && "id" in updates[k'] ==> updates[k']["id"] != updates[k]["id"])
                       ==> r.value[updates[k]["id"]] == updates[k]
    ensures r.Ok? ==> forall id :: id in r.value ==> r.value[id] in updates
    decreases |updates|
  {
    if updates == [] then Ok(map[])
    else
      var init := updates[..|updates| - 1];
      var m :- QuestionUpdatesById(init);
      var u := updates[|updates| - 1];
      assert forall k :: 0 <= k < |init| ==> init[k] == updates[k];
      if "id" !in u then
        QuestionIndexSkip(updates, m);
        Ok(m)
      else if !Hashable(u["id"]) then Fail(Unhashable("update id"))
      else
        QuestionIndexPut(updates, m);
        Ok(m[u["id"] := u])
  }

  /** `m` indexes `updates` by id as the comprehension does. */
  predicate IndexedById(updates: seq<Record>, m: map<Json, Record>) {
    && (forall id :: id in m ==> "id" in m[id] && m[id]["id"] == id)
    && (forall k :: 0 <= k < |updates| && "id" in updates[k] ==> updates[k]["id"] in m)
    && (forall k :: 0 <= k < |updates| && "id" in updates[k]
          && (forall k' :: k < k' < |updates| && "id" in updates[k'] ==> updates[k']["id"] != updates[k]["id"])
          ==> m[updates[k]["id"]] == updates[k])
    && (forall id :: id in m ==> m[id] in updates)
  }

  /** A last update without an id leaves the index as it was. */
  lemma QuestionIndexSkip(updates: seq<Record>, m: map<Json, Record>)
    requires updates != [] && "id" !in updates[|updates| - 1]
    requires IndexedById(updates[..|updates| - 1], m)
    ensures IndexedById(updates, m)
  {
    var init := updates[..|updates| - 1];
    assert forall k :: 0 <= k < |init| ==> init[k] == updates[k];
    forall id | id in m ensures m[id] in updates {
      var k :| 0 <= k < |init| && init[k] == m[id];
      assert updates[k] == m[id];
    }
  }

  /** A last update with an id takes that id's place. */
  lemma QuestionIndexPut(updates: seq<Record>, m: map<Json, Record>)
    requires updates != [] && "id" in updates[|updates| - 1]
    requires IndexedById(updates[..|updates| - 1], m)
    ensures var u := updates[|updates| - 1]; IndexedById(updates, m[u["id"] := u])
  {
    var init := updates[..|updates| - 1];
    var u := updates[|updates| - 1];
    var m' := m[u["id"] := u];
    assert forall k :: 0 <= k < |init| ==> init[k] == updates[k];
    forall id | id in m' ensures m'[id] in updates {
      if id != u["id"] {
        var k :| 0 <= k < |init| && init[k] == m[id];
        assert updates[k] == m'[id];
      }
    }
  }

  /** One matched question: `proposed_answer` and `confidence` taken from
      the update when it carries them, `updated_at` stamped; every other
      field is unchanged. */
  function AnswerUpdate(q: Record, u: Record, now: int): (r: Record)
    ensures forall k :: k != "proposed_answer" && k != "confidence" && k != "updated_at" ==>
              (k in r <==> k in q) && (k in q ==> r[k] == q[k])
    ensures "updated_at" in r && r["updated_at"] == JInt(now)
    ensures "proposed_answer" in u ==> "proposed_answer" in r && r["proposed_answer"] == u["proposed_answer"]
    ensures "proposed_answer" !in u ==>
              && ("proposed_answer" in r <==> "proposed_answer" in q)
              && ("proposed_answer" in q ==> r["proposed_answer"] == q["proposed_answer"])
    ensures "confidence" in u ==> "confidence" in r && r["confidence"] == u["confidence"]
    ensures "confidence" !in u ==>
              && ("confidence" in r <==> "confidence" in q)
              && ("confidence" in q ==> r["confidence"] == q["confidence"])
  {
    var q1 := if "proposed_answer" in u then q["proposed_answer" := u["proposed_answer"]] else q;
    var q2 := if "confidence" in u then q1["confidence" := u["confidence"]] else q1;
    q2["updated_at" := JInt(now)]
  }

  /** The number of records whose id is a key of `byId`. */
  function CountMatched<V>(records: seq<Record>, byId: map<Json, V>): nat {
    if records == [] then 0
    else CountMatched(records[..|records| - 1], byId) + (if IdOf(records[|records| - 1]) in byId then 1 else 0)
  }

  datatype Updated = Updated(records: seq<Record>, count: nat)

  /** The loop of `update_research_questions` over the loaded questions.
      `clock(i)` is the wall-clock second read when the loop stamps the
      question at position `i`; positions that match no update never read
      it. */
  function ApplyAnswerUpdates(qs: seq<Record>, byId: map<Json, Record>, clock: nat -> int): (r: Result<Updated>)
    ensures r.Ok? <==> forall i :: 0 <= i < |qs| ==> Hashable(IdOf(qs[i]))
    ensures r.Ok? ==> |r.value.records| == |qs|
    ensures r.Ok? ==> forall i :: 0 <= i < |qs| ==>
      r.value.records[i] == (if IdOf(qs[i]) in byId then AnswerUpdate(qs[i], byId[IdOf(qs[i])], clock(i)) else qs[i])
    ensures r.Ok? ==> r.value.count == CountMatched(qs, byId)
    decreases |qs|
  {
    if qs == [] then Ok(Updated([], 0))
    else
      var init := qs[..|qs| - 1];
      assert forall i :: 0 <= i < |init| ==> init[i] == qs[i];
      var prior :- ApplyAnswerUpdates(init, byId, clock);
      var q := qs[|qs| - 1];
      var qid := IdOf(q);
      if !Hashable(qid) then Fail(Unhashable("question id"))
      else
        var q' := if qid in byId then AnswerUpdate(q, byId[qid], clock(|qs| - 1)) else q;
        Ok(Updated(prior.records + [q'], prior.count + (if qid in byId then 1 else 0)))
  }

  /** `update_research_questions`: the store keeps its length and order;
      each question whose id has an update gets that update's answer and
      confidence (when present) and `updated_at`; every other question is
      unchanged; the result is the number of matched questions. Each matched
      question's `updated_at` is the clock reading taken for its position, so
      two questions updated in one call may carry different seconds. A failing
      call on an existing store writes nothing; on a missing store the load
      has already created it holding `[]`, and a failure does not return
      that file. */
  function UpdateResearchQuestions(f: FileState, updates: seq<Record>, clock: nat -> int): (r: Result<(FileState, nat)>)
    ensures r.Ok? <==>
      && LoadJsonList(f).Ok?
      && (forall k :: 0 <= k < |updates| && "id" in updates[k] ==> Hashable(updates[k]["id"]))
      && (forall i :: 0 <= i < |LoadJsonList(f).value.records| ==> Hashable(IdOf(LoadJsonList(f).value.records[i])))
    ensures r.Ok? ==>
      var before := LoadJsonList(f).value.records;
      var byId := QuestionUpdatesById(updates).value;
      var after := LoadJsonList(r.value.0);
      && after.Ok?
      && |after.value.records| == |before|
      && r.value.1 == CountMatched(before, byId)
      && forall i :: 0 <= i < |before| ==>
           after.value.records[i] == (if IdOf(before[i]) in byId
                                      then AnswerUpdate(before[i], byId[IdOf(before[i])], clock(i))
                                      else before[i])
  {
    var l :- LoadJsonList(f);
    var byId :- QuestionUpdatesById(updates);
    var applied :- ApplyAnswerUpdates(l.records, byId, clock);
    match WriteJsonList(l.file, applied.records)
    case Ok(g) => Ok((g, applied.count))
    case Fail(e) => Fail(e)
  }

  /** An update whose id matches no stored question changes nothing and
      counts nothing. */
  lemma UnmatchedUpdateChangesNothing(f: FileState, u: Record, clock: nat -> int)
    requires LoadJsonList(f).Ok?
    requires "id" in u && Hashable(u["id"])
    requires forall i :: 0 <= i < |LoadJsonList(f).value.records| ==>
               Hashable(IdOf(LoadJsonList(f).value.records[i]))
               && IdOf(LoadJsonList(f).value.records[i]) != u["id"]
    ensures UpdateResearchQuestions(f, [u], clock).Ok?
    ensures var r := UpdateResearchQuestions(f, [u], clock).value;
            r.1 == 0 && LoadJsonList(r.0).value.records == LoadJsonList(f).value.records
  {
    var before := LoadJsonList(f).value.records;
    var byId := QuestionUpdatesById([u]).value;
    assert byId.Keys == {u["id"]};
    CountMatchedNone(before, byId);
  }

  lemma {:induction false} CountMatchedNone<V>(records: seq<Record>, byId: map<Json, V>)
    requires forall i :: 0 <= i < |records| ==> IdOf(records[i]) !in byId
    ensures CountMatched(records, byId) == 0
    decreases |records|
  {
    if records != [] {
      CountMatchedNone(records[..|records| - 1], byId);
    }
  }

  // ---------------------------------------------------------------------
  // update_artifact_glosses

  /** `{u['artifact_id']: u for u in updates}`: every update must be an
      object carrying a hashable `artifact_id`; the last one per id wins. */
  function GlossUpdatesById(updates: seq<Json>): (r: Result<map<Json, Record>>)
    ensures r.Ok? <==> forall k :: 0 <= k < |updates| ==>
              updates[k].JObj? && "artifact_id" in updates[k].fields && Hashable(updates[k].fields["artifact_id"])
    ensures r.Ok? ==> forall id :: id in r.value ==> "artifact_id" in r.value[id] && r.value[id]["artifact_id"] == id
    ensures r.Ok? ==> forall k :: 0 <= k < |updates| ==> updates[k].fields["artifact_id"] in r.value
    ensures r.Ok? ==> forall k :: 0 <= k < |updates|
                       && (forall k' :: k < k' < |updates| ==> updates[k'].fields["artifact_id"] != updates[k].fields["artifact_id"])
                       ==> r.value[updates[k].fields["artifact_id"]] == updates[k].fields
    decreases |updates|
  {
    if updates == [] then Ok(map[])
    else
      var init := updates[..|updates| - 1];
      var m :- GlossUpdatesById(init);
      var u := updates[|updates| - 1];
      assert forall k :: 0 <= k < |init| ==> init[k] == updates[k];
      if !u.JObj? then Fail(WrongType("gloss update"))
      else if "artifact_id" !in u.fields then Fail(MissingKey("artifact_id"))
      else if !Hashable(u.fields["artifact_id"]) then Fail(Unhashable("artifact_id"))
      else Ok(m[u.fields["artifact_id"] := u.fields])
  }

  /** One matched artifact: `metadata.gloss`, `metadata.confidence` and
      `metadata.gloss_updated_at` set; no other field of the artifact or
      of its metadata changes (the update's `meaning` is not stored).
      Fails when the update lacks `gloss` or `confidence` or the artifact's
      metadata is not an object. */
  function GlossApplied(a: Record, u: Record, now: int): (r: Result<Record>)
    ensures r.Ok? <==> "gloss" in u && "confidence" in u && MetadataOf(a).JObj?
    ensures r.Ok? ==>
      && (forall k :: k != "metadata" ==> (k in r.value <==> k in a) && (k in a ==> r.value[k] == a[k]))
      && "metadata" in r.value && r.value["metadata"].JObj?
      && var md := r.value["metadata"].fields;
         && "gloss" in md && md["gloss"] == u["gloss"]
         && "confidence" in md && md["confidence"] == u["confidence"]
         && "gloss_updated_at" in md && md["gloss_updated_at"] == JInt(now)
         && forall k :: k != "gloss" && k != "confidence" && k != "gloss_updated_at" ==>
              (k in md <==> k in MetadataOf(a).fields)
              && (k in md ==> md[k] == MetadataOf(a).fields[k])
  {
    if "gloss" !in u then Fail(MissingKey("gloss"))
    else if !MetadataOf(a).JObj? then Fail(WrongType("metadata"))
    else if "confidence" !in u then Fail(MissingKey("confidence"))
    else
      var md := MetadataOf(a).fields;
      var md' := md["gloss" := u["gloss"]]["confidence" := u["confidence"]]["gloss_updated_at" := JInt(now)];
      Ok(a["metadata" := JObj(md')])
  }

  /** Every artifact id can be looked up, and every matched update can be
      applied. */
  predicate GlossesApplicable(arts: seq<Record>, byId: map<Json, Record>, clock: nat -> int) {
    forall i :: 0 <= i < |arts| ==>
      Hashable(IdOf(arts[i])) && (IdOf(arts[i]) in byId ==> GlossApplied(arts[i], byId[IdOf(arts[i])], clock(i)).Ok?)
  }

  /** Applicability splits into the artifacts before the last one and the
      last one. */
  lemma GlossesApplicableSnoc(arts: seq<Record>, byId: map<Json, Record>, clock: nat -> int)
    requires arts != []
    ensures var n := |arts| - 1;
      GlossesApplicable(arts, byId, clock) <==>
      && GlossesApplicable(arts[..n], byId, clock)
      && Hashable(IdOf(arts[n]))
      && (IdOf(arts[n]) in byId ==> GlossApplied(arts[n], byId[IdOf(arts[n])], clock(n)).Ok?)
    ensures forall i :: 0 <= i < |arts| - 1 ==> arts[..|arts| - 1][i] == arts[i]
  {
    assert forall i :: 0 <= i < |arts| - 1 ==> arts[..|arts| - 1][i] == arts[i];
  }

  /** The loop of `update_artifact_glosses` over the loaded artifacts.
      `clock(i)` is the wall-clock second read when the loop stamps the
      artifact at position `i`. */
  function ApplyGlossUpdates(arts: seq<Record>, byId: map<Json, Record>, clock: nat -> int): (r: Result<Updated>)
    ensures r.Ok? <==> GlossesApplicable(arts, byId, clock)
    ensures r.Ok? ==> |r.value.records| == |arts|
    ensures r.Ok? ==> forall i :: 0 <= i < |arts| ==>
      r.value.records[i] == (if IdOf(arts[i]) in byId then GlossApplied(arts[i], byId[IdOf(arts[i])], clock(i)).value else arts[i])
    ensures r.Ok? ==> r.value.count == CountMatched(arts, byId)
    decreases |arts|
  {
    if arts == [] then Ok(Updated([], 0))
    else
      var n := |arts| - 1;
      GlossesApplicableSnoc(arts, byId, clock);
      var prior := ApplyGlossUpdates(arts[..n], byId, clock);
      if prior.Fail? then Fail(prior.fault)
      else
        var a := arts[n];
        var aid := IdOf(a);
        if !Hashable(aid) then Fail(Unhashable("artifact id"))
        else
          var last := if aid in byId then GlossApplied(a, byId[aid], clock(n)) else Ok(a);
          if last.Fail? then Fail(last.fault)
          else
            var records := prior.value.records + [last.value];
            assert records[n] == last.value;
            assert forall i :: 0 <= i < n ==> records[i] == prior.value.records[i];
            Ok(Updated(records, prior.value.count + (if aid in byId then 1 else 0)))
  }

  /** `update_artifact_glosses`: the store keeps its length and order;
      matched artifacts get their metadata gloss, confidence and timestamp
      set and nothing else, each timestamp being the clock reading taken for
      that artifact's position; unmatched artifacts are unchanged and updates
      for unknown ids are dropped. The call fails when an update is not an
      object with an `artifact_id`, or a matched update lacks `gloss` or
      `confidence` (an unmatched one may lack them). A failing call on an
      existing store writes nothing; on a missing store the load has
      already created it holding `[]`, and a failure does not return that
      file. */
  function UpdateArtifactGlosses(f: FileState, updates: seq<Json>, clock: nat -> int): (r: Result<(FileState, nat)>)
    ensures r.Ok? <==>
      && LoadJsonList(f).Ok?
      && GlossUpdatesById(updates).Ok?
      && GlossesApplicable(LoadJsonList(f).value.records, GlossUpdatesById(updates).value, clock)
    ensures r.Ok? ==>
      var before := LoadJsonList(f).value.records;
      var byId := GlossUpdatesById(updates).value;
      var after := LoadJsonList(r.value.0);
      && after.Ok?
      && |after.value.records| == |before|
      && r.value.1 == CountMatched(before, byId)
      && forall i :: 0 <= i < |before| ==>
           after.value.records[i] == (if IdOf(before[i]) in byId
                                      then GlossApplied(before[i], byId[IdOf(before[i])], clock(i)).value
                                      else before[i])
  {
    var l :- LoadJsonList(f);
    var byId :- GlossUpdatesById(updates);
    var applied :- ApplyGlossUpdates(l.records, byId, clock);
    match WriteJsonList(l.file, applied.records)
    case Ok(g) => Ok((g, applied.count))
    case Fail(e) => Fail(e)
  }

  // ---------------------------------------------------------------------
  // make_id

  /** `make_id`: the prefix followed by the millisecond clock in decimal.
      Ids made within the same millisecond coincide. */
  function MakeId(prefix: string, clockMs: nat): (r: string)
    ensures StartsWith(r, prefix) && |r| > |prefix|
  {
    prefix + Decimal(clockMs)
  }

  /** The clock value can be read back from an id: after the prefix come
      only digits, and their value is the clock reading. */
  lemma MakeIdReadsBack(prefix: string, clockMs: nat)
    ensures var digits := MakeId(prefix, clockMs)[|prefix|..];
      AllIn(digits, IsDigit) && DecimalValue(digits) == clockMs
  {
    DecimalRoundTrip(clockMs);
    assert MakeId(prefix, clockMs)[|prefix|..] == Decimal(clockMs);
  }

  /** Two ids with the same prefix are equal exactly when they were made
      in the same millisecond. */
  lemma MakeIdInjective(prefix: string, a: nat, b: nat)
    ensures MakeId(prefix, a) == MakeId(prefix, b) <==> a == b
  {
    if MakeId(prefix, a) == MakeId(prefix, b) {
      MakeIdReadsBack(prefix, a);
      MakeIdReadsBack(prefix, b);
    }
  }
}
